=== FILE: README.md ===
# Spotify sheet player — a Dafny model

The sheet player is a browser front end and a small Express back end. The user
signs in with Spotify through the OAuth 2.0 authorization-code flow. The back
end builds the authorization URL and exchanges the code or a refresh token with
Spotify's accounts service. The browser keeps the tokens in `localStorage` and
refreshes them five minutes before they expire. Every ten seconds it polls the
currently playing track and that track's audio descriptors (key, mode, tempo,
time signature, energy, valence, …) through the back end. From those it draws:

- a now-playing card;
- a mood classification;
- a lyrics panel that highlights the line being sung;
- four kinds of "sheet": a music-theory summary with a scale, chord
  progression and melody, a printable solfège sheet, a VexFlow staff and a
  plain header.

This project models that core as pure functions over immutable data and proves
what each step promises:

- **Token lifecycle** (`TokenStore`, `ApiClient`): what each operation leaves
  in storage, when a token is handed out or refreshed, and what logout clears.
- **Back end** (`AuthService`, `FormEncoding`, `AuthRoutes`, `ApiRoutes`,
  `Cors`):
  - the authorization URL, with a proof that `URLSearchParams` serialisation
    parses back (`FormEncoding`);
  - the two token requests and the status codes each route can send;
  - the `Bearer ` extraction;
  - the CORS allow-list.
- **Player screens** (`Player`, `CurrentTrack`, `Emotion`, `Lyrics`):
  - one poll cycle: its error messages and the 401 logout;
  - the `m:ss` duration label, which reads back as the duration;
  - the mood regions;
  - the lyric-line search: exactly one current line when start times increase.
- **Sheets** (`Music`, `AdvancedSheet`, `PdfSheet`, `VexflowSheet`,
  `SimpleSheet`): defaults, tempo/energy/valence bands, the scale built from
  step patterns (eight notes spanning an octave), note naming, chord tables,
  melody indexing and the VexFlow key signature.

JavaScript's evaluation rules are written out where a decision depends on them,
in `Js`, `Strings` and `Http`:

- `||` treats `""` and `0` as missing; `??` only replaces absent values;
- an out-of-range index is `undefined`;
- `%` truncates toward zero; `Math.round` rounds halves up;
- `parseInt` reads an optional sign and the longest digit run;
- `String.replace` with a string pattern replaces only the first occurrence.

Clocks, network replies and environment variables are parameters: every
operation takes the reply it would have received, as a `Result`.

Some behaviour of the code as written, which the model keeps and states as
lemmas:

- Because `||` treats 0 as missing, a track at exactly zero valence and energy
  is classified as neutral, not sad (`Emotion.ZeroLevelsReadAsMidpoint`).
- The music-theory sheet prints a key of -1 as C, but its scale starts at B3
  (`AdvancedSheet.UndetectedKeyMismatch`).
- A mode other than 0 or 1 is printed as minor but gets the major scale
  (`AdvancedSheet.OtherModeMixesLabels`, `PdfSheet.OtherModeMixesLabels`).
- An object sent by the server as the error `message` is stored as the error
  and makes the player's render throw (`Player.ServerMessageShapes`).
- A missing mode reads as major in the music-theory and printable sheets but
  as minor in the plain header (`SimpleSheet.AgreesWithSummaryExceptMissingMode`).
- A login or refresh reply without `expires_in` stores the expiry `NaN`; that
  token is then never withheld and never refreshed
  (`TokenStore.MissingLifetimeNeverExpires`).
- The printable sheet's pop progression ends "G - Am - F" whatever the key
  (`PdfSheet.Chords`).
- The lyrics panel calls `spotifyService.getLyrics`, which the API client does
  not define. The call therefore always rejects and the demo lines are loaded
  behind the error message. The model takes the fetch outcome as a parameter,
  so both paths are covered (`Lyrics.FetchLyrics`, `Lyrics.FailedFetchHidesDemoLines`).

## Model

| member | source | states |
|---|---|---|
| TokenStore.HandleAuthCallback | spotify-sheet-player/frontend/src/services/auth.ts:36-46 | The code is posted unchanged. On a reply, exactly the three token entries are written: access and refresh token as stored text, and an expiry that `parseInt` reads back as `now + expires_in*1000` (NaN when `expires_in` is missing). A failed reply leaves storage alone, and other keys are never touched. |
| TokenStore.ExpiryText | spotify-sheet-player/frontend/src/services/auth.ts:43 | The stored expiry parses back to `now + expires_in*1000`, or fails to parse when `expires_in` is missing. |
| TokenStore.RefreshAccessToken | spotify-sheet-player/frontend/src/services/auth.ts:48-68 | With no stored refresh token, or an empty one, it fails with "No refresh token available" and sends nothing. Otherwise it sends the stored token. On success it rewrites the access token and the expiry (stored as `NaN` when `expires_in` is missing), and rewrites the refresh token only when a truthy one comes back. Keys outside the three are unchanged. |
| TokenStore.GetAccessToken | spotify-sheet-player/frontend/src/services/auth.ts:70-84 | Returns the stored non-empty token, or nothing exactly when the token or expiry is missing or empty, or `now` is past the parsed expiry. An unparsable expiry compares false, so the token is still returned. |
| TokenStore.IsTokenExpiringSoon | spotify-sheet-player/frontend/src/services/auth.ts:86-92 | True when no expiry is stored. A stored expiry that does not parse (`NaN`) gives false. Otherwise true exactly when `now` is later than five minutes before the parsed expiry. |
| TokenStore.Logout | spotify-sheet-player/frontend/src/services/auth.ts:94-98 | Removes exactly the three token keys; every other entry keeps its value. |
| TokenStore.GetAuthUrl | spotify-sheet-player/frontend/src/services/auth.ts:12-34 | Returns the login reply's `authUrl` field, or none when it is missing; a `null` body fails with the initialisation message. An HTTP error becomes exactly "サーバーエラー: ", the status, a space and the status text, and the status reads back with `parseInt`. No answer gives the connection message and any other failure the initialisation message. |
| TokenStore.LoginReplyReadsBack | spotify-sheet-player/frontend/src/services/auth.ts:14-21 | The back end's login reply, read by `getAuthUrl`, yields the authorization URL the back end built. |
| TokenStore.AuthUrlFailuresDistinct | spotify-sheet-player/frontend/src/services/auth.ts:26-32 | The three failure messages differ, so a server answer, a missing answer and a local error can be told apart. |
| TokenStore.CallbackThenRead | spotify-sheet-player/frontend/src/services/auth.ts:36-84 | After a successful callback at `t0`, the new access token is returned exactly while `now <= t0 + expires_in*1000`, and counts as expiring soon exactly in the last five minutes before that and after it. |
| TokenStore.ValidAtExpiryInstant | spotify-sheet-player/frontend/src/services/auth.ts:79 | The comparison is strict: at the expiry instant itself the token is still returned. |
| TokenStore.ExpiredImpliesExpiringSoon | spotify-sheet-player/frontend/src/services/auth.ts:79-91 | A present token withheld as expired is also reported as expiring soon. |
| TokenStore.MissingLifetimeNeverExpires | spotify-sheet-player/frontend/src/services/auth.ts:43-91 | After a login reply without `expires_in` the token is returned at every instant and never counts as expiring, so it is never refreshed. |
| TokenStore.LogoutClearsSession | spotify-sheet-player/frontend/src/services/auth.ts:48-98 | After logout no token is returned, the session counts as expiring, and a refresh fails without sending anything. |
| ApiClient.GetValidToken | spotify-sheet-player/frontend/src/services/spotify.ts:7-24 | A refresh is attempted exactly when no token is held or it is expiring soon; a failed refresh becomes "Failed to refresh token". After a successful refresh the token then in storage is handed out, or "No valid token available" when there is none. Any token handed out is non-empty and is the one in storage afterwards. |
| ApiClient.RefreshHandsOutNewToken | spotify-sheet-player/frontend/src/services/spotify.ts:10-23 | A missing or expiring token with a stored refresh token is replaced by the reply's access token (the text "undefined" when the reply has none). When that is non-empty and its lifetime is not negative, it is handed out and the call is sent with `Bearer <token>`. |
| ApiClient.RenewedTokenValid | spotify-sheet-player/frontend/src/services/spotify.ts:12-13 | A token stored by a successful refresh with a non-negative lifetime is readable at the instant it was stored. |
| ApiClient.CallApi | spotify-sheet-player/frontend/src/services/spotify.ts:26-60 | Without a valid token no request is sent. Otherwise one GET goes to the endpoint's URL with header `Bearer <token>`, and the reply is returned. |
| ApiClient.NoRefreshForFreshToken | spotify-sheet-player/frontend/src/services/spotify.ts:8-10 | A token more than five minutes from expiry is used without a refresh. |
| ApiClient.CallAfterLogout | spotify-sheet-player/frontend/src/services/spotify.ts:7-24 | After logout every API call fails with the refresh error and sends no request. |
| AuthService.ScopeValue | spotify-sheet-player/backend/src/services/SpotifyAuthService.ts:15-21 | Splitting the scope value on spaces gives back the five scopes in order. |
| AuthService.AuthorizationUrl | spotify-sheet-player/backend/src/services/SpotifyAuthService.ts:14-32 | The authorize endpoint with exactly five parameters in order: `response_type=code`, the client id, the scopes, the redirect URI and `show_dialog=true` (section 4.1.1 of RFC 6749). |
| AuthService.AuthorizationUrlParses | spotify-sheet-player/backend/src/services/SpotifyAuthService.ts:23-31 | Parsing the URL's query as application/x-www-form-urlencoded gives back every parameter's UTF-8 name and value, in order. |
| AuthService.AuthorizationUrlIgnoresSecret | spotify-sheet-player/backend/src/services/SpotifyAuthService.ts:14-32 | The URL depends only on the client id and the redirect URI; the secret never appears. |
| AuthService.ClientCredential | spotify-sheet-player/backend/src/services/SpotifyAuthService.ts:42 | The Basic user-pass is the client id, one colon, then the secret, each part in place. |
| AuthService.CredentialSplits | spotify-sheet-player/backend/src/services/SpotifyAuthService.ts:42-56 | When the id holds no colon (section 2 of RFC 7617), splitting the user-pass at its first colon gives back the id and the secret. |
| AuthService.ExchangeCodeForTokens | spotify-sheet-player/backend/src/services/SpotifyAuthService.ts:34-47 | A form-encoded POST to the token endpoint with the Basic credential and exactly `grant_type=authorization_code`, the code and the redirect URI (section 4.1.3 of RFC 6749). The reply is passed through unchanged. |
| AuthService.RefreshAccessToken | spotify-sheet-player/backend/src/services/SpotifyAuthService.ts:49-61 | The same request with exactly `grant_type=refresh_token` and the token (section 6 of RFC 6749); the reply is passed through unchanged. |
| AuthService.TokenRequestsShareEndpointAndCredential | spotify-sheet-player/backend/src/services/SpotifyAuthService.ts:35-56 | Both token requests use the same URL, content type and credential, and differ only in the form. |
| AuthService.ExchangeBodyParses | spotify-sheet-player/backend/src/services/SpotifyAuthService.ts:35-39 | The exchange body parses back to its three parameters. |
| FormEncoding.Utf8Char | spotify-sheet-player/backend/src/services/SpotifyAuthService.ts:23-31 | One to four bytes, and a single byte equal to the code point exactly for ASCII. |
| FormEncoding.Encode | spotify-sheet-player/backend/src/services/SpotifyAuthService.ts:23-31 | A serialised name or value never contains `&` or `=`. |
| FormEncoding.DecodeEncodeBytes | spotify-sheet-player/backend/src/services/SpotifyAuthService.ts:23-31 | Percent-decoding undoes the byte serialiser for every byte string. |
| FormEncoding.DecodeEncode | spotify-sheet-player/backend/src/services/SpotifyAuthService.ts:23-31 | Decoding a serialised string gives its UTF-8 bytes. |
| FormEncoding.ParseSerialize | spotify-sheet-player/backend/src/services/SpotifyAuthService.ts:23-31 | Parsing a serialised parameter list gives every pair back in order, as UTF-8 bytes. |
| AuthRoutes.Login | spotify-sheet-player/backend/src/routes/auth.ts:7-10 | Status 200 with an `authUrl` field holding the authorization URL. |
| AuthRoutes.Callback | spotify-sheet-player/backend/src/routes/auth.ts:12-22 | The body's code goes to the exchange unchanged. The provider's reply is relayed with 200, and any failure becomes 400 "Authentication failed". |
| AuthRoutes.Refresh | spotify-sheet-player/backend/src/routes/auth.ts:24-34 | The same for a refresh, with "Token refresh failed". |
| AuthRoutes.FailuresAreDistinguishable | spotify-sheet-player/backend/src/routes/auth.ts:20-32 | Both routes fail with 400 and different bodies. |
| ApiRoutes.ExtractToken | spotify-sheet-player/backend/src/routes/spotify.ts:7-8 | A header yields a token exactly when present: the header unchanged when it holds no `Bearer `, otherwise the header with its first `Bearer ` removed. |
| ApiRoutes.BearerRoundTrip | spotify-sheet-player/backend/src/routes/spotify.ts:8 | The header `Bearer <t>` that the API client sends yields `t`. |
| ApiRoutes.ExtractionIsNotAnchored | spotify-sheet-player/backend/src/routes/spotify.ts:8 | A `Bearer ` in the middle of the header is removed too. |
| ApiRoutes.Handle | spotify-sheet-player/backend/src/routes/spotify.ts:6-59 | With no token, or an empty one, the route sends 401 "No token provided" and makes no upstream call. Otherwise it makes one upstream call with that token and relays the result with 200, or sends 500 with the route's own message. |
| ApiRoutes.StatusIsOneOfThree | spotify-sheet-player/backend/src/routes/spotify.ts:6-59 | Only 200, 401 and 500 are ever sent; an upstream status is never relayed. |
| ApiRoutes.BareBearerRefused | spotify-sheet-player/backend/src/routes/spotify.ts:8-12 | A header that is exactly `Bearer ` is refused with 401 and no upstream call. |
| Http.FieldIn | spotify-sheet-player/frontend/src/services/auth.ts:21 | A field is found exactly when some entry has its name, and its value is the last such entry's, as `JSON.parse` keeps the last duplicate key. |
| Http.LastDuplicateWins | spotify-sheet-player/frontend/src/services/auth.ts:21 | Of two entries with the same name the later one is read. |
| Cors.KeepTruthy | spotify-sheet-player/backend/src/server.ts:18 | A string is kept exactly when it is non-empty and one of the candidates; nothing else is added. |
| Cors.KeepTruthyAppend | spotify-sheet-player/backend/src/server.ts:18 | The filter works entry by entry in order: filtering a concatenation concatenates the filtered parts. |
| Cors.KeepTruthyAllKept | spotify-sheet-player/backend/src/server.ts:18 | A list of non-empty strings passes the filter unchanged and in order. |
| Cors.AllowedOrigins | spotify-sheet-player/backend/src/server.ts:12-18 | The four fixed origins, then `FRONTEND_URL` exactly when it is set and non-empty. |
| Cors.Decide | spotify-sheet-player/backend/src/server.ts:21-34 | In development everything is allowed. Otherwise a request is allowed exactly when it has no origin or a listed one, and is refused with "Not allowed by CORS". |
| Cors.FrontendAllowed | spotify-sheet-player/backend/src/server.ts:12-34 | The configured front end is let in; outside development an unknown origin is not. |
| Player.ErrorMessage | spotify-sheet-player/frontend/src/components/Player/Player.tsx:55-67 | 403 gives the permission message and 401 the expiry message. Otherwise a truthy server `message` is kept as sent, whatever its JSON type, and failing that the fallback text. The result is always truthy. |
| Player.TrackIdOf | spotify-sheet-player/frontend/src/components/Player/Player.tsx:35 | A track id is used exactly when the reply has an item with a truthy id. |
| Player.PollStep | spotify-sheet-player/frontend/src/components/Player/Player.tsx:30-71 | Loading always ends. On success the error clears, the track is replaced, and descriptors are fetched only for a truthy id (kept otherwise, dropped when that fetch fails). On failure track and descriptors are kept and the error is set. A logout is scheduled exactly on a 401. |
| Player.Render | spotify-sheet-player/frontend/src/components/Player/Player.tsx:87-147 | The spinner exactly while loading. Then the error screen exactly when the error is truthy and React can print it; an object error makes the render throw. Then the "nothing playing" notice exactly without a track. A playback without `item` throws, because `item.name` is read; otherwise the track screen with the current descriptors. |
| Player.ScreenAfterCycle | spotify-sheet-player/frontend/src/components/Player/Player.tsx:30-147 | After any cycle the spinner is gone. A failed poll shows its own message, or throws when that message is an object. An empty reply shows the notice, a track the track screen, and a playback without an item throws. A descriptors failure never shows as an error. |
| Player.ServerMessageShapes | spotify-sheet-player/frontend/src/components/Player/Player.tsx:63-64 | A string `message` from the server is shown unchanged; an object `message` makes the render throw. |
| Player.RecoveryClearsError | spotify-sheet-player/frontend/src/components/Player/Player.tsx:50-67 | A failure with a printable message shows that message, and a success after it clears the error. |
| CurrentTrack.FormatDuration | spotify-sheet-player/frontend/src/components/Player/CurrentTrack.tsx:37-41 | For a non-negative duration: minutes, `:`, then exactly two digits. The label parses back as the whole minutes, and the two digits read back as the seconds left over. |
| CurrentTrack.FormatDurationReadsBack | spotify-sheet-player/frontend/src/components/Player/CurrentTrack.tsx:37-41 | For a non-negative duration the label is minutes, `:`, then two digits. `parseInt` of it gives the whole minutes, and minutes plus seconds locate the duration to within one second. |
| CurrentTrack.TwoDigitSeconds | spotify-sheet-player/frontend/src/components/Player/CurrentTrack.tsx:40 | A seconds count below 60 pads to exactly two digits that read back as the count. |
| CurrentTrack.KeySignature | spotify-sheet-player/frontend/src/components/Player/CurrentTrack.tsx:43-48 | `Unknown` without descriptors. Otherwise splitting on the space gives back the key's name and the mode's name, each `Unknown` when missing or outside its table. |
| CurrentTrack.NameOr | spotify-sheet-player/frontend/src/components/Player/CurrentTrack.tsx:45-46 | The table's entry for an in-range value, `Unknown` otherwise; never containing a space. |
| CurrentTrack.KeySignatureNamesBoth | spotify-sheet-player/frontend/src/components/Player/CurrentTrack.tsx:33-48 | In-range key and mode are both named from their tables. |
| Emotion.Classify | spotify-sheet-player/frontend/src/components/EmotionAnalysis/EmotionAnalysis.tsx:34-82 | Each of the six moods holds exactly on its region of the valence/energy square, so the regions cover the square without overlap. |
| Emotion.MoodOf | spotify-sheet-player/frontend/src/components/EmotionAnalysis/EmotionAnalysis.tsx:29-82 | Without descriptors, or with both levels absent, the mood is neutral; otherwise it is the region of the two levels, each 0.5 when missing or 0. |
| Emotion.ZeroLevelsReadAsMidpoint | spotify-sheet-player/frontend/src/components/EmotionAnalysis/EmotionAnalysis.tsx:29-30 | Measured zeros read as 0.5, giving neutral, while small positive levels give sadness. |
| Emotion.MoodNamesDistinct | spotify-sheet-player/frontend/src/components/EmotionAnalysis/EmotionAnalysis.tsx:34-82 | No two moods share a name. |
| Emotion.Percent | spotify-sheet-player/frontend/src/components/EmotionAnalysis/EmotionAnalysis.tsx:134-191 | The rounded percentage is within half a point of the level times 100; a missing level shows 0. |
| Emotion.KeyLabel | spotify-sheet-player/frontend/src/components/EmotionAnalysis/EmotionAnalysis.tsx:94-96 | The slash name of `key \|\| 0` (empty outside the table), a space, and the mode label: only exactly 1 is major. |
| Emotion.TempoLabel | spotify-sheet-player/frontend/src/components/EmotionAnalysis/EmotionAnalysis.tsx:124 | Ends in " BPM", and reads back as the rounded `tempo \|\| 120`. |
| Emotion.PlayerView | spotify-sheet-player/frontend/src/components/EmotionAnalysis/EmotionAnalysis.tsx:87-191 | Nothing exactly when there are no descriptors. Otherwise the card for their mood, the key and tempo labels and the four percentages. |
| Emotion.LyricsView | spotify-sheet-player/frontend/src/components/Lyrics/EmotionAnalysis.tsx:20-117 | The card for the mood (from defaults when there are no descriptors), and bars exactly when descriptors exist. |
| Emotion.LyricsTextIgnored | spotify-sheet-player/frontend/src/components/Lyrics/EmotionAnalysis.tsx:20-80 | The lyrics text never changes the panel. |
| Emotion.VariantsAgree | spotify-sheet-player/frontend/src/components/Lyrics/EmotionAnalysis.tsx:26-75 | When both panels show a card they name the same mood; without descriptors the lyrics panel is neutral. |
| Lyrics.FindCurrentFrom | spotify-sheet-player/frontend/src/components/Lyrics/Lyrics.tsx:67-71 | The least index at or after the start whose line has begun and whose successor has not, or -1 exactly when there is none. |
| Lyrics.FindCurrentLine | spotify-sheet-player/frontend/src/components/Lyrics/Lyrics.tsx:67-71 | `findIndex` over the whole list: the first current line, or -1 exactly when none is current. |
| Lyrics.SyncStep | spotify-sheet-player/frontend/src/components/Lyrics/Lyrics.tsx:64-87 | Only the highlighted index can change. When some line is current it moves to a current line with no current line before it; when none matches, or the list is empty, the state is unchanged. |
| Lyrics.ExactlyOneCurrentLine | spotify-sheet-player/frontend/src/components/Lyrics/Lyrics.tsx:67-71 | With strictly increasing start times and a position after the first start, exactly one line is current and it is the one found. |
| Lyrics.NoLineBeforeFirst | spotify-sheet-player/frontend/src/components/Lyrics/Lyrics.tsx:65-73 | Before the first line starts the highlight does not move. |
| Lyrics.FetchLyrics | spotify-sheet-player/frontend/src/components/Lyrics/Lyrics.tsx:33-61 | Without a truthy track id nothing changes. A reply object sets its `lines`, or none when they are missing. A failure sets the error and loads the nine demo lines. Loading always ends. |
| Lyrics.DemoLyricsHaveOneCurrentLine | spotify-sheet-player/frontend/src/components/Lyrics/Lyrics.tsx:47-71 | For every position from 0 the current demo line is `progress / 10000`, capped at 8, and it is the only current line. |
| Lyrics.StyleOf | spotify-sheet-player/frontend/src/components/Lyrics/Lyrics.tsx:139-144 | Current exactly at the highlighted index, past before it, future after it. |
| Lyrics.Render | spotify-sheet-player/frontend/src/components/Lyrics/Lyrics.tsx:93-160 | The spinner exactly while loading, then the error exactly when one is set, else one style per line. |
| Lyrics.FailedFetchHidesDemoLines | spotify-sheet-player/frontend/src/components/Lyrics/Lyrics.tsx:42-121 | After a failed fetch the panel shows the error, not the demo lines loaded behind it. |
| Music.ModeLabel | spotify-sheet-player/frontend/src/utils/advancedSheetGenerator.ts:108 | Major exactly for mode 1, minor otherwise. |
| Music.ParamsOf | spotify-sheet-player/frontend/src/utils/advancedSheetGenerator.ts:99-104 | Each descriptor is kept when present, including a measured 0. Only an absent one falls back: key 0, mode 1, tempo 120, 4 beats, energy and valence 0.5. |
| Music.KeyNameOr | spotify-sheet-player/frontend/src/utils/advancedSheetGenerator.ts:106-107 | The table's name for an in-range key with a non-empty entry; the fallback for a key outside the table or an empty entry, as `\|\|` does. |
| Music.BpmLabel | spotify-sheet-player/frontend/src/utils/advancedSheetGenerator.ts:135 | Ends in " BPM", and reads back as the rounded tempo. |
| Music.MeterLabel | spotify-sheet-player/frontend/src/utils/advancedSheetGenerator.ts:136 | Ends in "/4", and reads back as the beat count. |
| Music.TempoLabelIsNotMeter | spotify-sheet-player/frontend/src/utils/advancedSheetGenerator.ts:135-136 | A tempo label never equals a meter label: the units tell them apart. |
| Music.TempoBandOf | spotify-sheet-player/frontend/src/utils/advancedSheetGenerator.ts:216-229 | Fast exactly above 140, slow exactly below 80, medium between with both limits included. |
| Music.RhythmNotation | spotify-sheet-player/frontend/src/utils/advancedSheetGenerator.ts:232-240 | Eighths exactly when fast, quarters exactly when slow, the mixed pattern exactly when medium; the beat count is ignored. |
| Music.StyleLabel | spotify-sheet-player/frontend/src/utils/advancedSheetGenerator.ts:111 | Energetic above 0.7, calm below 0.3, medium between, each exactly. |
| Music.AtmosphereLabel | spotify-sheet-player/frontend/src/utils/advancedSheetGenerator.ts:112 | Bright, dark or neutral on the same limits. |
| Music.SummaryOf | spotify-sheet-player/frontend/src/utils/advancedSheetGenerator.ts:99-112 | The key name is one of the slash names, and the mode label is major exactly when the defaulted mode is 1, minor otherwise. |
| Music.SummaryReadsBack | spotify-sheet-player/frontend/src/utils/advancedSheetGenerator.ts:99-145 | Every summary figure reads back as the defaulted descriptor it shows; the energy percentage is within half a point. |
| Music.DefaultSummary | spotify-sheet-player/frontend/src/utils/advancedSheetGenerator.ts:99-112 | Without descriptors the summary describes C major, 120 BPM, 4/4, medium, neutral, 50%. |
| AdvancedSheet.Climb | spotify-sheet-player/frontend/src/utils/advancedSheetGenerator.ts:38-51 | The loop adds at most one note per step and never passes the octave above the root. |
| AdvancedSheet.GenerateScale | spotify-sheet-player/frontend/src/utils/advancedSheetGenerator.ts:38-51 | One to eight notes, starting at the root and never above its octave. |
| AdvancedSheet.ClimbKeepsAll | spotify-sheet-player/frontend/src/utils/advancedSheetGenerator.ts:43-48 | With positive steps summing to at most an octave, no note is dropped: the notes are the running sums. |
| AdvancedSheet.ScaleSpansOctave | spotify-sheet-player/frontend/src/utils/advancedSheetGenerator.ts:14-51 | Both scales have eight notes, from the root to the root plus 12, each step the pattern's interval. |
| AdvancedSheet.NoteName | spotify-sheet-player/frontend/src/utils/advancedSheetGenerator.ts:117-120 | For a non-negative note: the slash name of its pitch class, then octave `floor(midi/12) - 1`. |
| AdvancedSheet.ScaleNames | spotify-sheet-player/frontend/src/utils/advancedSheetGenerator.ts:117-120 | One name per note, in order. |
| AdvancedSheet.NoteNameInOctave | spotify-sheet-player/frontend/src/utils/advancedSheetGenerator.ts:115-120 | The note `pc` above an octave's C is named by `pc` and that octave. |
| AdvancedSheet.ScaleNamesForKey | spotify-sheet-player/frontend/src/utils/advancedSheetGenerator.ts:115-120 | For a key in the table the printed scale runs from the key in octave 4 to the key in octave 5. |
| AdvancedSheet.PositionOf | spotify-sheet-player/frontend/src/utils/advancedSheetGenerator.ts:217-226 | The index of a key name in the table, or none exactly when it is absent. |
| AdvancedSheet.Progression | spotify-sheet-player/frontend/src/utils/advancedSheetGenerator.ts:217-226 | The listed key's row, or C's row for any other name. |
| AdvancedSheet.ChordProgression | spotify-sheet-player/frontend/src/utils/advancedSheetGenerator.ts:183-229 | Major takes the major table's row with the remark for the tempo band; every other mode label takes the minor row with the minor remark. |
| AdvancedSheet.ProgressionForKey | spotify-sheet-player/frontend/src/utils/advancedSheetGenerator.ts:185-226 | Every key name selects its own pitch class's row. |
| AdvancedSheet.MelodyNotes | spotify-sheet-player/frontend/src/utils/advancedSheetGenerator.ts:243-265 | `2*timeSignature` notes (none when that is not positive). Note `i` is the pattern entry, chosen by scale length mod 4, taken modulo the scale length; an empty scale gives empty notes. |
| AdvancedSheet.MelodyStaysInScale | spotify-sheet-player/frontend/src/utils/advancedSheetGenerator.ts:255-262 | Every melody note is a scale note, and the melody repeats every four notes. |
| AdvancedSheet.SheetAgreesWithScale | spotify-sheet-player/frontend/src/utils/advancedSheetGenerator.ts:106-120 | For a key in the table the printed key name begins the printed scale. |
| AdvancedSheet.PrintedKey | spotify-sheet-player/frontend/src/utils/advancedSheetGenerator.ts:106-107 | An in-range key prints its slash name. |
| AdvancedSheet.ScaleForEnds | spotify-sheet-player/frontend/src/utils/advancedSheetGenerator.ts:114-120 | The printed scale has eight notes, from the name of MIDI `60 + key` to the name an octave above. |
| AdvancedSheet.Generate | spotify-sheet-player/frontend/src/utils/advancedSheetGenerator.ts:94-178 | Titled with the truthy track name or "楽曲". It carries the shared summary; the printed scale of MIDI `60 + key` (minor only for mode 0), eight notes from the root to its octave; the chords for the printed key and mode label; the rhythm for the tempo band; and the melody notes joined by " - ". |
| AdvancedSheet.MelodyOnTonicTriad | spotify-sheet-player/frontend/src/utils/advancedSheetGenerator.ts:243-265 | The eight-note scale always selects the pattern 0, 2, 4, 2, so every melody note is the scale's first, third or fifth degree. |
| AdvancedSheet.EightNoteMelody | spotify-sheet-player/frontend/src/utils/advancedSheetGenerator.ts:252-262 | Any eight-note scale takes the first pattern. |
| AdvancedSheet.ChordsFollowKey | spotify-sheet-player/frontend/src/utils/advancedSheetGenerator.ts:106-229 | For a key in the table the chords are that key's own row, from the major table exactly for mode 1, with the tempo band's or the minor remark; the scale opens on the printed key in octave 4. |
| AdvancedSheet.UndetectedKeyMismatch | spotify-sheet-player/frontend/src/utils/advancedSheetGenerator.ts:107-120 | Key -1 prints as C while the scale starts at B3. |
| AdvancedSheet.UndetectedKeyChords | spotify-sheet-player/frontend/src/utils/advancedSheetGenerator.ts:106-229 | Key -1 prints as C and takes C's chord rows, major for mode 1 and minor otherwise. |
| AdvancedSheet.OtherModeMixesLabels | spotify-sheet-player/frontend/src/utils/advancedSheetGenerator.ts:108-116 | A mode other than 0 and 1 prints as minor but builds the major scale. |
| PdfSheet.MinorIsRelativeMinor | spotify-sheet-player/frontend/src/utils/pdfGenerator.ts:192-193 | The minor syllables are the major ones rotated to start on the sixth degree. |
| PdfSheet.ScaleIgnoresKey | spotify-sheet-player/frontend/src/utils/pdfGenerator.ts:191-196 | The scale line is the same for every key. |
| PdfSheet.Chords | spotify-sheet-player/frontend/src/utils/pdfGenerator.ts:198-210 | Four chords, the first beginning with the key name. The major pop band ends G, Am, F whatever the key. |
| PdfSheet.ChordProgression | spotify-sheet-player/frontend/src/utils/pdfGenerator.ts:198-210 | The four chords joined by " - ", followed by the remark for the mode and tempo band. |
| PdfSheet.TempoOnlyMattersInMajor | spotify-sheet-player/frontend/src/utils/pdfGenerator.ts:199-209 | A minor label gives the same text at every tempo; a major one gives a different remark in each band. |
| PdfSheet.MelodyNotes | spotify-sheet-player/frontend/src/utils/pdfGenerator.ts:222-229 | `2*timeSignature` syllables (none when that is not positive); syllable `i` is `notes[i mod 7]`. |
| PdfSheet.MelodyCycles | spotify-sheet-player/frontend/src/utils/pdfGenerator.ts:222-229 | The melody starts on the scale's first syllable and repeats every seven. |
| PdfSheet.MeasureBars | spotify-sheet-player/frontend/src/utils/pdfGenerator.ts:231-237 | Empty when the beat count is not positive; otherwise splitting on spaces gives one ♩ per beat. |
| PdfSheet.Generate | spotify-sheet-player/frontend/src/utils/pdfGenerator.ts:5-170 | With no window opened, only the blocked-popup alert. Otherwise the truthy track name or "楽曲", the first artist or "アーティスト不明", the shared summary, the syllable scale (minor only for mode 0), the chords for the printed key and mode label, the bar of quarters, the tempo band's rhythm and the syllable melody. |
| PdfSheet.DocumentReadsBack | spotify-sheet-player/frontend/src/utils/pdfGenerator.ts:137-170 | The chords line opens on the printed key name. For a positive beat count the bar line splits into one ♩ per beat and the melody line into its syllables. |
| PdfSheet.ChordsOpenOnKey | spotify-sheet-player/frontend/src/utils/pdfGenerator.ts:198-210 | The progression text starts with the key name. |
| PdfSheet.SyllablesHaveNoSpace | spotify-sheet-player/frontend/src/utils/pdfGenerator.ts:193-223 | No syllable contains a space. |
| PdfSheet.MelodySplits | spotify-sheet-player/frontend/src/utils/pdfGenerator.ts:222-229 | The melody line splits on spaces back into its syllables. |
| PdfSheet.OtherModeMixesLabels | spotify-sheet-player/frontend/src/utils/pdfGenerator.ts:21-170 | A mode other than 0 and 1 is labelled minor but gets the major syllables. |
| VexflowSheet.MajorScalesAreMajor | spotify-sheet-player/frontend/src/utils/sheetGenerator.ts:11-24 | Twelve rows of seven names. Row `k` begins with the `k`-th chromatic name, and degree `i` is the chromatic name `k + [0,2,4,5,7,9,11][i]` mod 12. |
| VexflowSheet.ScaleRow | spotify-sheet-player/frontend/src/utils/sheetGenerator.ts:42 | The key's row, or row 0 outside the table; the mode is not consulted. |
| VexflowSheet.VexNamesOfSharps | spotify-sheet-player/frontend/src/utils/sheetGenerator.ts:73 | Replacing the first ♯ by `#` and the first ♭ by `b` spells every chromatic name as VexFlow expects. |
| VexflowSheet.SignatureFrom | spotify-sheet-player/frontend/src/utils/sheetGenerator.ts:54-64 | Mode 1 takes the major table, every other mode the minor one; C and Am for a key outside the table or an empty entry. |
| VexflowSheet.KeySignatureAsWritten | spotify-sheet-player/frontend/src/utils/sheetGenerator.ts:54-64 | As written: mode 1 takes the major circle-of-fifths table and every other mode the minor one, at the key's index, so the drawn tonic is the one listed at that position; C or Am for a key outside the table. |
| VexflowSheet.AsWrittenMisnamesKeys | spotify-sheet-player/frontend/src/utils/sheetGenerator.ts:56-57 | G major is drawn as C♯ major, C♯ major as G major, and C minor as A minor. |
| VexflowSheet.AsWrittenTonics | spotify-sheet-player/frontend/src/utils/sheetGenerator.ts:56-64 | The drawn tonic is the one at the key's circle-of-fifths position. Only C, D, E and F♯ major are drawn with their own signature, and no minor key is. |
| VexflowSheet.KeySignature | spotify-sheet-player/frontend/src/utils/sheetGenerator.ts:54-64 | The corrected lookup: mode 1 draws from the major table and every other mode from the minor one, and for every key in range the signature's tonic is the key; C or Am otherwise. |
| VexflowSheet.KeyTablesReordered | spotify-sheet-player/frontend/src/utils/sheetGenerator.ts:56-57 | The corrected tables hold the written names, each moved to its own tonic's index. |
| VexflowSheet.SignatureTablesDisjoint | spotify-sheet-player/frontend/src/utils/sheetGenerator.ts:56-57 | No name is in both a major and a minor table. |
| VexflowSheet.SignatureTellsMode | spotify-sheet-player/frontend/src/utils/sheetGenerator.ts:59-63 | On the same index a major and a minor key get different signatures, both as written and corrected. |
| VexflowSheet.SimpleMelody | spotify-sheet-player/frontend/src/utils/sheetGenerator.ts:66-86 | One note per beat (none when the count is not positive). Note `i` is `scale[i mod \|scale\|]` in VexFlow spelling at octave 4. |
| VexflowSheet.BasicSheet | spotify-sheet-player/frontend/src/utils/sheetGenerator.ts:26-52 | As written: the meter reads back as the beat count, the signature is the circle-of-fifths table's entry at the key's index, and the notes walk the key's row. |
| VexflowSheet.DrawStave | spotify-sheet-player/frontend/src/utils/sheetGenerator.ts:36-43 | The stave carries the given signature, a meter that reads back as the beat count, and one note per beat from the key's row. |
| VexflowSheet.BasicSheetCorrected | spotify-sheet-player/frontend/src/utils/sheetGenerator.ts:26-52 | The same stave with the corrected lookup: the signature comes from the major table exactly for mode 1 and from the minor one otherwise, and for a key in range its tonic is the key. |
| VexflowSheet.AsWrittenMelodyOffSignature | spotify-sheet-player/frontend/src/utils/sheetGenerator.ts:37-64 | As written, a major key's bar opens on its signature's tonic exactly for C, D, E and F♯. |
| VexflowSheet.FirstNoteIsTonic | spotify-sheet-player/frontend/src/utils/sheetGenerator.ts:42-43 | The bar's first note names the key's own pitch class. |
| VexflowSheet.MelodyOpensOnSignatureTonic | spotify-sheet-player/frontend/src/utils/sheetGenerator.ts:37-43 | In a major key the bar's first note is the tonic the signature names. |
| SimpleSheet.HeaderOf | spotify-sheet-player/frontend/src/utils/simpleSheetGenerator.ts:5-26 | Key, tempo and meter fall back to 0, 120 and 4 only when absent. The key is named from the sharps table, with C outside it. The mode is major exactly when a mode of 1 is present. |
| SimpleSheet.AgreesWithSummaryExceptMissingMode | spotify-sheet-player/frontend/src/utils/simpleSheetGenerator.ts:18 | Tempo and meter agree with the music-theory summary, and so does a present mode. A missing mode reads minor here and major there. |
| Strings.ParseIntRoundTrip | spotify-sheet-player/frontend/src/services/auth.ts:43-79 | `parseInt(String(i))` is `i` for every integer. |
| Strings.SplitJoin | spotify-sheet-player/backend/src/services/SpotifyAuthService.ts:21 | Splitting a joined list gives it back when no part holds the separator. |
| Js.Rem | spotify-sheet-player/frontend/src/components/Player/CurrentTrack.tsx:39 | The remainder truncates toward zero: for a negative dividend it is minus the dividend's magnitude modulo the divisor, so it takes the dividend's sign; for a non-negative one it is Dafny's remainder. |
| Js.RemIsOdd | spotify-sheet-player/frontend/src/components/Player/CurrentTrack.tsx:39 | Negating the dividend negates the remainder; `-5 % 3` is -2. |
| Js.Round | spotify-sheet-player/frontend/src/utils/advancedSheetGenerator.ts:135 | The result is within half of the argument, with halves rounding up. |

## Findings

| source | as written | input that shows it | evidently intended | confidence | as-written member | corrected member |
|---|---|---|---|---|---|---|
| spotify-sheet-player/frontend/src/utils/sheetGenerator.ts:56-57 | The key-signature tables are listed round the circle of fifths but indexed by the pitch-class key. | key 7 (G), mode 1 draws "C#"; key 0 (C), mode 0 draws "Am" | The tables are indexed by pitch class, so the signature's tonic is the key, matching the melody row `majorScales[key]`. | high; not executed | VexflowSheet.KeySignatureAsWritten, VexflowSheet.BasicSheet (with VexflowSheet.AsWrittenMisnamesKeys, VexflowSheet.AsWrittenTonics, VexflowSheet.AsWrittenMelodyOffSignature) | VexflowSheet.KeySignature, VexflowSheet.BasicSheetCorrected (with VexflowSheet.KeyTablesReordered, VexflowSheet.MelodyOpensOnSignatureTonic) |

## Left out

- Rendering: HTML, JSX and CSS output, VexFlow drawing, scrolling, `window.print`, timers (`setInterval`, the three-second logout `setTimeout`) and `window.location.reload`. Only the computed strings, values and decisions are modelled.
- The Express and axios plumbing: JSON body parsing, headers other than `Authorization` and `Content-Type`, and the health route. The CORS `credentials`, `methods` and header lists are constants that no decision reads.
- Base64 encoding of the Basic credential: `AuthService.ClientCredential` stops at the user-pass text that gets encoded.
- `SpotifyApiService` (the back end's calls to the Web API): the routes take its result as a parameter.
- `AdvancedSheet.MelodyNotes`: the music-theory sheet's random `generateMelody`/`generateChords` helpers are not called by the rendered sheet and are left out.
- `Lyrics.FetchLyrics`: the lyrics fetch calls a method that does not exist in the API client; the outcome is a parameter.
- React effect ordering and the transient frames between two state updates. One poll cycle and one fetch are modelled as one step each.
- Numbers: JSON numbers are integers and tempo and levels are reals. Floating-point rounding, `NaN` inputs and `toLocaleString` formatting are not modelled.
- Strings.ParseInt: `parseInt`'s leading whitespace and radix prefixes are not modelled, because every modelled input is produced by `String()` of an integer.
- Lyrics.Render: the translation toggle and auto-scroll are left out; only which panel shows and each line's style are modelled.
- Player.Render: the error screen carries the error value itself; how React turns a number, boolean or array into text is not modelled.
- VexflowSheet.BasicSheet: takes whole-number key, mode and time signature, as the generator's declared types require; absent fields are not modelled.
- The demo and proxy servers (`simple-server.js`, `simple-proxy.js`, `auth-proxy.js`, `test-server.js`), `App-simple.tsx` and the page components are not part of this model.

=== FILE: advanced_sheet.dfy ===
/** The music-theory sheet: an eight-note scale from the key and mode, its
    note names with octaves, a chord progression from a per-key table, a
    rhythm line and a melody drawn from the scale by a fixed pattern. */
module AdvancedSheet {
  import opened Wrappers
  import opened Features
  import opened Strings
  import Music
  import Js

  /** Whole and half steps of the major and the natural minor scale. */
  const MajorPattern: seq<int> := [2, 2, 1, 2, 2, 2, 1]
  const MinorPattern: seq<int> := [2, 1, 2, 2, 1, 2, 2]

  function Pattern(isMinor: bool): seq<int> {
    if isMinor then MinorPattern else MajorPattern
  }

  function Sum(steps: seq<int>): int {
    if |steps| == 0 then 0 else steps[0] + Sum(steps[1..])
  }

  /** The loop of `generateScale` from `current` on: each step moves the note,
      and the note is kept only while it stays within an octave of `root`. */
  function Climb(root: int, current: int, steps: seq<int>): (notes: seq<int>)
    ensures |notes| <= |steps|
    ensures forall i :: 0 <= i < |notes| ==> notes[i] <= root + 12
    decreases |steps|
  {
    if |steps| == 0 then []
    else
      var next := current + steps[0];
      (if next <= root + 12 then [next] else []) + Climb(root, next, steps[1..])
  }

  /** MIDI notes of the scale on `root`: the root, then the pattern's notes up
      to and including the octave. */
  function GenerateScale(root: int, isMinor: bool): (scale: seq<int>)
    ensures 1 <= |scale| <= 8 && scale[0] == root
    ensures forall i :: 0 <= i < |scale| ==> scale[i] <= root + 12
  {
    [root] + Climb(root, root, Pattern(isMinor))
  }

  /** With positive steps that never leave the octave, no note is dropped: the
      notes are the running sums of the steps. */
  lemma {:induction false} ClimbKeepsAll(root: int, current: int, steps: seq<int>)
    requires forall i :: 0 <= i < |steps| ==> steps[i] > 0
    requires current + Sum(steps) <= root + 12
    ensures var notes := Climb(root, current, steps);
      && |notes| == |steps|
      && (|steps| > 0 ==> notes[0] == current + steps[0])
      && (forall i :: 0 <= i < |steps| - 1 ==> notes[i + 1] == notes[i] + steps[i + 1])
      && (|steps| > 0 ==> notes[|steps| - 1] == current + Sum(steps))
    decreases |steps|
  {
    if |steps| > 0 {
      var next := current + steps[0];
      var tail := steps[1..];
      assert Sum(steps) == steps[0] + Sum(tail);
      assert forall i :: 0 <= i < |tail| ==> tail[i] == steps[i + 1];
      SumOfPositive(tail);
      ClimbKeepsAll(root, next, tail);
      var rest := Climb(root, next, tail);
      assert Climb(root, current, steps) == [next] + rest;
    }
  }

  lemma {:induction false} SumOfPositive(steps: seq<int>)
    requires forall i :: 0 <= i < |steps| ==> steps[i] > 0
    ensures Sum(steps) >= 0
  {
    if |steps| > 0 {
      SumOfPositive(steps[1..]);
    }
  }

  /** Both scales have eight notes rising from the root to the octave, each step
      the pattern's interval. */
  lemma ScaleSpansOctave(root: int, isMinor: bool)
    ensures var scale := GenerateScale(root, isMinor);
      && |scale| == 8
      && scale[0] == root
      && scale[7] == root + 12
      && forall i :: 0 <= i < 7 ==> scale[i + 1] == scale[i] + Pattern(isMinor)[i]
  {
    var p := Pattern(isMinor);
    var climb := Climb(root, root, p);
    PatternClimbs(root, isMinor);
    assert GenerateScale(root, isMinor) == [root] + climb;
    RootThenClimb(root, p, climb);
  }

  /** Climbing either pattern from the root keeps all seven notes. */
  lemma PatternClimbs(root: int, isMinor: bool)
    ensures var p := Pattern(isMinor); var climb := Climb(root, root, p);
      && |p| == 7 && |climb| == 7
      && climb[0] == root + p[0]
      && (forall i :: 0 <= i < 6 ==> climb[i + 1] == climb[i] + p[i + 1])
      && climb[6] == root + 12
  {
    PatternsSpanOctave();
    ClimbKeepsAll(root, root, Pattern(isMinor));
  }

  /** The root followed by the running sums of seven steps rises by those steps. */
  lemma RootThenClimb(root: int, steps: seq<int>, climb: seq<int>)
    requires |steps| == 7 && |climb| == 7
    requires climb[0] == root + steps[0]
    requires forall i :: 0 <= i < 6 ==> climb[i + 1] == climb[i] + steps[i + 1]
    ensures var scale := [root] + climb;
      && |scale| == 8 && scale[0] == root && scale[7] == climb[6]
      && forall i :: 0 <= i < 7 ==> scale[i + 1] == scale[i] + steps[i]
  {
    var scale := [root] + climb;
    forall i | 0 <= i < 7
      ensures scale[i + 1] == scale[i] + steps[i]
    {
      if i > 0 {
        assert scale[i + 1] == climb[i] && scale[i] == climb[i - 1];
      }
    }
  }

  /** Each pattern has seven rising steps that add up to an octave. */
  lemma PatternsSpanOctave()
    ensures |MajorPattern| == 7 && |MinorPattern| == 7
    ensures forall i :: 0 <= i < 7 ==> MajorPattern[i] > 0 && MinorPattern[i] > 0
    ensures Sum(MajorPattern) == 12 && Sum(MinorPattern) == 12
  {
    assert Sum(MajorPattern[6..]) == 1;
    assert Sum(MinorPattern[6..]) == 2;
  }

  /** A MIDI note's name: the pitch class from the slash table (JavaScript's
      remainder, so a negative note finds no name and prints `undefined`),
      then the octave `floor(midi / 12) - 1`. */
  function NoteName(midi: int): (r: string)
    ensures midi >= 0 ==> r == Music.SlashKeyNames[midi % 12] + IntToString(midi / 12 - 1)
  {
    var name := match Js.At(Music.SlashKeyNames, Js.Rem(midi, 12))
      case Some(n) => n
      case None => "undefined";
    name + IntToString(midi / 12 - 1)
  }

  /** The scale as printed. */
  function ScaleNames(scale: seq<int>): (names: seq<string>)
    ensures |names| == |scale|
    ensures forall i :: 0 <= i < |scale| ==> names[i] == NoteName(scale[i])
  {
    if |scale| == 0 then [] else [NoteName(scale[0])] + ScaleNames(scale[1..])
  }

  /** The note `pc` semitones above the C of an octave is named by the pitch
      class and that octave. */
  lemma NoteNameInOctave(pc: int, octave: nat)
    requires 0 <= pc < 12
    ensures NoteName(12 * (octave + 1) + pc) == Music.SlashKeyNames[pc] + IntToString(octave)
  {
    var midi := 12 * (octave + 1) + pc;
    assert midi % 12 == pc && midi / 12 == octave + 1;
  }

  /** The scale for a key in the table starts at that key in octave 4 and ends
      at the same name in octave 5. */
  lemma ScaleNamesForKey(key: int, isMinor: bool)
    requires 0 <= key < 12
    ensures var names := ScaleNames(GenerateScale(60 + key, isMinor));
      && |names| == 8
      && names[0] == Music.SlashKeyNames[key] + "4"
      && names[7] == Music.SlashKeyNames[key] + "5"
  {
    PrintedEnds(60 + key, isMinor);
    assert NoteName(60 + key) == Music.SlashKeyNames[key] + "4" by {
      NoteNameInOctave(key, 4);
      assert IntToString(4) == "4";
    }
    assert NoteName(72 + key) == Music.SlashKeyNames[key] + "5" by {
      NoteNameInOctave(key, 5);
      assert IntToString(5) == "5";
    }
  }

  /** The printed scale opens with the root's name and closes with the name of
      the note an octave above it. */
  lemma PrintedEnds(root: int, isMinor: bool)
    ensures var names := ScaleNames(GenerateScale(root, isMinor));
      && |names| == 8
      && names[0] == NoteName(root)
      && names[7] == NoteName(root + 12)
  {
    var scale := GenerateScale(root, isMinor);
    ScaleSpansOctave(root, isMinor);
    var names := ScaleNames(scale);
    assert names[0] == NoteName(scale[0]);
    assert names[7] == NoteName(scale[7]);
  }

  /** Major progressions (I-V-vi-IV), in the order of the slash key names
      that index them. */
  const MajorProgressions: seq<string> := [
    "C - G - Am - F",
    "C♯ - G♯ - A♯m - F♯",
    "D - A - Bm - G",
    "E♭ - B♭ - Cm - A♭",
    "E - B - C♯m - A",
    "F - C - Dm - B♭",
    "F♯ - C♯ - D♯m - B",
    "G - D - Em - C",
    "A♭ - E♭ - Fm - D♭",
    "A - E - F♯m - D",
    "B♭ - F - Gm - E♭",
    "B - F♯ - G♯m - E"
  ]

  /** Minor progressions (i-iv-v-i), in the same order. */
  const MinorProgressions: seq<string> := [
    "Cm - Fm - Gm - Cm",
    "C♯m - F♯m - G♯m - C♯m",
    "Dm - Gm - Am - Dm",
    "E♭m - A♭m - B♭m - E♭m",
    "Em - Am - Bm - Em",
    "Fm - B♭m - Cm - Fm",
    "F♯m - Bm - C♯m - F♯m",
    "Gm - Cm - Dm - Gm",
    "G♯m - C♯m - D♯m - G♯m",
    "Am - Dm - Em - Am",
    "B♭m - E♭m - Fm - B♭m",
    "Bm - Em - F♯m - Bm"
  ]

  /** The position of `name` among `names`, if it is there. */
  function PositionOf(names: seq<string>, name: string): (r: Option<nat>)
    ensures r.None? <==> name !in names
    ensures r.Some? ==> r.value < |names| && names[r.value] == name
  {
    if |names| == 0 then None
    else if names[0] == name then Some(0)
    else match PositionOf(names[1..], name)
      case None => None
      case Some(i) => Some(i + 1)
  }

  /** `table[key] || table['C']` for a table keyed by the slash key names
      (every entry is non-empty, so only an unknown name falls back). */
  function Progression(table: seq<string>, key: string): (r: string)
    requires |table| == |Music.SlashKeyNames|
    ensures key in Music.SlashKeyNames ==> exists i :: 0 <= i < 12 && Music.SlashKeyNames[i] == key && r == table[i]
    ensures key !in Music.SlashKeyNames ==> r == table[0]
  {
    match PositionOf(Music.SlashKeyNames, key)
    case Some(i) => table[i]
    case None => table[0]
  }

  const PowerChordNote := " (パワーコード推奨)"
  const JazzNote := " (ジャズ風にM7やm7を追加)"
  const PopNote := " (ポップス進行)"
  const MinorNote := " (マイナー進行)"

  /** The major table's row with a remark chosen by tempo band; any other mode
      label takes the minor row and one fixed remark, whatever the tempo. */
  function ChordProgression(key: string, mode: string, tempo: real): (r: string)
    ensures mode == Music.MajorLabel ==> r == Progression(MajorProgressions, key) + match Music.TempoBandOf(tempo)
      case Fast => PowerChordNote
      case Slow => JazzNote
      case Medium => PopNote
    ensures mode != Music.MajorLabel ==> r == Progression(MinorProgressions, key) + MinorNote
  {
    if mode == Music.MajorLabel then
      var progression := Progression(MajorProgressions, key);
      if tempo > 140.0 then progression + PowerChordNote
      else if tempo < 80.0 then progression + JazzNote
      else progression + PopNote
    else Progression(MinorProgressions, key) + MinorNote
  }

  /** The pitch class's own row is chosen for every name in the table. */
  lemma ProgressionForKey(table: seq<string>, k: int)
    requires |table| == |Music.SlashKeyNames| && 0 <= k < 12
    ensures Progression(table, Music.SlashKeyNames[k]) == table[k]
  {
    var names := Music.SlashKeyNames;
    assert forall i, j :: 0 <= i < j < 12 ==> names[i] != names[j];
  }

  /** The four melody patterns, chosen by the scale's length modulo 4. */
  const MelodyPatterns: seq<seq<int>> := [[0, 2, 4, 2], [4, 2, 0, 1], [0, 4, 2, 5], [0, 0, 3, 5]]

  /** The melody's notes: `2 * timeSignature` of them (none when that is not
      positive), the `i`-th taken from the scale at the pattern's `i mod 4`-th
      degree, wrapped to the scale's length. An empty scale yields empty notes
      (JavaScript's `x % 0` is NaN, the lookup undefined, and `join` prints it
      as nothing). */
  function MelodyNotes(scale: seq<string>, timeSignature: int): (notes: seq<string>)
    ensures |notes| == if timeSignature > 0 then 2 * timeSignature else 0
    ensures |scale| > 0 ==> forall i :: 0 <= i < |notes| ==>
      notes[i] == scale[MelodyPatterns[|scale| % 4][i % 4] % |scale|]
    ensures |scale| == 0 ==> forall i :: 0 <= i < |notes| ==> notes[i] == ""
  {
    var count := if timeSignature > 0 then 2 * timeSignature else 0;
    var pattern := MelodyPatterns[|scale| % 4];
    seq(count, i requires 0 <= i < count => if |scale| == 0 then "" else scale[pattern[i % 4] % |scale|])
  }

  /** Every melody note is a scale note, and the melody repeats every four notes. */
  lemma MelodyStaysInScale(scale: seq<string>, timeSignature: int)
    requires |scale| > 0
    ensures var notes := MelodyNotes(scale, timeSignature);
      && (forall i :: 0 <= i < |notes| ==> notes[i] in scale)
      && (forall i :: 0 <= i < |notes| - 4 ==> notes[i + 4] == notes[i])
  {
    var notes := MelodyNotes(scale, timeSignature);
    forall i | 0 <= i < |notes| - 4
      ensures notes[i + 4] == notes[i]
    {
      assert (i + 4) % 4 == i % 4;
    }
  }

  /** The printed scale for possibly absent descriptors: built on MIDI
      `60 + key`, minor only for mode 0. */
  function ScaleFor(features: Option<AudioFeatures>): seq<string> {
    var p := Music.ParamsOf(features);
    ScaleNames(GenerateScale(60 + p.key, p.mode == 0))
  }

  /** The printed scale always has eight notes, from the root's name to the
      name an octave above. */
  lemma ScaleForEnds(features: Option<AudioFeatures>)
    ensures var key := Music.ParamsOf(features).key; var scale := ScaleFor(features);
      && |scale| == 8 && scale[0] == NoteName(60 + key) && scale[7] == NoteName(72 + key)
  {
    var p := Music.ParamsOf(features);
    PrintedEnds(60 + p.key, p.mode == 0);
  }

  /** The rendered sheet, as the text each section carries. */
  datatype Sheet = Sheet(
    title: string, summary: Music.Summary, scale: seq<string>,
    chords: string, rhythm: string, melody: string)

  /** The sheet for a track name (possibly missing) and descriptors (possibly
      missing): the name or a generic title, the shared summary, the eight
      scale notes from the root to its octave, the tempo band's rhythm and the
      melody notes joined by " - ". */
  function Generate(trackName: Option<string>, features: Option<AudioFeatures>): (s: Sheet)
    ensures Js.Truthy(trackName) ==> s.title == trackName.value
    ensures !Js.Truthy(trackName) ==> s.title == "楽曲"
    ensures s.summary == Music.SummaryOf(features)
    ensures s.scale == ScaleNames(GenerateScale(60 + Music.ParamsOf(features).key, Music.ParamsOf(features).mode == 0))
    ensures |s.scale| == 8
    ensures s.scale[0] == NoteName(60 + Music.ParamsOf(features).key)
    ensures s.scale[7] == NoteName(72 + Music.ParamsOf(features).key)
    ensures s.chords == ChordProgression(s.summary.keyName, s.summary.modeName, Music.ParamsOf(features).tempo)
    ensures s.rhythm == Music.RhythmNotation(Music.ParamsOf(features).timeSignature, Music.ParamsOf(features).tempo)
    ensures s.melody == Join(MelodyNotes(s.scale, Music.ParamsOf(features).timeSignature), " - ")
  {
    var p := Music.ParamsOf(features);
    var summary := Music.SummaryOf(features);
    var scale := ScaleFor(features);
    ScaleForEnds(features);
    Sheet(
      Js.StrOr(trackName, "楽曲"), summary, scale,
      ChordProgression(summary.keyName, summary.modeName, p.tempo),
      Music.RhythmNotation(p.timeSignature, p.tempo),
      Join(MelodyNotes(scale, p.timeSignature), " - "))
  }

  /** Each note follows the climbing pattern tonic, third, fifth, third of an
      eight-note scale, so only the notes of the tonic triad occur. */
  predicate ClimbsTonicTriad(scale: seq<string>, notes: seq<string>)
    requires |scale| == 8
  {
    forall i :: 0 <= i < |notes| ==>
      && notes[i] == scale[[0, 2, 4, 2][i % 4]]
      && (notes[i] == scale[0] || notes[i] == scale[2] || notes[i] == scale[4])
  }

  /** With an eight-note scale the first pattern is always chosen, so the
      sheet's melody climbs the tonic triad. */
  lemma MelodyOnTonicTriad(trackName: Option<string>, features: Option<AudioFeatures>)
    ensures var s := Generate(trackName, features);
      var notes := MelodyNotes(s.scale, Music.ParamsOf(features).timeSignature);
      && s.melody == Join(notes, " - ")
      && ClimbsTonicTriad(s.scale, notes)
  {
    var s := Generate(trackName, features);
    EightNoteMelody(s.scale, Music.ParamsOf(features).timeSignature);
  }

  /** Any eight-note scale takes the first pattern. */
  lemma EightNoteMelody(scale: seq<string>, timeSignature: int)
    requires |scale| == 8
    ensures ClimbsTonicTriad(scale, MelodyNotes(scale, timeSignature))
  {
    var notes := MelodyNotes(scale, timeSignature);
    var pattern := [0, 2, 4, 2];
    assert MelodyPatterns[|scale| % 4] == pattern;
    forall i | 0 <= i < |notes|
      ensures notes[i] == scale[pattern[i % 4]]
    {
      assert pattern[i % 4] % 8 == pattern[i % 4];
    }
  }

  /** For a key in the table the chords are that key's own row, major or minor
      as the label says, with the remark for the tempo band (major) or the
      fixed minor remark; the scale opens on the printed key in octave 4. */
  lemma ChordsFollowKey(trackName: Option<string>, features: Option<AudioFeatures>)
    requires 0 <= Music.ParamsOf(features).key < 12
    ensures var s := Generate(trackName, features); var p := Music.ParamsOf(features);
      && (p.mode == 1 ==> s.chords == MajorProgressions[p.key] + match Music.TempoBandOf(p.tempo)
        case Fast => PowerChordNote
        case Slow => JazzNote
        case Medium => PopNote)
      && (p.mode != 1 ==> s.chords == MinorProgressions[p.key] + MinorNote)
      && s.scale[0] == s.summary.keyName + "4"
  {
    var p := Music.ParamsOf(features);
    PrintedKey(features);
    ProgressionForKey(MajorProgressions, p.key);
    ProgressionForKey(MinorProgressions, p.key);
    SheetAgreesWithScale(features);
  }

  /** For a key in the table the printed key name is the scale's first note
      without its octave, and the scale's last note is the same name an octave up. */
  lemma SheetAgreesWithScale(features: Option<AudioFeatures>)
    requires 0 <= Music.ParamsOf(features).key < 12
    ensures var scale := ScaleFor(features);
      && |scale| == 8
      && scale[0] == Music.SummaryOf(features).keyName + "4"
      && scale[7] == Music.SummaryOf(features).keyName + "5"
  {
    var p := Music.ParamsOf(features);
    var scale := ScaleFor(features);
    assert scale == ScaleNames(GenerateScale(60 + p.key, p.mode == 0));
    PrintedKey(features);
    ScaleNamesForKey(p.key, p.mode == 0);
  }

  lemma PrintedKey(features: Option<AudioFeatures>)
    requires 0 <= Music.ParamsOf(features).key < 12
    ensures Music.SummaryOf(features).keyName == Music.SlashKeyNames[Music.ParamsOf(features).key]
  {
    Music.NamesNonEmpty();
    Music.SummaryReadsBack(features);
  }

  /** A key of -1 (what the provider reports when it detects none) prints as C,
      yet the scale is built on MIDI 59 and starts at B3. */
  lemma UndetectedKeyMismatch(f: AudioFeatures)
    requires f.key == Some(-1)
    ensures Music.SummaryOf(Some(f)).keyName == "C"
    ensures |ScaleFor(Some(f))| == 8 && ScaleFor(Some(f))[0] == "B3"
  {
    var p := Music.ParamsOf(Some(f));
    Music.SummaryReadsBack(Some(f));
    assert Music.KeyNameOr(Music.SlashKeyNames, p.key, "C") == "C";
    UndetectedKeyScale(f);
  }

  /** Key -1 prints as C, and the chords are C's rows: C major's progression
      for mode 1, C minor's for any other mode. */
  lemma UndetectedKeyChords(trackName: Option<string>, f: AudioFeatures)
    requires f.key == Some(-1)
    ensures var s := Generate(trackName, Some(f)); var p := Music.ParamsOf(Some(f));
      && (p.mode == 1 ==> s.chords == MajorProgressions[0] + match Music.TempoBandOf(p.tempo)
        case Fast => PowerChordNote
        case Slow => JazzNote
        case Medium => PopNote)
      && (p.mode != 1 ==> s.chords == MinorProgressions[0] + MinorNote)
  {
    var p := Music.ParamsOf(Some(f));
    Music.SummaryReadsBack(Some(f));
    assert Music.SummaryOf(Some(f)).keyName == "C" by {
      assert Music.KeyNameOr(Music.SlashKeyNames, p.key, "C") == "C";
    }
    ProgressionForKey(MajorProgressions, 0);
    ProgressionForKey(MinorProgressions, 0);
  }

  lemma UndetectedKeyScale(f: AudioFeatures)
    requires f.key == Some(-1)
    ensures |ScaleFor(Some(f))| == 8 && ScaleFor(Some(f))[0] == "B3"
  {
    var isMinor := Music.ParamsOf(Some(f)).mode == 0;
    assert ScaleFor(Some(f)) == ScaleNames(GenerateScale(59, isMinor)) by {
      assert Music.ParamsOf(Some(f)).key == -1;
    }
    ScaleOnB3(isMinor);
  }

  lemma NoteNameB3()
    ensures NoteName(59) == "B3"
  {
    NoteNameInOctave(11, 3);
    assert Music.SlashKeyNames[11] == "B";
    assert IntToString(3) == "3";
  }

  /** The scale on MIDI 59 is printed from B3. */
  lemma ScaleOnB3(isMinor: bool)
    ensures var names := ScaleNames(GenerateScale(59, isMinor)); |names| == 8 && names[0] == "B3"
  {
    PrintedEnds(59, isMinor);
    NoteNameB3();
  }

  /** Only mode 0 selects the minor scale but only mode 1 prints "major", so any
      other mode value prints "minor" over a major scale. */
  lemma OtherModeMixesLabels(f: AudioFeatures, mode: int)
    requires f.mode == Some(mode) && mode != 0 && mode != 1
    ensures Music.SummaryOf(Some(f)).modeName == Music.MinorLabel
    ensures ScaleFor(Some(f)) == ScaleNames(GenerateScale(60 + Music.ParamsOf(Some(f)).key, false))
  {
  }
}

=== FILE: api_client.dfy ===
/** The browser's API client: before every call it makes sure it holds a usable
    access token, refreshing it at most once, and then sends the call with a
    `Bearer` authorization header. */
module ApiClient {
  import opened Wrappers
  import opened Http
  import opened TokenStore
  import Js
  import Strings

  const ApiBase: string := "https://spotify-sheet-player-production.up.railway.app/api"
  const RefreshFailedMessage: string := "Failed to refresh token"
  const NoValidTokenMessage: string := "No valid token available"

  /** What `getValidToken()` leaves behind: the store, whether it attempted a refresh,
      the refresh token that attempt sent, and the token or the error it threw. */
  datatype TokenCheck = TokenCheck(
    store: Store,
    refreshAttempted: bool,
    refreshSent: Option<string>,
    token: Result<string, Failure>)

  /** `getValidToken()`. `now` is the clock before the check and `later` the clock
      once the refresh round trip (if any) has returned. */
  function GetValidToken(store: Store, now: int, later: int, refreshResponse: Result<TokenResponse, Failure>)
    : (r: TokenCheck)
    ensures r.refreshAttempted <==> GetAccessToken(store, now).None? || IsTokenExpiringSoon(store, now)
    ensures !r.refreshAttempted ==>
              r == TokenCheck(store, false, None, Ok(GetAccessToken(store, now).value))
    ensures r.refreshAttempted ==>
              var refreshed := RefreshAccessToken(store, later, refreshResponse);
              && r.store == refreshed.store
              && r.refreshSent == refreshed.sent
              && (refreshed.result.Err? ==> r.token == Err(PlainError(RefreshFailedMessage)))
              && (refreshed.result.Ok? && GetAccessToken(refreshed.store, later).None? ==>
                    r.token == Err(PlainError(NoValidTokenMessage)))
              && (refreshed.result.Ok? && GetAccessToken(refreshed.store, later).Some? ==>
                    r.token == Ok(GetAccessToken(refreshed.store, later).value))
    ensures r.token.Ok? ==> r.token.value != "" && Get(r.store, AccessKey) == Some(r.token.value)
  {
    var token := GetAccessToken(store, now);
    if token.Some? && !IsTokenExpiringSoon(store, now) then
      TokenCheck(store, false, None, Ok(token.value))
    else
      var refreshed := RefreshAccessToken(store, later, refreshResponse);
      if refreshed.result.Err? then
        TokenCheck(refreshed.store, true, refreshed.sent, Err(PlainError(RefreshFailedMessage)))
      else match GetAccessToken(refreshed.store, later)
        case None => TokenCheck(refreshed.store, true, refreshed.sent, Err(PlainError(NoValidTokenMessage)))
        case Some(renewed) => TokenCheck(refreshed.store, true, refreshed.sent, Ok(renewed))
  }

  /** The three backend endpoints the client calls. */
  datatype Endpoint = CurrentlyPlaying | AudioFeatures(trackId: string) | AudioAnalysis(trackId: string)

  function EndpointUrl(e: Endpoint): string {
    match e
    case CurrentlyPlaying => ApiBase + "/spotify/currently-playing"
    case AudioFeatures(id) => ApiBase + "/spotify/audio-features/" + id
    case AudioAnalysis(id) => ApiBase + "/spotify/audio-analysis/" + id
  }

  /** A GET request as sent: its URL and its `Authorization` header. */
  datatype Request = Request(url: string, authorization: string)

  /** One API method call: the store afterwards, the request it sent (if any) and
      the response data or the error it threw. */
  datatype Call = Call(store: Store, sent: Option<Request>, result: Result<Json, Failure>)

  /** `getCurrentlyPlaying()`, `getAudioFeatures(id)` and `getAudioAnalysis(id)`: no request
      when no valid token could be obtained; otherwise one request with `Bearer <token>`,
      whose answer is returned as it came. */
  function CallApi(store: Store, now: int, later: int, refreshResponse: Result<TokenResponse, Failure>,
                   endpoint: Endpoint, response: Result<Json, Failure>): (r: Call)
    ensures var check := GetValidToken(store, now, later, refreshResponse);
            && r.store == check.store
            && (check.token.Err? ==> r.sent.None? && r.result == Err(check.token.error))
            && (check.token.Ok? ==>
                  && r.sent == Some(Request(EndpointUrl(endpoint), "Bearer " + check.token.value))
                  && r.result == response)
  {
    var check := GetValidToken(store, now, later, refreshResponse);
    match check.token
    case Err(e) => Call(check.store, None, Err(e))
    case Ok(token) => Call(check.store, Some(Request(EndpointUrl(endpoint), "Bearer " + token)), response)
  }

  /** A refresh is attempted at most once per call, and only when the token is missing or
      about to expire; a fresh token well inside its lifetime is used without a refresh. */
  lemma NoRefreshForFreshToken(store: Store, now: int, later: int, refreshResponse: Result<TokenResponse, Failure>)
    requires Js.Truthy(Get(store, AccessKey))
    requires StoredExpiry(store).Some? && now <= StoredExpiry(store).value - ExpiryMarginMs
    ensures GetValidToken(store, now, later, refreshResponse)
              == TokenCheck(store, false, None, Ok(store[AccessKey]))
  {
  }

  /** A missing or expiring token with a stored refresh token is renewed: the
      reply's access token (stored as `"undefined"` when the reply lacks one) is
      handed out whenever it is non-empty and its lifetime is not negative, and the
      call goes out with it. */
  lemma RefreshHandsOutNewToken(store: Store, now: int, later: int, reply: TokenResponse,
                                endpoint: Endpoint, response: Result<Json, Failure>)
    requires GetAccessToken(store, now).None? || IsTokenExpiringSoon(store, now)
    requires Js.Truthy(Get(store, RefreshKey))
    requires StoredForm(reply.accessToken) != ""
    requires reply.expiresIn.Some? && reply.expiresIn.value >= 0
    ensures GetValidToken(store, now, later, Ok(reply)).token == Ok(StoredForm(reply.accessToken))
    ensures CallApi(store, now, later, Ok(reply), endpoint, response).sent
              == Some(Request(EndpointUrl(endpoint), "Bearer " + StoredForm(reply.accessToken)))
  {
    RenewedTokenValid(store, later, reply);
  }

  /** A successful refresh with a non-negative lifetime leaves its token readable
      at the instant it was stored. */
  lemma RenewedTokenValid(store: Store, later: int, reply: TokenResponse)
    requires Js.Truthy(Get(store, RefreshKey))
    requires StoredForm(reply.accessToken) != ""
    requires reply.expiresIn.Some? && reply.expiresIn.value >= 0
    ensures GetAccessToken(RefreshAccessToken(store, later, Ok(reply)).store, later) == Some(StoredForm(reply.accessToken))
  {
    var after := RefreshAccessToken(store, later, Ok(reply)).store;
    assert Get(after, ExpiresKey) == Some(after[ExpiresKey]);
    assert after[ExpiresKey] != "" by {
      assert Strings.ParseInt(after[ExpiresKey]).Some?;
    }
  }

  /** After logout every API call fails with the refresh error and sends nothing. */
  lemma CallAfterLogout(store: Store, now: int, later: int, refreshResponse: Result<TokenResponse, Failure>,
                        endpoint: Endpoint, response: Result<Json, Failure>)
    ensures var r := CallApi(Logout(store), now, later, refreshResponse, endpoint, response);
            r.sent.None? && r.result == Err(PlainError(RefreshFailedMessage)) && r.store == Logout(store)
  {
    LogoutClearsSession(store, later, refreshResponse);
  }
}

=== FILE: api_routes.dfy ===
/** The backend's `/api/spotify` routes. Each takes the token from the
    `Authorization` header, refuses the request without one, and otherwise asks the
    provider client (whose outcome is a parameter) and relays its answer or a fixed
    error message. */
module ApiRoutes {
  import opened Wrappers
  import opened Strings
  import opened Http
  import Js

  const BearerPrefix: string := "Bearer "
  const NoTokenMessage: string := "No token provided"

  /** `authHeader?.replace('Bearer ', '')`: the header with its first `Bearer ` removed,
      wherever in the header it occurs. Putting the prefix back where it was gives the header. */
  function ExtractToken(header: Option<string>): (r: Option<string>)
    ensures r.Some? <==> header.Some?
    ensures header.Some? && IndexOf(header.value, BearerPrefix).None? ==> r == header
    ensures header.Some? && IndexOf(header.value, BearerPrefix).Some? ==>
              var i := IndexOf(header.value, BearerPrefix).value;
              && |r.value| == |header.value| - |BearerPrefix|
              && r.value[..i] + BearerPrefix + r.value[i..] == header.value
  {
    match header
    case None => None
    case Some(h) =>
      var t := ReplaceFirst(h, BearerPrefix, "");
      match IndexOf(h, BearerPrefix)
      case None => Some(t)
      case Some(i) =>
        assert t[..i] == h[..i] && t[i..] == h[i + |BearerPrefix|..];
        assert h == h[..i] + h[i..i + |BearerPrefix|] + h[i + |BearerPrefix|..];
        Some(t)
  }

  /** A header of the form `Bearer <t>` yields `t`. */
  lemma BearerRoundTrip(t: string)
    ensures ExtractToken(Some(BearerPrefix + t)) == Some(t)
  {
    var h := BearerPrefix + t;
    assert OccursAt(h, BearerPrefix, 0);
    assert IndexOf(h, BearerPrefix) == Some(0);
    assert h[|BearerPrefix|..] == t;
  }

  /** The match is not anchored: a `Bearer ` in the middle of the header is removed too. */
  lemma ExtractionIsNotAnchored()
    ensures ExtractToken(Some("xBearer y")) == Some("xy")
  {
    var h := "xBearer y";
    assert h[0..|BearerPrefix|][0] == 'x' != BearerPrefix[0];
    assert !OccursAt(h, BearerPrefix, 0);
    assert h[1..1 + |BearerPrefix|] == BearerPrefix;
    assert OccursAt(h, BearerPrefix, 1);
    assert h[..1] + "" + h[1 + |BearerPrefix|..] == "xy";
    assert IndexOf(h, BearerPrefix) == Some(1);
  }

  /** The three routes. */
  datatype Route = CurrentlyPlaying | AudioFeatures(trackId: string) | AudioAnalysis(trackId: string)

  /** The fixed message each route sends when the provider call fails. */
  function FailureMessage(route: Route): string {
    match route
    case CurrentlyPlaying => "Failed to fetch currently playing track"
    case AudioFeatures(_) => "Failed to fetch audio features"
    case AudioAnalysis(_) => "Failed to fetch audio analysis"
  }

  /** The provider-client call a route made: the token it was built with and the route,
      whose track id is the path parameter. */
  datatype UpstreamCall = UpstreamCall(token: string, route: Route)

  /** A handled request: the response sent and the provider call made, if any. */
  datatype Handled = Handled(response: Response, upstream: Option<UpstreamCall>)

  /** One route handler. A missing header or an empty token gives 401 without calling the
      provider; otherwise the provider's result (possibly `null`) is the body of a 200, and
      any failure becomes a 500 with the route's message, whatever the provider's status. */
  function Handle(route: Route, header: Option<string>, outcome: Result<Json, Failure>): (r: Handled)
    ensures !Js.Truthy(ExtractToken(header)) ==>
              r == Handled(Response(401, ErrorBody(NoTokenMessage)), None)
    ensures Js.Truthy(ExtractToken(header)) ==>
              r.upstream == Some(UpstreamCall(ExtractToken(header).value, route))
    ensures Js.Truthy(ExtractToken(header)) && outcome.Ok? ==> r.response == Response(200, outcome.value)
    ensures Js.Truthy(ExtractToken(header)) && outcome.Err? ==>
              r.response == Response(500, ErrorBody(FailureMessage(route)))
  {
    var token := ExtractToken(header);
    if !Js.Truthy(token) then Handled(Response(401, ErrorBody(NoTokenMessage)), None)
    else
      var call := Some(UpstreamCall(token.value, route));
      match outcome
      case Ok(data) => Handled(Response(200, data), call)
      case Err(_) => Handled(Response(500, ErrorBody(FailureMessage(route))), call)
  }

  /** Only three statuses ever leave these routes; an upstream status is never relayed. */
  lemma StatusIsOneOfThree(route: Route, header: Option<string>, outcome: Result<Json, Failure>)
    ensures Handle(route, header, outcome).response.status in {200, 401, 500}
  {
  }

  /** A header that is exactly `Bearer ` leaves an empty token and is refused. */
  lemma BareBearerRefused(route: Route, outcome: Result<Json, Failure>)
    ensures Handle(route, Some(BearerPrefix), outcome).response.status == 401
    ensures Handle(route, Some(BearerPrefix), outcome).upstream.None?
  {
    BearerRoundTrip("");
    assert BearerPrefix + "" == BearerPrefix;
  }
}

=== FILE: auth_routes.dfy ===
/** The backend's `/api/auth` routes: each maps the service's outcome to an HTTP
    response. `code` and `refreshToken` come from the JSON request body. */
module AuthRoutes {
  import opened Wrappers
  import opened Http
  import AuthService

  const AuthFailedMessage: string := "Authentication failed"
  const RefreshFailedMessage: string := "Token refresh failed"

  /** A route's call to the provider and the response it sends. */
  datatype Exchange = Exchange(request: AuthService.TokenRequest, response: Response)

  /** `GET /login`: `{ authUrl }` holding the authorization URL, status 200. */
  function Login(c: AuthService.Config): (r: Response)
    ensures r.status == 200
    ensures Field(r.body, "authUrl") == Some(JStr(AuthService.Href(AuthService.AuthorizationUrl(c))))
  {
    Response(200, JObj([("authUrl", JStr(AuthService.Href(AuthService.AuthorizationUrl(c))))]))
  }

  /** `POST /callback`: the code goes to the exchange unchanged; the provider's tokens
      come back verbatim with status 200, any failure becomes 400 with a fixed message. */
  function Callback(c: AuthService.Config, code: string, reply: Result<Json, Failure>): (r: Exchange)
    ensures r.request == AuthService.ExchangeCodeForTokens(c, code, reply).request
    ensures ("code", code) in r.request.form
    ensures reply.Ok? ==> r.response == Response(200, reply.value)
    ensures reply.Err? ==> r.response == Response(400, ErrorBody(AuthFailedMessage))
  {
    var call := AuthService.ExchangeCodeForTokens(c, code, reply);
    match call.result
    case Ok(tokens) => Exchange(call.request, Response(200, tokens))
    case Err(_) => Exchange(call.request, Response(400, ErrorBody(AuthFailedMessage)))
  }

  /** `POST /refresh`: the same mapping for a refresh, with its own failure message. */
  function Refresh(c: AuthService.Config, refreshToken: string, reply: Result<Json, Failure>): (r: Exchange)
    ensures r.request == AuthService.RefreshAccessToken(c, refreshToken, reply).request
    ensures ("refresh_token", refreshToken) in r.request.form
    ensures reply.Ok? ==> r.response == Response(200, reply.value)
    ensures reply.Err? ==> r.response == Response(400, ErrorBody(RefreshFailedMessage))
  {
    var call := AuthService.RefreshAccessToken(c, refreshToken, reply);
    match call.result
    case Ok(tokens) => Exchange(call.request, Response(200, tokens))
    case Err(_) => Exchange(call.request, Response(400, ErrorBody(RefreshFailedMessage)))
  }

  /** The two routes fail with different messages and never with a success status. */
  lemma FailuresAreDistinguishable(c: AuthService.Config, code: string, token: string, e1: Failure, e2: Failure)
    ensures Callback(c, code, Err(e1)).response.status == 400
    ensures Refresh(c, token, Err(e2)).response.status == 400
    ensures Callback(c, code, Err(e1)).response.body != Refresh(c, token, Err(e2)).response.body
  {
  }
}

=== FILE: auth_service.dfy ===
/** The backend's OAuth 2.0 client for the provider's accounts service: the
    authorization request URL (RFC 6749 section 4.1.1) and the two token requests,
    code exchange (section 4.1.3) and refresh (section 6), each authenticated with
    the client's HTTP Basic credentials (section 2.3.1). The provider's answer is a
    parameter; the service hands it back untouched. */
module AuthService {
  import opened Wrappers
  import opened Strings
  import opened Http
  import FormEncoding

  /** The three values the service reads from its environment. */
  datatype Config = Config(clientId: string, clientSecret: string, redirectUri: string)

  const AuthorizeEndpoint: string := "https://accounts.spotify.com/authorize"
  const TokenEndpoint: string := "https://accounts.spotify.com/api/token"
  const FormContentType: string := "application/x-www-form-urlencoded"

  /** The permissions requested, in the order they are sent. */
  const Scopes: seq<string> := [
    "user-read-currently-playing",
    "user-read-playback-state",
    "user-modify-playback-state",
    "user-read-private",
    "user-read-email"
  ]

  /** A URL whose query string is kept as its parameter list. */
  datatype Url = Url(base: string, query: seq<(string, string)>)

  /** The URL as text: base, `?`, and the serialized parameters. */
  function Href(u: Url): string {
    u.base + "?" + FormEncoding.Serialize(u.query)
  }

  /** The scope parameter: the scopes joined by single spaces. */
  function ScopeValue(): (s: string)
    ensures Split(s, ' ') == Scopes
  {
    SplitJoin(Scopes, ' ');
    Join(Scopes, " ")
  }

  /** `getAuthorizationUrl()`: the authorize endpoint with response_type=code, the client id,
      the scopes, the redirect URI and show_dialog=true, in that order. */
  function AuthorizationUrl(c: Config): (u: Url)
    ensures u.base == AuthorizeEndpoint && |u.query| == 5
    ensures u.query[0] == ("response_type", "code")
    ensures u.query[1] == ("client_id", c.clientId)
    ensures u.query[2].0 == "scope" && Split(u.query[2].1, ' ') == Scopes
    ensures u.query[3] == ("redirect_uri", c.redirectUri)
    ensures u.query[4] == ("show_dialog", "true")
  {
    Url(AuthorizeEndpoint, [
      ("response_type", "code"),
      ("client_id", c.clientId),
      ("scope", ScopeValue()),
      ("redirect_uri", c.redirectUri),
      ("show_dialog", "true")
    ])
  }

  /** Reading the query of the authorization URL back gives every parameter, in order. */
  lemma AuthorizationUrlParses(c: Config)
    ensures var u := AuthorizationUrl(c);
            FormEncoding.Parse(Href(u)[|AuthorizeEndpoint| + 1..]) == FormEncoding.Utf8Pairs(u.query)
  {
    var u := AuthorizationUrl(c);
    assert Href(u)[|AuthorizeEndpoint| + 1..] == FormEncoding.Serialize(u.query);
    FormEncoding.ParseSerialize(u.query);
  }

  /** The authorization URL depends on the client id and the redirect URI only. */
  lemma AuthorizationUrlIgnoresSecret(c1: Config, c2: Config)
    requires c1.clientId == c2.clientId && c1.redirectUri == c2.redirectUri
    ensures AuthorizationUrl(c1) == AuthorizationUrl(c2)
  {
  }

  /** HTTP Basic credentials (RFC 7617 section 2): the user-pass text `id:secret`.
      It travels base64-encoded, which is not modelled. */
  datatype Credential = Basic(userPass: string)

  function ClientCredential(c: Config): (r: Credential)
    ensures |r.userPass| == |c.clientId| + 1 + |c.clientSecret|
    ensures r.userPass[..|c.clientId|] == c.clientId
    ensures r.userPass[|c.clientId|] == ':'
    ensures r.userPass[|c.clientId| + 1..] == c.clientSecret
  {
    Basic(c.clientId + ":" + c.clientSecret)
  }

  /** When the client id holds no colon, as RFC 7617 requires of a user-id, splitting the
      user-pass at its first colon recovers the id and the secret. */
  lemma CredentialSplits(c: Config)
    requires ':' !in c.clientId
    ensures var up := ClientCredential(c).userPass;
            && IndexOfChar(up, ':') == Some(|c.clientId|)
            && up[..|c.clientId|] == c.clientId
            && up[|c.clientId| + 1..] == c.clientSecret
  {
    IndexOfCharAfterPrefix(c.clientId, ':', c.clientSecret);
  }

  /** A form-encoded POST to the token endpoint. */
  datatype TokenRequest = TokenRequest(url: string, contentType: string, credential: Credential,
                                       form: seq<(string, string)>)

  /** The request body as sent. */
  function Body(r: TokenRequest): string {
    FormEncoding.Serialize(r.form)
  }

  /** A token request and the provider's answer, as handed back to the caller. */
  datatype ProviderCall = ProviderCall(request: TokenRequest, result: Result<Json, Failure>)

  /** `exchangeCodeForTokens(code)`: grant_type=authorization_code with the code and the
      redirect URI; the provider's body is returned unchanged, a rejection rethrown. */
  function ExchangeCodeForTokens(c: Config, code: string, reply: Result<Json, Failure>): (r: ProviderCall)
    ensures r.request.url == TokenEndpoint && r.request.contentType == FormContentType
    ensures r.request.credential == ClientCredential(c)
    ensures r.request.form == [("grant_type", "authorization_code"), ("code", code), ("redirect_uri", c.redirectUri)]
    ensures r.result == reply
  {
    var form := [("grant_type", "authorization_code"), ("code", code), ("redirect_uri", c.redirectUri)];
    ProviderCall(TokenRequest(TokenEndpoint, FormContentType, ClientCredential(c), form), reply)
  }

  /** `refreshAccessToken(refreshToken)`: grant_type=refresh_token with the given token;
      the provider's body is returned unchanged, a rejection rethrown. */
  function RefreshAccessToken(c: Config, refreshToken: string, reply: Result<Json, Failure>): (r: ProviderCall)
    ensures r.request.url == TokenEndpoint && r.request.contentType == FormContentType
    ensures r.request.credential == ClientCredential(c)
    ensures r.request.form == [("grant_type", "refresh_token"), ("refresh_token", refreshToken)]
    ensures r.result == reply
  {
    var form := [("grant_type", "refresh_token"), ("refresh_token", refreshToken)];
    ProviderCall(TokenRequest(TokenEndpoint, FormContentType, ClientCredential(c), form), reply)
  }

  /** Both token requests go to the same endpoint with the same credential and differ
      in their form only. */
  lemma TokenRequestsShareEndpointAndCredential(c: Config, code: string, refreshToken: string,
                                                 r1: Result<Json, Failure>, r2: Result<Json, Failure>)
    ensures var e := ExchangeCodeForTokens(c, code, r1).request;
            var f := RefreshAccessToken(c, refreshToken, r2).request;
            e.url == f.url && e.credential == f.credential && e.contentType == f.contentType
            && e.form != f.form
  {
  }

  /** The provider reads the exchange body back as exactly its three parameters. */
  lemma ExchangeBodyParses(c: Config, code: string, reply: Result<Json, Failure>)
    ensures var r := ExchangeCodeForTokens(c, code, reply).request;
            FormEncoding.Parse(Body(r)) == FormEncoding.Utf8Pairs(r.form)
  {
    FormEncoding.ParseSerialize(ExchangeCodeForTokens(c, code, reply).request.form);
  }
}

=== FILE: cors.dfy ===
/** The backend's cross-origin policy: a fixed allow-list extended by the
    configured front-end URL, bypassed entirely in development. */
module Cors {
  import opened Wrappers
  import Js

  const FixedOrigins: seq<string> := [
    "http://localhost:3000",
    "https://playnote-frontend.vercel.app",
    "https://spotify-sheet-player-v2.vercel.app",
    "https://spotify-player-v2.vercel.app"
  ]

  const NotAllowedMessage: string := "Not allowed by CORS"

  /** `.filter(Boolean)` over possibly undefined strings: keeps the defined, non-empty ones, in order. */
  function KeepTruthy(candidates: seq<Option<string>>): (r: seq<string>)
    ensures |r| <= |candidates|
    ensures forall i :: 0 <= i < |r| ==> r[i] != ""
    ensures forall s :: s in r <==> s != "" && Some(s) in candidates
  {
    if |candidates| == 0 then []
    else if Js.Truthy(candidates[0]) then [candidates[0].value] + KeepTruthy(candidates[1..])
    else KeepTruthy(candidates[1..])
  }

  /** Filtering keeps order: filtering two lists one after the other is filtering
      their concatenation. */
  lemma {:induction false} KeepTruthyAppend(a: seq<Option<string>>, b: seq<Option<string>>)
    ensures KeepTruthy(a + b) == KeepTruthy(a) + KeepTruthy(b)
  {
    if |a| > 0 {
      assert (a + b)[0] == a[0];
      assert (a + b)[1..] == a[1..] + b;
      KeepTruthyAppend(a[1..], b);
    } else {
      assert a + b == b;
    }
  }

  /** A list whose entries are all truthy passes the filter whole. */
  lemma {:induction false} KeepTruthyAllKept(values: seq<string>)
    requires forall i :: 0 <= i < |values| ==> values[i] != ""
    ensures KeepTruthy(seq(|values|, i requires 0 <= i < |values| => Some(values[i]))) == values
  {
    var candidates := seq(|values|, i requires 0 <= i < |values| => Some(values[i]));
    if |values| > 0 {
      assert candidates[1..] == seq(|values| - 1, i requires 0 <= i < |values| - 1 => Some(values[1..][i]));
      KeepTruthyAllKept(values[1..]);
      assert values == [values[0]] + values[1..];
    }
  }

  /** The allow-list: the four fixed origins, then `FRONTEND_URL` when it is set and non-empty. */
  function AllowedOrigins(frontendUrl: Option<string>): (r: seq<string>)
    ensures |r| == if Js.Truthy(frontendUrl) then 5 else 4
    ensures r[..4] == FixedOrigins
    ensures Js.Truthy(frontendUrl) ==> r[4] == frontendUrl.value
  {
    var fixed := seq(4, i requires 0 <= i < 4 => Some(FixedOrigins[i]));
    var candidates := fixed + [frontendUrl];
    assert [Some(FixedOrigins[0]), Some(FixedOrigins[1]), Some(FixedOrigins[2]), Some(FixedOrigins[3]), frontendUrl]
      == candidates;
    KeepTruthyAllKept(FixedOrigins);
    KeepTruthyAppend(fixed, [frontendUrl]);
    assert KeepTruthy([frontendUrl]) == if Js.Truthy(frontendUrl) then [frontendUrl.value] else [] by {
      assert [frontendUrl][1..] == [];
    }
    KeepTruthy([Some(FixedOrigins[0]), Some(FixedOrigins[1]), Some(FixedOrigins[2]),
                Some(FixedOrigins[3]), frontendUrl])
  }

  /** What the `origin` callback answers: allow, or an error. */
  datatype Decision = Allow | Reject(message: string)

  /** The `origin` callback. In development everything is allowed; otherwise a request
      without an (non-empty) origin is allowed, and one with an origin is allowed exactly
      when the origin is on the list. */
  function Decide(nodeEnv: Option<string>, allowed: seq<string>, origin: Option<string>): (d: Decision)
    ensures nodeEnv == Some("development") ==> d == Allow
    ensures nodeEnv != Some("development") ==>
              (d == Allow <==> !Js.Truthy(origin) || origin.value in allowed)
    ensures d == Allow || d == Reject(NotAllowedMessage)
  {
    if nodeEnv == Some("development") then Allow
    else if !Js.Truthy(origin) || origin.value in allowed then Allow
    else Reject(NotAllowedMessage)
  }

  /** Outside development, the configured front end is let in and an unknown site is not. */
  lemma FrontendAllowed(nodeEnv: Option<string>, frontendUrl: string, other: string)
    requires frontendUrl != ""
    requires other !in FixedOrigins && other != frontendUrl
    ensures Decide(nodeEnv, AllowedOrigins(Some(frontendUrl)), Some(frontendUrl)) == Allow
    ensures nodeEnv != Some("development") && other != "" ==>
              Decide(nodeEnv, AllowedOrigins(Some(frontendUrl)), Some(other)) == Reject(NotAllowedMessage)
  {
    var list := AllowedOrigins(Some(frontendUrl));
    assert list == FixedOrigins + [frontendUrl] by {
      assert list[..4] + [list[4]] == list;
    }
  }
}

=== FILE: current_track.dfy ===
/** The now-playing card: the `m:ss` durations under the progress bar and the
    "key mode" label built from the audio descriptors. */
module CurrentTrack {
  import opened Wrappers
  import opened Features
  import opened Strings
  import Music
  import Js

  /** Pitch classes 0..11, sharps only. */
  const KeyNames: seq<string> := Music.SharpKeyNames

  /** Mode 0 is minor, mode 1 major. */
  const ModeNames: seq<string> := ["Minor", "Major"]

  const UnknownLabel := "Unknown"

  /** Whole minutes, then the seconds left over padded to two digits. Both
      divisions floor; the remainder truncates, as JavaScript's `%` does. */
  function FormatDuration(ms: int): (r: string)
    ensures ms >= 0 ==>
      && |r| >= 4 && r[|r| - 3] == ':' && AllDigits(r[|r| - 2..])
      && ParseInt(r) == Some(ms / 60000)
      && DigitsValue(r[|r| - 2..]) == (ms % 60000) / 1000
  {
    var minutes := ms / 60000;
    var seconds := Js.Rem(ms, 60000) / 1000;
    if ms >= 0 then
      assert seconds == (ms % 60000) / 1000 < 60;
      LabelReadsBack(minutes, seconds);
      IntToString(minutes) + ":" + PadTwo(IntToString(seconds))
    else IntToString(minutes) + ":" + PadTwo(IntToString(seconds))
  }

  /** A seconds count below a minute renders as exactly two digits. */
  lemma TwoDigitSeconds(s: nat)
    requires s < 60
    ensures var t := PadTwo(IntToString(s)); |t| == 2 && AllDigits(t) && DigitsValue(t) == s
  {
    var t := PadTwo(IntToString(s));
    NatToStringRoundTrip(s);
    if s < 10 {
      assert t == ['0', DigitChar(s)];
      assert t[..1] == ['0'];
    } else {
      assert NatToString(s) == [DigitChar(s / 10), DigitChar(s % 10)];
    }
  }

  /** For a non-negative duration the label reads back: `parseInt` of it is the
      minute count, the two digits after the colon are the leftover seconds, and
      the two together locate the duration to within one second. */
  lemma FormatDurationReadsBack(ms: int)
    requires ms >= 0
    ensures var r := FormatDuration(ms);
      && |r| >= 4 && r[|r| - 3] == ':' && AllDigits(r[|r| - 2..])
      && ParseInt(r) == Some(ms / 60000)
      && (ms / 60000) * 60000 + DigitsValue(r[|r| - 2..]) * 1000 <= ms
      && ms < (ms / 60000) * 60000 + DigitsValue(r[|r| - 2..]) * 1000 + 1000
  {
    MinutesAndSeconds(ms);
  }

  /** A minutes count, a colon and a two-digit seconds count: the label parses
      back to the minutes, and its last two characters spell the seconds. */
  lemma LabelReadsBack(minutes: int, seconds: nat)
    requires seconds < 60
    ensures var r := IntToString(minutes) + ":" + PadTwo(IntToString(seconds));
      && |r| >= 4 && r[|r| - 3] == ':' && AllDigits(r[|r| - 2..])
      && DigitsValue(r[|r| - 2..]) == seconds
      && ParseInt(r) == Some(minutes)
  {
    var tail := PadTwo(IntToString(seconds));
    TwoDigitSeconds(seconds);
    var r := IntToString(minutes) + ":" + tail;
    ConcatAssoc(IntToString(minutes), ":", tail);
    assert r[|r| - 2..] == tail;
    ParseIntPrefix(minutes, ":" + tail);
  }

  /** Whole minutes and the whole seconds left over bracket the duration. */
  lemma MinutesAndSeconds(ms: int)
    requires ms >= 0
    ensures var seconds := (ms % 60000) / 1000;
      && 0 <= seconds < 60
      && (ms / 60000) * 60000 + seconds * 1000 <= ms < (ms / 60000) * 60000 + seconds * 1000 + 1000
  {
    var rest := ms % 60000;
    assert ms == (ms / 60000) * 60000 + rest;
    assert rest == (rest / 1000) * 1000 + rest % 1000;
  }

  /** One half of the label: the table's name for the value, or `Unknown` when
      the value is absent or outside the table. A name never contains a space. */
  function NameOr(table: seq<string>, i: Option<int>): (r: string)
    requires forall k :: 0 <= k < |table| ==> table[k] != "" && ' ' !in table[k]
    ensures ' ' !in r
    ensures r == UnknownLabel || r in table
    ensures LookUp(table, i).Some? ==> r == table[i.value]
    ensures LookUp(table, i).None? ==> r == UnknownLabel
  {
    Js.StrOr(LookUp(table, i), UnknownLabel)
  }

  /** The "key mode" label: `Unknown` alone without descriptors, otherwise the
      two halves separated by one space, so splitting on the space gives them back. */
  function KeySignature(features: Option<AudioFeatures>): (r: string)
    ensures features.None? ==> r == UnknownLabel
    ensures features.Some? ==>
      Split(r, ' ') == [NameOr(KeyNames, features.value.key), NameOr(ModeNames, features.value.mode)]
  {
    match features
    case None => UnknownLabel
    case Some(f) =>
      var key := NameOr(KeyNames, f.key);
      var mode := NameOr(ModeNames, f.mode);
      SplitJoin([key, mode], ' ');
      assert Join([key, mode], " ") == key + " " + mode;
      key + " " + mode
  }

  /** `table[i]` for an index that may itself be `undefined`. */
  function LookUp(table: seq<string>, i: Option<int>): (r: Option<string>)
    ensures r.Some? <==> i.Some? && 0 <= i.value < |table|
    ensures r.Some? ==> r.value == table[i.value]
  {
    if i.Some? then Js.At(table, i.value) else None
  }

  /** A key and mode in range are both named. */
  lemma KeySignatureNamesBoth(f: AudioFeatures, key: int, mode: int)
    requires f.key == Some(key) && 0 <= key < 12
    requires f.mode == Some(mode) && 0 <= mode < 2
    ensures Split(KeySignature(Some(f)), ' ') == [KeyNames[key], ModeNames[mode]]
  {
  }
}

=== FILE: emotion.dfy ===
/** The mood panels. Both variants read valence and energy with `|| 0.5` and
    pick one of six moods from the same ordered threshold table. The player
    variant shows nothing without descriptors and adds a key/tempo/percentage
    summary. The lyrics variant always shows a mood, never reads the lyrics
    text it is given, and draws two bars only when descriptors exist. */
module Emotion {
  import opened Wrappers
  import opened Features
  import opened Strings
  import Music
  import Js

  datatype Mood = Joy | Happy | Anger | Sadness | Melancholy | Neutral

  /** The first matching row of the threshold table, stated as the region of
      the valence/energy square each mood owns; the six regions cover the
      square without overlapping. */
  function Classify(valence: real, energy: real): (m: Mood)
    ensures m == Joy <==> valence > 0.7 && energy > 0.7
    ensures m == Happy <==> valence > 0.7 && energy <= 0.7
    ensures m == Anger <==> valence <= 0.3 && energy > 0.7
    ensures m == Sadness <==> valence <= 0.3 && energy <= 0.3
    ensures m == Melancholy <==> valence <= 0.3 && 0.3 < energy <= 0.7
    ensures m == Neutral <==> 0.3 < valence <= 0.7
  {
    if valence > 0.7 && energy > 0.7 then Joy
    else if valence > 0.7 && energy <= 0.7 then Happy
    else if valence <= 0.3 && energy > 0.7 then Anger
    else if valence <= 0.3 && energy <= 0.3 then Sadness
    else if valence <= 0.3 then Melancholy
    else Neutral
  }

  /** A descriptor level as the classifier reads it: absent and 0 both become 0.5. */
  function Level(x: Option<real>): real {
    Js.NumOr(x, 0.5)
  }

  /** The mood for possibly absent descriptors: without them, the mood of two
      midpoint levels, the same as for descriptors whose levels are all absent. */
  function MoodOf(features: Option<AudioFeatures>): (m: Mood)
    ensures features.None? ==> m == Neutral
    ensures features.Some? ==> m == Classify(Level(features.value.valence), Level(features.value.energy))
    ensures features.Some? && features.value.valence.None? && features.value.energy.None? ==> m == Neutral
  {
    if features.None? then Classify(0.5, 0.5)
    else Classify(Level(features.value.valence), Level(features.value.energy))
  }

  /** Because `||` treats 0 as missing, a track measured at exactly zero valence
      and zero energy reads as neutral, while one just above zero reads as sad. */
  lemma ZeroLevelsReadAsMidpoint(f: AudioFeatures, small: real)
    requires f.valence == Some(0.0) && f.energy == Some(0.0)
    requires 0.0 < small <= 0.3
    ensures MoodOf(Some(f)) == Neutral
    ensures MoodOf(Some(f.(valence := Some(small), energy := Some(small)))) == Sadness
  {
  }

  /** What a mood card shows besides its colours. */
  datatype Card = Card(mood: string, emoji: string, description: string)

  function MoodName(m: Mood): string {
    match m
    case Joy => "喜び・興奮"
    case Happy => "幸せ・穏やか"
    case Anger => "怒り・激情"
    case Sadness => "悲しみ・憂鬱"
    case Melancholy => "メランコリー"
    case Neutral => "ニュートラル"
  }

  function Emoji(m: Mood): string {
    match m
    case Joy => "😄🎉"
    case Happy => "😊🌸"
    case Anger => "😠🔥"
    case Sadness => "😢💔"
    case Melancholy => "😔🌙"
    case Neutral => "😐🎵"
  }

  /** The player variant's long descriptions. */
  function PlayerCard(m: Mood): Card {
    Card(MoodName(m), Emoji(m), match m
      case Joy => "明るく元気な曲です！踊りたくなるような楽しい雰囲気"
      case Happy => "穏やかで幸せな雰囲気。リラックスできる心地よい曲"
      case Anger => "激しく情熱的な曲。強い感情を表現している"
      case Sadness => "悲しく切ない雰囲気。感傷的になりたい時に"
      case Melancholy => "物憂げで内省的な雰囲気。考え事をしたい時に"
      case Neutral => "バランスの取れた楽曲。どんな場面にも合います")
  }

  /** The lyrics variant's short descriptions. */
  function LyricsCard(m: Mood): Card {
    Card(MoodName(m), Emoji(m), match m
      case Joy => "明るく元気な曲です"
      case Happy => "穏やかで幸せな雰囲気の曲です"
      case Anger => "激しく情熱的な曲です"
      case Sadness => "悲しく切ない雰囲気の曲です"
      case Melancholy => "物憂げな雰囲気の曲です"
      case Neutral => "バランスの取れた曲です")
  }

  /** The card's name identifies the mood: no two moods share one. */
  lemma MoodNamesDistinct(a: Mood, b: Mood)
    requires a != b
    ensures MoodName(a) != MoodName(b)
  {
  }

  /** `Math.round((x || 0) * 100)`: a level shown as a whole percentage. */
  function Percent(x: Option<real>): (r: int)
    ensures x.Some? ==> r as real - 0.5 <= x.value * 100.0 < r as real + 0.5
    ensures x.None? ==> r == 0
  {
    Js.Round(Js.NumOr(x, 0.0) * 100.0)
  }

  /** `keyNames[key || 0]`, where an index outside the table renders as nothing,
      then the mode: only 1 is major, and an absent mode reads as minor. */
  function KeyLabel(f: AudioFeatures): (r: string)
    ensures var k := Js.IntOr(f.key, 0);
      0 <= k < 12 ==> r == Music.SlashKeyNames[k] + " " + Music.ModeLabel(f.mode)
    ensures var k := Js.IntOr(f.key, 0);
      !(0 <= k < 12) ==> r == " " + Music.ModeLabel(f.mode)
  {
    var name := Js.At(Music.SlashKeyNames, Js.IntOr(f.key, 0)).GetOr("");
    name + " " + Music.ModeLabel(f.mode)
  }

  /** `Math.round(tempo || 120)` followed by " BPM". */
  function TempoLabel(f: AudioFeatures): (r: string)
    ensures ParseInt(r) == Some(Js.Round(Js.NumOr(f.tempo, 120.0)))
    ensures |r| >= 5 && r[|r| - 4..] == " BPM"
  {
    Music.BpmLabel(Js.NumOr(f.tempo, 120.0))
  }

  /** The player variant's panel. */
  datatype PlayerPanel = PlayerPanel(
    card: Card, keyLabel: string, tempoLabel: string,
    valencePercent: int, energyPercent: int, danceabilityPercent: int, acousticnessPercent: int)

  /** Nothing without descriptors; otherwise the card for their mood and the
      summary figures. */
  function PlayerView(features: Option<AudioFeatures>): (r: Option<PlayerPanel>)
    ensures r.None? <==> features.None?
    ensures r.Some? ==> r.value.card == PlayerCard(MoodOf(features))
    ensures r.Some? ==> r.value.keyLabel == KeyLabel(features.value) && r.value.tempoLabel == TempoLabel(features.value)
    ensures r.Some? ==>
      && r.value.valencePercent == Percent(features.value.valence)
      && r.value.energyPercent == Percent(features.value.energy)
      && r.value.danceabilityPercent == Percent(features.value.danceability)
      && r.value.acousticnessPercent == Percent(features.value.acousticness)
  {
    match features
    case None => None
    case Some(f) =>
      Some(PlayerPanel(PlayerCard(MoodOf(features)), KeyLabel(f), TempoLabel(f),
        Percent(f.valence), Percent(f.energy), Percent(f.danceability), Percent(f.acousticness)))
  }

  /** The lyrics variant's panel: a card, plus the valence and energy bar
      widths (in percent) when descriptors exist. */
  datatype LyricsPanel = LyricsPanel(card: Card, bars: Option<(real, real)>)

  function LyricsView(lyrics: string, features: Option<AudioFeatures>): (r: LyricsPanel)
    ensures r.card == LyricsCard(MoodOf(features))
    ensures r.bars.Some? <==> features.Some?
    ensures r.bars.Some? ==>
      r.bars.value == (Js.NumOr(features.value.valence, 0.0) * 100.0, Js.NumOr(features.value.energy, 0.0) * 100.0)
  {
    var bars := if features.None? then None
      else Some((Js.NumOr(features.value.valence, 0.0) * 100.0, Js.NumOr(features.value.energy, 0.0) * 100.0));
    LyricsPanel(LyricsCard(MoodOf(features)), bars)
  }

  /** The lyrics text never influences the lyrics variant. */
  lemma LyricsTextIgnored(a: string, b: string, features: Option<AudioFeatures>)
    ensures LyricsView(a, features) == LyricsView(b, features)
  {
  }

  /** Whenever both variants show a card they name the same mood; without
      descriptors the lyrics variant still shows the neutral card. */
  lemma VariantsAgree(lyrics: string, features: Option<AudioFeatures>)
    ensures PlayerView(features).Some? ==>
      PlayerView(features).value.card.mood == LyricsView(lyrics, features).card.mood
    ensures features.None? ==> LyricsView(lyrics, features).card.mood == MoodName(Neutral)
  {
  }
}

=== FILE: features.dfy ===
/** The audio descriptors the provider returns for a track. Every field may be
    missing from the payload, so each one is optional. */
module Features {
  import opened Wrappers

  datatype AudioFeatures = AudioFeatures(
    key: Option<int>,
    mode: Option<int>,
    tempo: Option<real>,
    timeSignature: Option<int>,
    energy: Option<real>,
    valence: Option<real>,
    danceability: Option<real>,
    acousticness: Option<real>)
}

=== FILE: form_encoding.dfy ===
/** The application/x-www-form-urlencoded format as `URLSearchParams` writes it
    (the URL Living Standard, section 5): each name and value is UTF-8 encoded
    (RFC 3629 section 3), bytes outside `*-._`, digits and ASCII letters are
    percent-encoded with upper-case hex, a space becomes `+`, and the pairs are
    written `name=value` joined by `&`. The parser's side is modelled too, so that
    the round trip can be stated. */
module FormEncoding {
  import opened Strings

  type Byte = b: int | 0 <= b < 256

  /** The UTF-8 encoding of one Unicode scalar value. */
  function Utf8Char(c: char): (bytes: seq<Byte>)
    ensures 1 <= |bytes| <= 4
    ensures c as int < 0x80 <==> bytes == [c as int]
  {
    var n := c as int;
    if n < 0x80 then [n]
    else if n < 0x800 then [0xC0 + n / 0x40, 0x80 + n % 0x40]
    else if n < 0x1_0000 then [0xE0 + n / 0x1000, 0x80 + (n / 0x40) % 0x40, 0x80 + n % 0x40]
    else [0xF0 + n / 0x4_0000, 0x80 + (n / 0x1000) % 0x40, 0x80 + (n / 0x40) % 0x40, 0x80 + n % 0x40]
  }

  /** The UTF-8 encoding of a string. */
  function Utf8(s: string): seq<Byte> {
    if |s| == 0 then [] else Utf8Char(s[0]) + Utf8(s[1..])
  }

  /** Bytes the serializer writes as themselves. */
  predicate Unreserved(b: Byte) {
    || b == 0x2A || b == 0x2D || b == 0x2E || b == 0x5F
    || 0x30 <= b <= 0x39 || 0x41 <= b <= 0x5A || 0x61 <= b <= 0x7A
  }

  /** An upper-case hexadecimal digit. */
  function HexChar(k: nat): char
    requires k < 16
  {
    if k < 10 then ('0' as int + k) as char else ('A' as int + k - 10) as char
  }

  predicate IsHex(c: char) {
    '0' <= c <= '9' || 'A' <= c <= 'F' || 'a' <= c <= 'f'
  }

  function HexValue(c: char): nat
    requires IsHex(c)
  {
    if '0' <= c <= '9' then c as int - '0' as int
    else if 'A' <= c <= 'F' then c as int - 'A' as int + 10
    else c as int - 'a' as int + 10
  }

  /** The serialization of one byte. */
  function EncodeByte(b: Byte): (r: string)
    ensures '&' !in r && '=' !in r
  {
    if Unreserved(b) then [b as char]
    else if b == 0x20 then "+"
    else ['%', HexChar(b / 16), HexChar(b % 16)]
  }

  function EncodeBytes(bytes: seq<Byte>): (r: string)
    ensures '&' !in r && '=' !in r
  {
    if |bytes| == 0 then "" else EncodeByte(bytes[0]) + EncodeBytes(bytes[1..])
  }

  /** The serialization of a name or a value. */
  function Encode(s: string): (r: string)
    ensures '&' !in r && '=' !in r
  {
    EncodeBytes(Utf8(s))
  }

  /** The parser's percent-decoding: `+` is a space, `%` with two hex digits is a byte,
      any other character stands for its own UTF-8 bytes. */
  function DecodeBytes(s: string): seq<Byte>
    decreases |s|
  {
    if |s| == 0 then []
    else if s[0] == '+' then [0x20] + DecodeBytes(s[1..])
    else if s[0] == '%' && |s| >= 3 && IsHex(s[1]) && IsHex(s[2]) then
      [HexValue(s[1]) * 16 + HexValue(s[2])] + DecodeBytes(s[3..])
    else Utf8Char(s[0]) + DecodeBytes(s[1..])
  }

  lemma DecodeEncodeByte(b: Byte, rest: string)
    ensures DecodeBytes(EncodeByte(b) + rest) == [b] + DecodeBytes(rest)
  {
    var s := EncodeByte(b) + rest;
    if Unreserved(b) {
      assert s[0] == b as char && s[1..] == rest;
    } else if b == 0x20 {
      assert s[0] == '+' && s[1..] == rest;
    } else {
      assert s[0] == '%' && s[1] == HexChar(b / 16) && s[2] == HexChar(b % 16) && s[3..] == rest;
    }
  }

  /** Decoding undoes the byte serializer. */
  lemma {:induction false} DecodeEncodeBytes(bytes: seq<Byte>)
    ensures DecodeBytes(EncodeBytes(bytes)) == bytes
  {
    if |bytes| > 0 {
      DecodeEncodeByte(bytes[0], EncodeBytes(bytes[1..]));
      DecodeEncodeBytes(bytes[1..]);
    }
  }

  /** Decoding a serialized string gives back its UTF-8 bytes. */
  lemma DecodeEncode(s: string)
    ensures DecodeBytes(Encode(s)) == Utf8(s)
  {
    DecodeEncodeBytes(Utf8(s));
  }

  /** The `name=value` pieces of a parameter list. */
  function Pieces(pairs: seq<(string, string)>): (pieces: seq<string>)
    ensures |pieces| == |pairs|
    ensures forall i :: 0 <= i < |pieces| ==> '&' !in pieces[i]
  {
    if |pairs| == 0 then []
    else [Encode(pairs[0].0) + "=" + Encode(pairs[0].1)] + Pieces(pairs[1..])
  }

  /** `new URLSearchParams(pairs).toString()`. */
  function Serialize(pairs: seq<(string, string)>): string {
    Join(Pieces(pairs), "&")
  }

  /** One `name=value` piece read back as a pair of byte strings, split at the first `=`. */
  function ParsePiece(piece: string): (seq<Byte>, seq<Byte>) {
    match IndexOfChar(piece, '=')
    case None => (DecodeBytes(piece), [])
    case Some(i) => (DecodeBytes(piece[..i]), DecodeBytes(piece[i + 1..]))
  }

  /** The pieces of a query, empty ones skipped, read back as pairs. */
  function ParsePieces(pieces: seq<string>): seq<(seq<Byte>, seq<Byte>)> {
    if |pieces| == 0 then []
    else if pieces[0] == "" then ParsePieces(pieces[1..])
    else [ParsePiece(pieces[0])] + ParsePieces(pieces[1..])
  }

  /** The application/x-www-form-urlencoded parser. */
  function Parse(query: string): seq<(seq<Byte>, seq<Byte>)> {
    ParsePieces(Split(query, '&'))
  }

  /** Every pair's name and value, as the UTF-8 bytes the parser produces. */
  function Utf8Pairs(pairs: seq<(string, string)>): (r: seq<(seq<Byte>, seq<Byte>)>)
    ensures |r| == |pairs|
    ensures forall i :: 0 <= i < |pairs| ==> r[i] == (Utf8(pairs[i].0), Utf8(pairs[i].1))
  {
    if |pairs| == 0 then [] else [(Utf8(pairs[0].0), Utf8(pairs[0].1))] + Utf8Pairs(pairs[1..])
  }

  lemma ParsePieceOfPair(name: string, value: string)
    ensures ParsePiece(Encode(name) + "=" + Encode(value)) == (Utf8(name), Utf8(value))
  {
    var piece := Encode(name) + "=" + Encode(value);
    IndexOfCharAfterPrefix(Encode(name), '=', Encode(value));
    assert piece[..|Encode(name)|] == Encode(name);
    assert piece[|Encode(name)| + 1..] == Encode(value);
    DecodeEncode(name);
    DecodeEncode(value);
  }

  lemma {:induction false} ParsePiecesOfPairs(pairs: seq<(string, string)>)
    ensures ParsePieces(Pieces(pairs)) == Utf8Pairs(pairs)
  {
    if |pairs| > 0 {
      var first := Encode(pairs[0].0) + "=" + Encode(pairs[0].1);
      assert first != "" by { assert first[|Encode(pairs[0].0)|] == '='; }
      assert Pieces(pairs)[0] == first && Pieces(pairs)[1..] == Pieces(pairs[1..]);
      ParsePieceOfPair(pairs[0].0, pairs[0].1);
      ParsePiecesOfPairs(pairs[1..]);
    }
  }

  /** Parsing a serialized parameter list gives back every pair, in order. */
  lemma ParseSerialize(pairs: seq<(string, string)>)
    ensures Parse(Serialize(pairs)) == Utf8Pairs(pairs)
  {
    if |pairs| == 0 {
      assert Split("", '&') == [""];
    } else {
      SplitJoin(Pieces(pairs), '&');
      ParsePiecesOfPairs(pairs);
    }
  }
}

=== FILE: http.dfy ===
/** JSON values, HTTP responses, and the ways a call made with axios can fail. */
module Http {
  import opened Wrappers

  /** A JSON value. Numbers are integers: no modelled decision reads a fractional one. */
  datatype Json =
    | JNull
    | JBool(b: bool)
    | JNum(n: int)
    | JStr(s: string)
    | JArr(items: seq<Json>)
    | JObj(fields: seq<(string, Json)>)

  /** JavaScript truthiness of a JSON value: `null`, `false`, `0` and `""` are
      falsy; every array and object is truthy. */
  predicate JsonTruthy(j: Json) {
    match j
    case JNull => false
    case JBool(b) => b
    case JNum(n) => n != 0
    case JStr(s) => s != ""
    case _ => true
  }

  /** `obj[name]` for an object as `JSON.parse` builds it: a repeated key keeps
      its last value, so the lookup scans from the end. `None` stands for `undefined`. */
  function FieldIn(fields: seq<(string, Json)>, name: string): (r: Option<Json>)
    ensures r.None? <==> forall i :: 0 <= i < |fields| ==> fields[i].0 != name
    ensures r.Some? ==> exists i ::
      && 0 <= i < |fields| && fields[i] == (name, r.value)
      && forall j :: i < j < |fields| ==> fields[j].0 != name
  {
    if |fields| == 0 then None
    else if fields[|fields| - 1].0 == name then Some(fields[|fields| - 1].1)
    else FieldIn(fields[..|fields| - 1], name)
  }

  /** Of two fields with the same name, the later one is read. */
  lemma LastDuplicateWins(name: string, first: Json, last: Json)
    ensures FieldIn([(name, first), (name, last)], name) == Some(last)
  {
  }

  /** `j?.[name]` for any JSON value: only objects have fields. */
  function Field(j: Json, name: string): Option<Json> {
    if j.JObj? then FieldIn(j.fields, name) else None
  }

  /** A response as Express sends it; `res.json(body)` alone means status 200. */
  datatype Response = Response(status: int, body: Json)

  /** The `{ error: message }` body every failing route sends. */
  function ErrorBody(message: string): Json {
    JObj([("error", JStr(message))])
  }

  /** Why a call rejected. */
  datatype Failure =
      /** The server answered with a non-2xx status (axios sets `error.response`). */
    | HttpError(status: int, statusText: string, data: Json)
      /** The request went out and no answer came back (only `error.request` is set). */
    | NetworkError
      /** An `Error` thrown by the code itself; it has no `response`. */
    | PlainError(message: string)
}

=== FILE: js.dfy ===
/** The handful of JavaScript evaluation rules the modelled code leans on:
    out-of-range array reads, truthiness and the truncating remainder. */
module Js {
  import opened Wrappers

  /** `table[i]` for an array and an integer index: `undefined` outside the array. */
  function At<T>(table: seq<T>, i: int): (r: Option<T>)
    ensures r.Some? <==> 0 <= i < |table|
    ensures r.Some? ==> r.value == table[i]
  {
    if 0 <= i < |table| then Some(table[i]) else None
  }

  /** A string-valued expression is truthy when it is defined and not empty. */
  predicate Truthy(s: Option<string>) {
    s.Some? && s.value != ""
  }

  /** `s || fallback` for a possibly undefined string. */
  function StrOr(s: Option<string>, fallback: string): (r: string)
    ensures Truthy(s) ==> r == s.value
    ensures !Truthy(s) ==> r == fallback
  {
    if Truthy(s) then s.value else fallback
  }

  /** `x || fallback` for a possibly undefined number: 0 is falsy too. */
  function NumOr(x: Option<real>, fallback: real): (r: real)
    ensures x == None || x == Some(0.0) ==> r == fallback
    ensures x.Some? && x.value != 0.0 ==> r == x.value
  {
    if x.Some? && x.value != 0.0 then x.value else fallback
  }

  /** `x || fallback` for a possibly undefined integer. */
  function IntOr(x: Option<int>, fallback: int): (r: int)
    ensures x == None || x == Some(0) ==> r == fallback
    ensures x.Some? && x.value != 0 ==> r == x.value
  {
    if x.Some? && x.value != 0 then x.value else fallback
  }

  /** JavaScript's `a % b` for a positive divisor: it truncates toward zero, so the
      remainder takes the sign of `a` (unlike Dafny's `%`, which never goes negative). */
  function Rem(a: int, b: int): (r: int)
    requires b > 0
    ensures a >= 0 ==> 0 <= r < b
    ensures a < 0 ==> -b < r <= 0
    ensures a >= 0 ==> r == a % b
    ensures a < 0 ==> -r == (-a) % b
  {
    if a >= 0 then a % b else -((-a) % b)
  }

  /** Truncation makes the remainder odd in the dividend: negating `a` negates
      the result, so `-5 % 3` is `-2`, not Dafny's `1`. */
  lemma RemIsOdd(a: int, b: int)
    requires b > 0
    ensures Rem(-a, b) == -Rem(a, b)
    ensures Rem(-5, 3) == -2
  {
  }

  /** `Math.round(x)`: the nearest integer, halves rounding up. */
  function Round(x: real): (r: int)
    ensures r as real - 0.5 <= x < r as real + 0.5
  {
    (x + 0.5).Floor
  }
}

=== FILE: lyrics.dfy ===
/** The lyrics panel: fetching the lines for a track (with the demo lines
    used when that fails), choosing the line that matches the playback
    position, and the past/current/future styling of each line. */
module Lyrics {
  import opened Wrappers
  import opened Http
  import Js

  /** One timed line of lyrics. */
  datatype LyricLine = LyricLine(startTimeMs: int, words: string, translation: Option<string>)

  datatype LyricsState = LyricsState(
    lyrics: seq<LyricLine>,
    currentLineIndex: int,
    isLoading: bool,
    error: Option<string>)

  /** The panel's state when it first mounts. */
  const Initial := LyricsState([], 0, false, None)

  const UnavailableMessage := "歌詞を取得できませんでした"

  function Line(startTimeMs: int, words: string): LyricLine {
    LyricLine(startTimeMs, words, None)
  }

  /** The nine placeholder lines shown when lyrics cannot be fetched. */
  const DemoLyrics: seq<LyricLine> := [
    Line(0, "♪ イントロ ♪"),
    Line(10000, "ここに歌詞が表示されます"),
    Line(20000, "Spotifyの歌詞APIが利用可能になると"),
    Line(30000, "リアルタイムで歌詞が同期されます"),
    Line(40000, "カラオケのように楽しめます"),
    Line(50000, "♪ 間奏 ♪"),
    Line(60000, "翻訳機能も実装予定です"),
    Line(70000, "感情分析で曲の雰囲気も表示します"),
    Line(80000, "♪ エンディング ♪")
  ]

  /** The lyrics payload: `null`, or an object whose `lines` may be missing. */
  datatype Payload = NullPayload | Payload(lines: Option<seq<LyricLine>>)

  /** Line `i` is the current one at position `progress`: it has started, and
      either it is the last line or the next one has not started yet. */
  predicate IsCurrentLine(lines: seq<LyricLine>, i: int, progress: int) {
    && 0 <= i < |lines|
    && progress >= lines[i].startTimeMs
    && (i == |lines| - 1 || progress < lines[i + 1].startTimeMs)
  }

  /** `findIndex` with that predicate, starting the scan at `from`: the least
      matching index, or -1 when no line matches. */
  function FindCurrentFrom(lines: seq<LyricLine>, progress: int, from: nat): (r: int)
    requires from <= |lines|
    ensures r == -1 || from <= r < |lines|
    ensures r == -1 <==> forall i :: from <= i < |lines| ==> !IsCurrentLine(lines, i, progress)
    ensures r != -1 ==> IsCurrentLine(lines, r, progress)
    ensures r != -1 ==> forall i :: from <= i < r ==> !IsCurrentLine(lines, i, progress)
    decreases |lines| - from
  {
    if from == |lines| then -1
    else if IsCurrentLine(lines, from, progress) then from
    else FindCurrentFrom(lines, progress, from + 1)
  }

  /** `lyrics.findIndex(...)` over the whole list. */
  function FindCurrentLine(lines: seq<LyricLine>, progress: int): (r: int)
    ensures r == -1 <==> forall i :: 0 <= i < |lines| ==> !IsCurrentLine(lines, i, progress)
    ensures r != -1 ==> IsCurrentLine(lines, r, progress)
    ensures r != -1 ==> forall i :: 0 <= i < r ==> !IsCurrentLine(lines, i, progress)
  {
    FindCurrentFrom(lines, progress, 0)
  }

  /** The highlight effect: an empty list or a position matching no line leaves
      the state alone; otherwise the index moves to the first current line, so
      when several lines count as current the earliest wins. */
  function SyncStep(s: LyricsState, progress: int): (r: LyricsState)
    ensures r.lyrics == s.lyrics && r.isLoading == s.isLoading && r.error == s.error
    ensures FindCurrentLine(s.lyrics, progress) == -1 ==> r == s
    ensures FindCurrentLine(s.lyrics, progress) != -1 ==>
      && IsCurrentLine(s.lyrics, r.currentLineIndex, progress)
      && forall i :: 0 <= i < r.currentLineIndex ==> !IsCurrentLine(s.lyrics, i, progress)
  {
    if |s.lyrics| == 0 then s
    else
      var line := FindCurrentLine(s.lyrics, progress);
      if line != -1 && line != s.currentLineIndex then s.(currentLineIndex := line) else s
  }

  /** Start times strictly increase down the list. */
  ghost predicate StrictlyIncreasing(lines: seq<LyricLine>) {
    forall i, j :: 0 <= i < j < |lines| ==> lines[i].startTimeMs < lines[j].startTimeMs
  }

  /** Some line at or after `k` is current once line `k` has started. */
  lemma {:induction false} CurrentLineExistsFrom(lines: seq<LyricLine>, progress: int, k: nat)
    requires k < |lines| && lines[k].startTimeMs <= progress
    ensures exists i :: k <= i < |lines| && IsCurrentLine(lines, i, progress)
    decreases |lines| - k
  {
    if k == |lines| - 1 || progress < lines[k + 1].startTimeMs {
      assert IsCurrentLine(lines, k, progress);
    } else {
      CurrentLineExistsFrom(lines, progress, k + 1);
    }
  }

  /** With strictly increasing start times and a position at or after the first
      line, exactly one line is current, and the scan finds it. */
  lemma ExactlyOneCurrentLine(lines: seq<LyricLine>, progress: int)
    requires StrictlyIncreasing(lines)
    requires |lines| > 0 && lines[0].startTimeMs <= progress
    ensures FindCurrentLine(lines, progress) != -1
    ensures forall i :: IsCurrentLine(lines, i, progress) <==> i == FindCurrentLine(lines, progress)
  {
    CurrentLineExistsFrom(lines, progress, 0);
  }

  /** Before the first line starts no line is current, so the index stays put. */
  lemma NoLineBeforeFirst(s: LyricsState, progress: int)
    requires StrictlyIncreasing(s.lyrics)
    requires |s.lyrics| > 0 && progress < s.lyrics[0].startTimeMs
    ensures SyncStep(s, progress) == s
  {
    forall i | 0 <= i < |s.lyrics|
      ensures !IsCurrentLine(s.lyrics, i, progress)
    {
      if i > 0 {
        assert s.lyrics[0].startTimeMs < s.lyrics[i].startTimeMs;
      }
    }
  }

  /** The state once a fetch for `trackId` settles. Without a truthy id nothing
      happens. A payload object yields its `lines` (an absent list reads as
      empty); a rejected call or a `null` payload (whose `.lines` throws) yields
      the demo lines and the unavailable message. The highlighted index is not
      reset. */
  function FetchLyrics(s: LyricsState, trackId: Option<string>, outcome: Result<Payload, Failure>): (r: LyricsState)
    ensures !Js.Truthy(trackId) ==> r == s
    ensures Js.Truthy(trackId) ==> !r.isLoading && r.currentLineIndex == s.currentLineIndex
    ensures Js.Truthy(trackId) && outcome.Ok? && outcome.value.Payload? ==>
      r.error == None && r.lyrics == outcome.value.lines.GetOr([])
    ensures Js.Truthy(trackId) && !(outcome.Ok? && outcome.value.Payload?) ==>
      r.error == Some(UnavailableMessage) && r.lyrics == DemoLyrics
  {
    if !Js.Truthy(trackId) then s
    else match outcome
      case Ok(Payload(lines)) => s.(lyrics := lines.GetOr([]), isLoading := false, error := None)
      case _ => s.(lyrics := DemoLyrics, isLoading := false, error := Some(UnavailableMessage))
  }

  /** The demo lines are ten seconds apart, so at every position from zero on
      exactly one of them is current. */
  lemma DemoLyricsHaveOneCurrentLine(progress: int)
    requires progress >= 0
    ensures FindCurrentLine(DemoLyrics, progress) == (if progress >= 80000 then 8 else progress / 10000)
    ensures forall i :: IsCurrentLine(DemoLyrics, i, progress) <==> i == FindCurrentLine(DemoLyrics, progress)
  {
    assert forall i :: 0 <= i < |DemoLyrics| ==> DemoLyrics[i].startTimeMs == 10000 * i;
    ExactlyOneCurrentLine(DemoLyrics, progress);
    var k := if progress >= 80000 then 8 else progress / 10000;
    assert IsCurrentLine(DemoLyrics, k, progress);
  }

  /** How a line is styled relative to the highlighted one. */
  datatype LineStyle = Past | Current | Future

  function StyleOf(index: int, currentLineIndex: int): (st: LineStyle)
    ensures st == Current <==> index == currentLineIndex
    ensures st == Past <==> index < currentLineIndex
    ensures st == Future <==> index > currentLineIndex
  {
    if index == currentLineIndex then Current
    else if index < currentLineIndex then Past
    else Future
  }

  /** What the panel shows: a spinner, the error text in place of the lines, or
      the lines with their styles. */
  datatype Panel = LoadingPanel | ErrorPanel(message: string) | LinesPanel(styles: seq<LineStyle>)

  function Render(s: LyricsState): (p: Panel)
    ensures p.LoadingPanel? <==> s.isLoading
    ensures p.ErrorPanel? <==> !s.isLoading && Js.Truthy(s.error)
    ensures p.LinesPanel? ==> |p.styles| == |s.lyrics|
    ensures p.LinesPanel? ==> forall i :: 0 <= i < |p.styles| ==> p.styles[i] == StyleOf(i, s.currentLineIndex)
  {
    if s.isLoading then LoadingPanel
    else if Js.Truthy(s.error) then ErrorPanel(s.error.value)
    else LinesPanel(seq(|s.lyrics|, i => StyleOf(i, s.currentLineIndex)))
  }

  /** After a failed fetch the panel shows the message, never the demo lines,
      even though they are in state. */
  lemma FailedFetchHidesDemoLines(s: LyricsState, trackId: Option<string>, f: Failure)
    requires Js.Truthy(trackId)
    ensures var r := FetchLyrics(s, trackId, Err(f));
      r.lyrics == DemoLyrics && Render(r) == ErrorPanel(UnavailableMessage)
  {
  }
}

=== FILE: music.dfy ===
/** Vocabulary the analysis panels and sheet generators share: pitch-class
    names, mode labels, the defaults applied to missing descriptors, and the
    tempo, energy and valence bands. */
module Music {
  import opened Wrappers
  import opened Features
  import opened Strings
  import Js

  /** Pitch classes 0..11 named with sharps only. */
  const SharpKeyNames: seq<string> := ["C", "C♯", "D", "D♯", "E", "F", "F♯", "G", "G♯", "A", "A♯", "B"]

  /** Pitch classes 0..11 with both spellings of each black key. */
  const SlashKeyNames: seq<string> :=
    ["C", "C♯/D♭", "D", "D♯/E♭", "E", "F", "F♯/G♭", "G", "G♯/A♭", "A", "A♯/B♭", "B"]

  /** A pitch class is one of twelve values; the explicit split lets a fact
      about a literal table be checked entry by entry. */
  lemma TwelveCases(k: int)
    requires 0 <= k < 12
    ensures k == 0 || k == 1 || k == 2 || k == 3 || k == 4 || k == 5 || k == 6
      || k == 7 || k == 8 || k == 9 || k == 10 || k == 11
  {
  }

  /** Both name tables cover the twelve pitch classes with non-empty names, so
      a lookup inside them never falls back. */
  lemma NamesNonEmpty()
    ensures |SharpKeyNames| == 12 && |SlashKeyNames| == 12
    ensures forall k :: 0 <= k < 12 ==> SharpKeyNames[k] != "" && SlashKeyNames[k] != ""
  {
    forall k | 0 <= k < 12
      ensures SharpKeyNames[k] != "" && SlashKeyNames[k] != ""
    {
      TwelveCases(k);
    }
  }

  const MajorLabel := "メジャー"
  const MinorLabel := "マイナー"

  /** `mode === 1 ? 'メジャー' : 'マイナー'`: only exactly 1 is major. */
  function ModeLabel(mode: Option<int>): (r: string)
    ensures r == MajorLabel <==> mode == Some(1)
    ensures r == MinorLabel <==> mode != Some(1)
  {
    if mode == Some(1) then MajorLabel else MinorLabel
  }

  /** The descriptor values a sheet is drawn from, after `??` defaults. */
  datatype SheetParams = SheetParams(key: int, mode: int, tempo: real, timeSignature: int, energy: real, valence: real)

  const DefaultParams := SheetParams(0, 1, 120.0, 4, 0.5, 0.5)

  /** Each field falls back to its default only when absent: unlike `||`, a
      measured 0 is kept. */
  function ParamsOf(features: Option<AudioFeatures>): (p: SheetParams)
    ensures features.None? ==> p == DefaultParams
    ensures features.Some? ==>
      && (features.value.key.Some? ==> p.key == features.value.key.value)
      && (features.value.mode.Some? ==> p.mode == features.value.mode.value)
      && (features.value.tempo.Some? ==> p.tempo == features.value.tempo.value)
      && (features.value.timeSignature.Some? ==> p.timeSignature == features.value.timeSignature.value)
      && (features.value.energy.Some? ==> p.energy == features.value.energy.value)
      && (features.value.valence.Some? ==> p.valence == features.value.valence.value)
    ensures features.Some? ==>
      && (features.value.key.None? ==> p.key == DefaultParams.key)
      && (features.value.mode.None? ==> p.mode == DefaultParams.mode)
      && (features.value.tempo.None? ==> p.tempo == DefaultParams.tempo)
      && (features.value.timeSignature.None? ==> p.timeSignature == DefaultParams.timeSignature)
      && (features.value.energy.None? ==> p.energy == DefaultParams.energy)
      && (features.value.valence.None? ==> p.valence == DefaultParams.valence)
  {
    match features
    case None => DefaultParams
    case Some(f) =>
      SheetParams(
        f.key.GetOr(DefaultParams.key), f.mode.GetOr(DefaultParams.mode),
        f.tempo.GetOr(DefaultParams.tempo), f.timeSignature.GetOr(DefaultParams.timeSignature),
        f.energy.GetOr(DefaultParams.energy), f.valence.GetOr(DefaultParams.valence))
  }

  /** `keyNames[key] || fallback`: the table's name, or the fallback when the
      index is outside the table or the name there is empty. */
  function KeyNameOr(table: seq<string>, key: int, fallback: string): (r: string)
    ensures 0 <= key < |table| && table[key] != "" ==> r == table[key]
    ensures !(0 <= key < |table|) || table[key] == "" ==> r == fallback
  {
    Js.StrOr(Js.At(table, key), fallback)
  }

  /** `Math.round(tempo)` followed by " BPM"; reading it back gives the rounded tempo. */
  function BpmLabel(tempo: real): (r: string)
    ensures ParseInt(r) == Some(Js.Round(tempo))
    ensures |r| >= 5 && r[|r| - 4..] == " BPM"
  {
    var bpm := Js.Round(tempo);
    ParseIntPrefix(bpm, " BPM");
    IntToString(bpm) + " BPM"
  }

  /** `${timeSignature}/4`; reading it back gives the beat count. */
  function MeterLabel(timeSignature: int): (r: string)
    ensures ParseInt(r) == Some(timeSignature)
    ensures |r| >= 3 && r[|r| - 2..] == "/4"
  {
    ParseIntPrefix(timeSignature, "/4");
    IntToString(timeSignature) + "/4"
  }

  /** The units tell the two labels apart: no tempo label reads as a meter. */
  lemma TempoLabelIsNotMeter(tempo: real, timeSignature: int)
    ensures BpmLabel(tempo) != MeterLabel(timeSignature)
  {
    var b := BpmLabel(tempo);
    var m := MeterLabel(timeSignature);
    assert b[|b| - 1] == " BPM"[3];
    assert m[|m| - 1] == "/4"[1];
  }

  /** The three tempo bands: above 140, below 80, and everything between
      (both limits included). */
  datatype TempoBand = Fast | Slow | Medium

  function TempoBandOf(tempo: real): (b: TempoBand)
    ensures b == Fast <==> tempo > 140.0
    ensures b == Slow <==> tempo < 80.0
    ensures b == Medium <==> 80.0 <= tempo <= 140.0
  {
    if tempo > 140.0 then Fast else if tempo < 80.0 then Slow else Medium
  }

  const FastRhythm := "♪ ♪ ♪ ♪ | ♪ ♪ ♪ ♪"
  const SlowRhythm := "♩ ♩ ♩ ♩ | ♩ ♩ ♩ ♩"
  const MixedRhythm := "♩ ♪♪ ♩ ♩ | ♩ ♪♪ ♩ ♩"

  /** Two bars of eighths when fast, of quarters when slow, mixed otherwise; the
      time signature is not consulted. Each band's rhythm is distinct. */
  function RhythmNotation(timeSignature: int, tempo: real): (r: string)
    ensures r == FastRhythm <==> TempoBandOf(tempo) == Fast
    ensures r == SlowRhythm <==> TempoBandOf(tempo) == Slow
    ensures r == MixedRhythm <==> TempoBandOf(tempo) == Medium
  {
    match TempoBandOf(tempo)
    case Fast => FastRhythm
    case Slow => SlowRhythm
    case Medium => MixedRhythm
  }

  const EnergeticStyle := "エネルギッシュ"
  const CalmStyle := "穏やか"
  const MediumStyle := "ミディアム"

  /** The style band: above 0.7, below 0.3, or between (limits included). */
  function StyleLabel(energy: real): (r: string)
    ensures r == EnergeticStyle <==> energy > 0.7
    ensures r == CalmStyle <==> energy < 0.3
    ensures r == MediumStyle <==> 0.3 <= energy <= 0.7
  {
    if energy > 0.7 then EnergeticStyle else if energy < 0.3 then CalmStyle else MediumStyle
  }

  const BrightAtmosphere := "明るい"
  const DarkAtmosphere := "暗い"
  const NeutralAtmosphere := "ニュートラル"

  /** The atmosphere band, with the same limits as the style band. */
  function AtmosphereLabel(valence: real): (r: string)
    ensures r == BrightAtmosphere <==> valence > 0.7
    ensures r == DarkAtmosphere <==> valence < 0.3
    ensures r == NeutralAtmosphere <==> 0.3 <= valence <= 0.7
  {
    if valence > 0.7 then BrightAtmosphere else if valence < 0.3 then DarkAtmosphere else NeutralAtmosphere
  }

  /** The summary both analysis sheets print above the notation. */
  datatype Summary = Summary(
    keyName: string, modeName: string, bpm: string, meter: string,
    style: string, atmosphere: string, energyPercent: int)

  /** The summary for possibly absent descriptors: slash names with `C` for a
      key outside the table, and the mode label from the defaulted mode. */
  function SummaryOf(features: Option<AudioFeatures>): (s: Summary)
    ensures s.keyName in SlashKeyNames
    ensures s.modeName == MajorLabel <==> ParamsOf(features).mode == 1
    ensures s.modeName == MinorLabel <==> ParamsOf(features).mode != 1
  {
    var p := ParamsOf(features);
    Summary(
      KeyNameOr(SlashKeyNames, p.key, "C"), ModeLabel(Some(p.mode)),
      BpmLabel(p.tempo), MeterLabel(p.timeSignature),
      StyleLabel(p.energy), AtmosphereLabel(p.valence), Js.Round(p.energy * 100.0))
  }

  /** Every figure in the summary reads back as the defaulted descriptor it
      shows: the key name is the table's (or C), the tempo and meter parse back,
      and the energy percentage is within half a point. */
  lemma SummaryReadsBack(features: Option<AudioFeatures>)
    ensures var p := ParamsOf(features); var s := SummaryOf(features);
      && s.keyName == KeyNameOr(SlashKeyNames, p.key, "C")
      && s.modeName == ModeLabel(Some(p.mode))
      && ParseInt(s.bpm) == Some(Js.Round(p.tempo))
      && ParseInt(s.meter) == Some(p.timeSignature)
      && s.style == StyleLabel(p.energy)
      && s.atmosphere == AtmosphereLabel(p.valence)
      && s.energyPercent as real - 0.5 <= p.energy * 100.0 < s.energyPercent as real + 0.5
  {
    var p := ParamsOf(features);
    var bpm := BpmLabel(p.tempo);
    var meter := MeterLabel(p.timeSignature);
    var percent := Js.Round(p.energy * 100.0);
    assert SummaryOf(features) == Summary(
      KeyNameOr(SlashKeyNames, p.key, "C"), ModeLabel(Some(p.mode)), bpm, meter,
      StyleLabel(p.energy), AtmosphereLabel(p.valence), percent);
  }

  /** Without descriptors the summary describes C major at 120 BPM in 4/4, of
      medium style and neutral atmosphere. */
  lemma DefaultSummary()
    ensures var s := SummaryOf(None);
      && s.keyName == "C" && s.modeName == MajorLabel
      && ParseInt(s.bpm) == Some(120) && ParseInt(s.meter) == Some(4)
      && s.style == MediumStyle && s.atmosphere == NeutralAtmosphere && s.energyPercent == 50
  {
    assert Js.Round(0.5 * 100.0) == 50;
  }
}

=== FILE: pdf_sheet.dfy ===
/** The printable sheet: the same summary as the music-theory sheet, a
    solfège scale that ignores the key, chord templates filled with the key
    name, the shared rhythm line, a solfège melody and a bar of quarter notes
    per beat. */
module PdfSheet {
  import opened Wrappers
  import opened Features
  import opened Strings
  import Music
  import Js

  const MajorSolfege: seq<string> := ["ド", "レ", "ミ", "ファ", "ソ", "ラ", "シ"]
  const MinorSolfege: seq<string> := ["ラ", "シ", "ド", "レ", "ミ", "ファ", "ソ"]

  function Solfege(isMinor: bool): seq<string> {
    if isMinor then MinorSolfege else MajorSolfege
  }

  /** The minor syllables are the major ones started from the sixth degree:
      the relative minor. */
  lemma MinorIsRelativeMinor()
    ensures forall i :: 0 <= i < 7 ==> MinorSolfege[i] == MajorSolfege[(i + 5) % 7]
  {
  }

  /** The scale line: the seven syllables joined by " - ", whatever the key. */
  function ScaleNotes(keyName: string, isMinor: bool): string {
    Join(Solfege(isMinor), " - ")
  }

  /** The key name never changes the scale line. */
  lemma ScaleIgnoresKey(a: string, b: string, isMinor: bool)
    ensures ScaleNotes(a, isMinor) == ScaleNotes(b, isMinor)
  {
  }

  const PowerRemark := " (パワーコード推奨)"
  const JazzRemark := " (ジャズ風)"
  const PopRemark := " (ポップス進行)"
  const MinorRemark := " (マイナー進行)"

  /** The four chord symbols a progression names. Only the first chord of the
      pop template follows the key; the rest are C major's V, vi and IV. */
  function Chords(key: string, mode: string, tempo: real): (chords: seq<string>)
    ensures |chords| == 4 && key <= chords[0]
    ensures mode == Music.MajorLabel && Music.TempoBandOf(tempo) == Music.Medium ==>
      chords[1..] == ["G", "Am", "F"]
  {
    if mode == Music.MajorLabel then
      match Music.TempoBandOf(tempo)
      case Fast => [key, key + "7", key, key + "7"]
      case Slow => [key + "M7", key + "6", key + "M7", key + "6"]
      case Medium => [key, "G", "Am", "F"]
    else [key + "m", key + "m7", key + "m6", key + "m"]
  }

  function Remark(mode: string, tempo: real): string {
    if mode == Music.MajorLabel then
      match Music.TempoBandOf(tempo)
      case Fast => PowerRemark
      case Slow => JazzRemark
      case Medium => PopRemark
    else MinorRemark
  }

  /** The progression text: the four chords joined by " - ", then the remark;
      a minor mode label gives the same text at every tempo. */
  function ChordProgression(key: string, mode: string, tempo: real): (r: string)
    ensures r == Join(Chords(key, mode, tempo), " - ") + Remark(mode, tempo)
  {
    JoinFour(Chords(key, mode, tempo), " - ");
    if mode == Music.MajorLabel then
      if tempo > 140.0 then key + " - " + (key + "7") + " - " + key + " - " + (key + "7") + PowerRemark
      else if tempo < 80.0 then (key + "M7") + " - " + (key + "6") + " - " + (key + "M7") + " - " + (key + "6") + JazzRemark
      else key + " - " + "G" + " - " + "Am" + " - " + "F" + PopRemark
    else (key + "m") + " - " + (key + "m7") + " - " + (key + "m6") + " - " + (key + "m") + MinorRemark
  }

  /** Four parts joined: the parts with the separator between each pair. */
  lemma JoinFour(parts: seq<string>, sep: string)
    requires |parts| == 4
    ensures Join(parts, sep) == parts[0] + sep + parts[1] + sep + parts[2] + sep + parts[3]
  {
    assert Join(parts[3..], sep) == parts[3];
    assert Join(parts[2..], sep) == parts[2] + sep + parts[3] by {
      assert parts[2..][1..] == parts[3..];
    }
    assert Join(parts[1..], sep) == parts[1] + sep + (parts[2] + sep + parts[3]) by {
      assert parts[1..][1..] == parts[2..];
    }
  }

  /** A minor label gives the same progression at every tempo; a major one
      gives three distinct remarks for the three tempo bands. */
  lemma TempoOnlyMattersInMajor(key: string, mode: string, t1: real, t2: real)
    ensures mode != Music.MajorLabel ==> ChordProgression(key, mode, t1) == ChordProgression(key, mode, t2)
    ensures mode == Music.MajorLabel && Music.TempoBandOf(t1) != Music.TempoBandOf(t2) ==>
      Remark(mode, t1) != Remark(mode, t2)
  {
  }

  /** The melody's syllables: `2 * timeSignature` of them (none when that is
      not positive), cycling through the scale from its first degree. */
  function MelodyNotes(isMinor: bool, timeSignature: int): (notes: seq<string>)
    ensures |notes| == if timeSignature > 0 then 2 * timeSignature else 0
    ensures forall i :: 0 <= i < |notes| ==> notes[i] == Solfege(isMinor)[i % 7]
  {
    var count := if timeSignature > 0 then 2 * timeSignature else 0;
    seq(count, i requires 0 <= i < count => Solfege(isMinor)[i % 7])
  }

  /** The melody opens on the tonic and, once it is longer than a scale,
      returns to the tonic on its eighth note. */
  lemma MelodyCycles(isMinor: bool, timeSignature: int)
    requires timeSignature > 0
    ensures var notes := MelodyNotes(isMinor, timeSignature);
      && notes[0] == Solfege(isMinor)[0]
      && (|notes| > 7 ==> notes[7] == notes[0])
      && forall i :: 0 <= i < |notes| - 7 ==> notes[i + 7] == notes[i]
  {
    var notes := MelodyNotes(isMinor, timeSignature);
    forall i | 0 <= i < |notes| - 7
      ensures notes[i + 7] == notes[i]
    {
      assert (i + 7) % 7 == i % 7;
    }
  }

  /** The melody line: the syllables joined by single spaces. */
  function Melody(keyName: string, isMinor: bool, timeSignature: int): string {
    Join(MelodyNotes(isMinor, timeSignature), " ")
  }

  const Quarter := "♩"

  /** One quarter-note sign per beat, joined by single spaces: empty when the
      beat count is not positive, and splitting on spaces gives the signs back. */
  function MeasureBars(timeSignature: int): (r: string)
    ensures timeSignature <= 0 ==> r == ""
    ensures timeSignature > 0 ==> Split(r, ' ') == seq(timeSignature, _ => Quarter)
  {
    var count := if timeSignature > 0 then timeSignature else 0;
    var bars := seq(count, _ => Quarter);
    assert forall i :: 0 <= i < |bars| ==> ' ' !in bars[i];
    if count > 0 then
      SplitJoin(bars, ' ');
      Join(bars, " ")
    else ""
  }

  const PopupBlockedMessage := "ポップアップがブロックされました。ポップアップを許可してください。"

  /** The printable document's computed text. */
  datatype Document = Document(
    title: string, artist: string, summary: Music.Summary,
    scale: string, chords: string, bars: string, rhythm: string, melody: string)

  /** The document for a track (name and first artist, each possibly missing)
      and descriptors, or the blocked-popup alert when no window opened. Only
      mode 0 counts as minor for the scale and melody. */
  function Generate(windowOpened: bool, trackName: Option<string>, firstArtist: Option<string>,
                    features: Option<AudioFeatures>): (r: Result<Document, string>)
    ensures !windowOpened ==> r == Err(PopupBlockedMessage)
    ensures windowOpened ==> r.Ok?
    ensures r.Ok? ==>
      && r.value.title == Js.StrOr(trackName, "楽曲")
      && r.value.artist == Js.StrOr(firstArtist, "アーティスト不明")
    ensures r.Ok? ==>
      && r.value.summary == Music.SummaryOf(features)
      && r.value.scale == Join(Solfege(Music.ParamsOf(features).mode == 0), " - ")
      && r.value.chords == ChordProgression(r.value.summary.keyName, r.value.summary.modeName, Music.ParamsOf(features).tempo)
      && r.value.bars == MeasureBars(Music.ParamsOf(features).timeSignature)
      && r.value.rhythm == Music.RhythmNotation(Music.ParamsOf(features).timeSignature, Music.ParamsOf(features).tempo)
      && r.value.melody == Join(MelodyNotes(Music.ParamsOf(features).mode == 0, Music.ParamsOf(features).timeSignature), " ")
  {
    if !windowOpened then Err(PopupBlockedMessage)
    else
      var p := Music.ParamsOf(features);
      var summary := Music.SummaryOf(features);
      var isMinor := p.mode == 0;
      Ok(Document(
        Js.StrOr(trackName, "楽曲"), Js.StrOr(firstArtist, "アーティスト不明"), summary,
        ScaleNotes(summary.keyName, isMinor),
        ChordProgression(summary.keyName, summary.modeName, p.tempo),
        MeasureBars(p.timeSignature),
        Music.RhythmNotation(p.timeSignature, p.tempo),
        Melody(summary.keyName, isMinor, p.timeSignature)))
  }

  /** No syllable holds a space, so the melody line splits back into them. */
  lemma SyllablesHaveNoSpace(isMinor: bool)
    ensures forall i :: 0 <= i < |Solfege(isMinor)| ==> ' ' !in Solfege(isMinor)[i]
  {
  }

  /** When a window opened, the document reads back: the progression opens on
      the printed key name, and for a positive beat count the bar line splits
      into one quarter sign per beat and the melody line into its syllables. */
  lemma DocumentReadsBack(trackName: Option<string>, firstArtist: Option<string>, features: Option<AudioFeatures>)
    ensures var r := Generate(true, trackName, firstArtist, features); var p := Music.ParamsOf(features);
      && r.Ok?
      && r.value.summary.keyName <= r.value.chords
      && (p.timeSignature > 0 ==> Split(r.value.bars, ' ') == seq(p.timeSignature, _ => Quarter))
      && (p.timeSignature > 0 ==> Split(r.value.melody, ' ') == MelodyNotes(p.mode == 0, p.timeSignature))
  {
    var doc := Generate(true, trackName, firstArtist, features).value;
    var p := Music.ParamsOf(features);
    ChordsOpenOnKey(doc.summary.keyName, doc.summary.modeName, p.tempo);
    if p.timeSignature > 0 {
      MelodySplits(p.mode == 0, p.timeSignature);
    }
  }

  /** The progression text starts with the key name it was given. */
  lemma ChordsOpenOnKey(key: string, mode: string, tempo: real)
    ensures key <= ChordProgression(key, mode, tempo)
  {
    var chords := Chords(key, mode, tempo);
    var joined := Join(chords, " - ");
    JoinStartsWithFirst(chords, " - ");
    assert chords[0] <= joined + Remark(mode, tempo);
  }

  /** The melody line splits back into its syllables. */
  lemma MelodySplits(isMinor: bool, timeSignature: int)
    requires timeSignature > 0
    ensures Split(Melody("", isMinor, timeSignature), ' ') == MelodyNotes(isMinor, timeSignature)
  {
    var notes := MelodyNotes(isMinor, timeSignature);
    SyllablesHaveNoSpace(isMinor);
    assert forall i :: 0 <= i < |notes| ==> ' ' !in notes[i];
    SplitJoin(notes, ' ');
  }

  /** Only mode 0 selects minor syllables but only mode 1 prints "major", so
      any other mode value prints "minor" over the major syllables. */
  lemma OtherModeMixesLabels(trackName: Option<string>, firstArtist: Option<string>, f: AudioFeatures, mode: int)
    requires f.mode == Some(mode) && mode != 0 && mode != 1
    ensures var r := Generate(true, trackName, firstArtist, Some(f));
      && r.Ok?
      && r.value.summary.modeName == Music.MinorLabel
      && r.value.scale == Join(MajorSolfege, " - ")
  {
  }
}

=== FILE: player.dfy ===
/** The player screen: one polling cycle (read what is playing, then that
    track's audio descriptors), the message a failed cycle shows, and which
    of the four screens the resulting state renders. */
module Player {
  import opened Wrappers
  import opened Http
  import opened Features
  import Js

  /** The parts of a track the screen reads. `id` may be missing or empty in a
      payload, which is why it is optional. */
  datatype Track = Track(id: Option<string>, name: string, artists: seq<string>, albumName: string, durationMs: int)

  /** The currently-playing payload; `item` is absent between tracks or for ads. */
  datatype Playback = Playback(item: Option<Track>, isPlaying: bool, progressMs: int)

  /** The component's four pieces of state. The error is whatever value was
      handed to `setError`: one of the fixed texts or the server's own
      `message`, which need not be a string. */
  datatype UiState = UiState(
    currentTrack: Option<Playback>,
    audioFeatures: Option<AudioFeatures>,
    isLoading: bool,
    error: Option<Json>)

  /** The state before the first cycle completes. */
  const Initial := UiState(None, None, true, None)

  const ForbiddenMessage := "アクセス権限がありません。再度ログインしてください。"
  const ExpiredMessage := "認証の有効期限が切れました。再度ログインしてください。"
  const FallbackMessage := "楽曲情報の取得に失敗しました"

  /** `err.response?.data?.message`, of whatever JSON type the server sent. */
  function ServerMessage(f: Failure): Option<Json> {
    if f.HttpError? then Field(f.data, "message") else None
  }

  /** The server sent a `message` that passes the truthiness test. */
  predicate TruthyServerMessage(f: Failure) {
    ServerMessage(f).Some? && JsonTruthy(ServerMessage(f).value)
  }

  /** The status of the rejected call, when the server answered at all. */
  function StatusOf(f: Failure): Option<int> {
    if f.HttpError? then Some(f.status) else None
  }

  /** The value `setError` receives when the currently-playing call fails: 403
      and 401 have fixed texts, then the server's own truthy message (a number,
      `true`, an array or an object passes the test as well as a string), then a
      generic text. It is always truthy, so a failed cycle always takes the
      error branch. */
  function ErrorMessage(f: Failure): (m: Json)
    ensures StatusOf(f) == Some(403) ==> m == JStr(ForbiddenMessage)
    ensures StatusOf(f) == Some(401) ==> m == JStr(ExpiredMessage)
    ensures StatusOf(f) != Some(403) && StatusOf(f) != Some(401) && TruthyServerMessage(f) ==>
      m == ServerMessage(f).value
    ensures StatusOf(f) != Some(403) && StatusOf(f) != Some(401) && !TruthyServerMessage(f) ==>
      m == JStr(FallbackMessage)
    ensures JsonTruthy(m)
  {
    if StatusOf(f) == Some(403) then JStr(ForbiddenMessage)
    else if StatusOf(f) == Some(401) then JStr(ExpiredMessage)
    else match ServerMessage(f)
      case Some(message) => if JsonTruthy(message) then message else JStr(FallbackMessage)
      case None => JStr(FallbackMessage)
  }

  /** `data?.item?.id` when truthy: the track whose descriptors a cycle fetches. */
  function TrackIdOf(data: Option<Playback>): (r: Option<string>)
    ensures r.Some? <==> data.Some? && data.value.item.Some? && Js.Truthy(data.value.item.value.id)
    ensures r.Some? ==> r == data.value.item.value.id
  {
    if data.Some? && data.value.item.Some? && Js.Truthy(data.value.item.value.id)
    then data.value.item.value.id
    else None
  }

  /** What one cycle leaves behind: the new state, the track whose descriptors
      were requested (if any), and whether the delayed logout-and-reload was
      scheduled. */
  datatype Cycle = Cycle(state: UiState, featuresRequestedFor: Option<string>, logoutScheduled: bool)

  /** One polling cycle. `playing` is the outcome of the currently-playing call;
      `features` is the outcome the descriptors call would have, consulted only
      when the cycle makes that call. A descriptors failure is swallowed: the
      screen keeps working without them. */
  function PollStep(prev: UiState, playing: Result<Option<Playback>, Failure>,
                    features: Result<Option<AudioFeatures>, Failure>): (r: Cycle)
    ensures !r.state.isLoading
    ensures playing.Ok? ==> r.state.currentTrack == playing.value && r.state.error == None
    ensures playing.Ok? ==> r.featuresRequestedFor == TrackIdOf(playing.value)
    ensures playing.Ok? && r.featuresRequestedFor.None? ==> r.state.audioFeatures == prev.audioFeatures
    ensures playing.Ok? && r.featuresRequestedFor.Some? ==>
      r.state.audioFeatures == (if features.Ok? then features.value else None)
    ensures playing.Err? ==>
      && r.state.currentTrack == prev.currentTrack
      && r.state.audioFeatures == prev.audioFeatures
      && r.state.error == Some(ErrorMessage(playing.error))
      && r.featuresRequestedFor == None
    ensures r.logoutScheduled <==> playing.Err? && StatusOf(playing.error) == Some(401)
  {
    match playing
    case Ok(data) =>
      var id := TrackIdOf(data);
      var shown := if id.None? then prev.audioFeatures
                   else if features.Ok? then features.value
                   else None;
      Cycle(UiState(data, shown, false, None), id, false)
    case Err(f) =>
      Cycle(prev.(isLoading := false, error := Some(ErrorMessage(f))), None, StatusOf(f) == Some(401))
  }

  /** Whether React can put a value in the page as a child: strings, numbers,
      booleans and `null` can (a boolean or `null` shows nothing), an array can
      when its items can, and a plain object cannot. */
  predicate Printable(j: Json) {
    match j
    case JObj(_) => false
    case JArr(items) => forall i :: 0 <= i < |items| ==> Printable(items[i])
    case _ => true
  }

  /** The screens the component can render. `RenderThrows` stands for a render
      that throws: with no error boundary above it, React unmounts the page. */
  datatype Screen =
    | Loading
    | ErrorScreen(message: Json)
    | NothingPlaying
    | TrackScreen(playback: Playback, features: Option<AudioFeatures>)
    | RenderThrows

  /** Loading wins over an error, an error over the track view, and a missing
      payload shows the "nothing playing" notice. An error value React cannot
      print, or a playback without `item` (whose `item.name` is read for the
      mood panel and whose `item.album` is read for the card), makes the render
      throw. */
  function Render(s: UiState): (v: Screen)
    ensures v.Loading? <==> s.isLoading
    ensures v.ErrorScreen? <==>
      !s.isLoading && s.error.Some? && JsonTruthy(s.error.value) && Printable(s.error.value)
    ensures v.ErrorScreen? ==> v.message == s.error.value
    ensures v.NothingPlaying? <==>
      !s.isLoading && !(s.error.Some? && JsonTruthy(s.error.value)) && s.currentTrack.None?
    ensures v.TrackScreen? <==>
      && !s.isLoading && !(s.error.Some? && JsonTruthy(s.error.value))
      && s.currentTrack.Some? && s.currentTrack.value.item.Some?
    ensures v.TrackScreen? ==> v.playback == s.currentTrack.value && v.features == s.audioFeatures
  {
    if s.isLoading then Loading
    else if s.error.Some? && JsonTruthy(s.error.value) then
      if Printable(s.error.value) then ErrorScreen(s.error.value) else RenderThrows
    else if s.currentTrack.None? then NothingPlaying
    else if s.currentTrack.value.item.None? then RenderThrows
    else TrackScreen(s.currentTrack.value, s.audioFeatures)
  }

  /** After any cycle the spinner is gone, and the screen follows the
      currently-playing outcome alone: its failure value (or a throwing render
      when that value is an object), the notice, the track, or a throwing
      render for a playback without a track. A descriptors failure never
      reaches the screen as an error. */
  lemma ScreenAfterCycle(prev: UiState, playing: Result<Option<Playback>, Failure>,
                         features: Result<Option<AudioFeatures>, Failure>)
    ensures var v := Render(PollStep(prev, playing, features).state);
      && (playing.Err? && Printable(ErrorMessage(playing.error)) ==> v == ErrorScreen(ErrorMessage(playing.error)))
      && (playing.Err? && !Printable(ErrorMessage(playing.error)) ==> v == RenderThrows)
      && (playing == Ok(None) ==> v == NothingPlaying)
      && (playing.Ok? && playing.value.Some? && playing.value.value.item.Some? ==>
            v.TrackScreen? && v.playback == playing.value.value)
      && (playing.Ok? && playing.value.Some? && playing.value.value.item.None? ==> v == RenderThrows)
  {
  }

  /** A string message from the server is shown as it is; an object sent as
      `message` brings the page down. */
  lemma ServerMessageShapes(status: int, statusText: string, text: string, fields: seq<(string, Json)>)
    requires status != 403 && status != 401 && text != ""
    ensures Render(PollStep(Initial, Err(HttpError(status, statusText, JObj([("message", JStr(text))]))), Ok(None)).state)
      == ErrorScreen(JStr(text))
    ensures Render(PollStep(Initial, Err(HttpError(status, statusText, JObj([("message", JObj(fields))]))), Ok(None)).state)
      == RenderThrows
  {
  }

  /** A successful cycle clears the error a failed one left: the retry button's
      purpose. */
  lemma RecoveryClearsError(prev: UiState, f: Failure, data: Option<Playback>,
                            features: Result<Option<AudioFeatures>, Failure>)
    ensures var failed := PollStep(prev, Err(f), features).state;
      && (Printable(ErrorMessage(f)) ==> Render(failed) == ErrorScreen(ErrorMessage(f)))
      && PollStep(failed, Ok(data), features).state.error == None
  {
  }
}

=== FILE: simple_sheet.dfy ===
/** The fallback sheet: a header of key, mode, tempo and meter drawn without
    staff notation. */
module SimpleSheet {
  import opened Wrappers
  import opened Features
  import opened Strings
  import Music
  import Js

  datatype Header = Header(keyName: string, modeName: string, bpm: string, meter: string)

  /** The header for possibly absent descriptors. Key, tempo and meter fall
      back (with `??`) to 0, 120 and 4; the key is named from the sharps-only
      table with `C` outside it; the mode is read without a default, so only a
      present mode of exactly 1 is major. */
  function HeaderOf(features: Option<AudioFeatures>): (h: Header)
    ensures var key := if features.Some? then features.value.key.GetOr(0) else 0;
      h.keyName == (if 0 <= key < 12 then Music.SharpKeyNames[key] else "C")
    ensures h.modeName == Music.MajorLabel <==> features.Some? && features.value.mode == Some(1)
    ensures h.modeName == Music.MinorLabel <==> !(features.Some? && features.value.mode == Some(1))
    ensures var tempo := if features.Some? then features.value.tempo.GetOr(120.0) else 120.0;
      ParseInt(h.bpm) == Some(Js.Round(tempo))
    ensures var ts := if features.Some? then features.value.timeSignature.GetOr(4) else 4;
      ParseInt(h.meter) == Some(ts)
  {
    var key := if features.Some? then features.value.key.GetOr(0) else 0;
    var tempo := if features.Some? then features.value.tempo.GetOr(120.0) else 120.0;
    var ts := if features.Some? then features.value.timeSignature.GetOr(4) else 4;
    var mode := if features.Some? then features.value.mode else None;
    Music.NamesNonEmpty();
    Header(Music.KeyNameOr(Music.SharpKeyNames, key, "C"), Music.ModeLabel(mode),
      Music.BpmLabel(tempo), Music.MeterLabel(ts))
  }

  /** The fallback header agrees with the music-theory summary on tempo and
      meter, and on the mode whenever one is given; without a mode the summary
      says major and this header says minor. */
  lemma AgreesWithSummaryExceptMissingMode(features: Option<AudioFeatures>)
    ensures HeaderOf(features).bpm == Music.SummaryOf(features).bpm
    ensures HeaderOf(features).meter == Music.SummaryOf(features).meter
    ensures features.Some? && features.value.mode.Some? ==>
      HeaderOf(features).modeName == Music.SummaryOf(features).modeName
    ensures features.None? || features.value.mode.None? ==>
      HeaderOf(features).modeName == Music.MinorLabel && Music.SummaryOf(features).modeName == Music.MajorLabel
  {
    Music.SummaryReadsBack(features);
  }
}

=== FILE: strings.dfy ===
/** String operations the modelled TypeScript performs with built-ins:
    decimal rendering and `parseInt`, `join`, splitting on a character,
    `indexOf`, `replace` with a string pattern and `padStart`. */
module Strings {
  import opened Wrappers

  // ---------------------------------------------------------------------------
  // Decimal numbers

  predicate IsDigit(c: char) {
    '0' <= c <= '9'
  }

  predicate AllDigits(s: string) {
    forall i :: 0 <= i < |s| ==> IsDigit(s[i])
  }

  function DigitValue(c: char): nat
    requires IsDigit(c)
  {
    c as int - '0' as int
  }

  function DigitChar(d: nat): (c: char)
    requires d < 10
    ensures IsDigit(c) && DigitValue(c) == d
  {
    ('0' as int + d) as char
  }

  /** The number a string of decimal digits denotes, most significant digit first. */
  function DigitsValue(s: string): nat
    requires AllDigits(s)
  {
    if |s| == 0 then 0 else DigitsValue(s[..|s| - 1]) * 10 + DigitValue(s[|s| - 1])
  }

  /** `String(n)` for a natural number: its shortest decimal rendering. */
  function NatToString(n: nat): (s: string)
    ensures |s| >= 1 && AllDigits(s)
    ensures s[0] == '0' <==> n == 0
  {
    if n < 10 then [DigitChar(n)] else NatToString(n / 10) + [DigitChar(n % 10)]
  }

  /** Reading back a rendered natural number gives the number. */
  lemma {:induction false} NatToStringRoundTrip(n: nat)
    ensures DigitsValue(NatToString(n)) == n
  {
    if n >= 10 {
      var s := NatToString(n);
      NatToStringRoundTrip(n / 10);
      assert s[..|s| - 1] == NatToString(n / 10);
    }
  }

  /** `String(i)` for an integer. */
  function IntToString(i: int): (s: string)
    ensures |s| >= 1
    ensures s[0] == '-' <==> i < 0
  {
    if i < 0 then "-" + NatToString(-i) else NatToString(i)
  }

  /** The longest prefix of `s` made of decimal digits. */
  function LeadingDigits(s: string): (p: string)
    ensures |p| <= |s| && p == s[..|p|]
    ensures AllDigits(p)
    ensures |p| < |s| ==> !IsDigit(s[|p|])
  {
    if |s| == 0 || !IsDigit(s[0]) then "" else [s[0]] + LeadingDigits(s[1..])
  }

  /** `parseInt(s)`: an optional sign followed by the longest run of decimal digits,
      the rest ignored; `None` stands for `NaN` (no digit after the sign). */
  function ParseInt(s: string): Option<int> {
    var negative := |s| > 0 && s[0] == '-';
    var unsigned := if |s| > 0 && (s[0] == '-' || s[0] == '+') then s[1..] else s;
    var digits := LeadingDigits(unsigned);
    var magnitude: int := if |digits| == 0 then 0 else DigitsValue(digits);
    if |digits| == 0 then None
    else if negative then Some(-magnitude)
    else Some(magnitude)
  }

  /** The longest digit prefix of a digit string followed by a non-digit is that string. */
  lemma {:induction false} LeadingDigitsOfDigitsThen(d: string, rest: string)
    requires AllDigits(d)
    requires |rest| == 0 || !IsDigit(rest[0])
    ensures LeadingDigits(d + rest) == d
  {
    if |d| > 0 {
      assert (d + rest)[1..] == d[1..] + rest;
      LeadingDigitsOfDigitsThen(d[1..], rest);
      assert d == [d[0]] + d[1..];
    }
  }

  /** `parseInt` reads back a rendered natural number, whatever non-digit text follows it. */
  lemma ParseNatPrefix(n: nat, rest: string)
    requires |rest| == 0 || !IsDigit(rest[0])
    ensures ParseInt(NatToString(n) + rest) == Some(n)
  {
    var d := NatToString(n);
    var s := d + rest;
    NatToStringRoundTrip(n);
    LeadingDigitsOfDigitsThen(d, rest);
    assert s[0] == d[0];
  }

  /** `parseInt` reads back a rendered negative number, whatever non-digit text follows it. */
  lemma ParseNegativePrefix(i: int, rest: string)
    requires i < 0
    requires |rest| == 0 || !IsDigit(rest[0])
    ensures ParseInt("-" + NatToString(-i) + rest) == Some(i)
  {
    var d := NatToString(-i);
    var s := "-" + d + rest;
    NatToStringRoundTrip(-i);
    LeadingDigitsOfDigitsThen(d, rest);
    assert s[0] == '-';
    assert s[1..] == d + rest;
    var digits := LeadingDigits(s[1..]);
    assert digits == d;
    assert DigitsValue(digits) == -i;
  }

  /** `parseInt` reads back a rendered integer, whatever non-digit text follows it. */
  lemma ParseIntPrefix(i: int, rest: string)
    requires |rest| == 0 || !IsDigit(rest[0])
    ensures ParseInt(IntToString(i) + rest) == Some(i)
  {
    if i < 0 {
      ParseNegativePrefix(i, rest);
    } else {
      ParseNatPrefix(i, rest);
    }
  }

  /** `parseInt(String(i)) === i` for every integer. */
  lemma ParseIntRoundTrip(i: int)
    ensures ParseInt(IntToString(i)) == Some(i)
  {
    ParseIntPrefix(i, "");
    assert IntToString(i) + "" == IntToString(i);
  }

  lemma ConcatAssoc(a: string, b: string, c: string)
    ensures a + b + c == a + (b + c)
  {
  }

  /** `s.padStart(2, '0')`. */
  function PadTwo(s: string): (r: string)
    ensures |r| == if |s| < 2 then 2 else |s|
    ensures r[|r| - |s|..] == s
    ensures forall i :: 0 <= i < |r| - |s| ==> r[i] == '0'
  {
    if |s| < 2 then seq(2 - |s|, _ => '0') + s else s
  }

  // ---------------------------------------------------------------------------
  // Joining and splitting

  /** `parts.join(sep)`. */
  function Join(parts: seq<string>, sep: string): string {
    if |parts| == 0 then ""
    else if |parts| == 1 then parts[0]
    else parts[0] + sep + Join(parts[1..], sep)
  }

  /** A joined list starts with its first part. */
  lemma JoinStartsWithFirst(parts: seq<string>, sep: string)
    requires |parts| >= 1
    ensures parts[0] <= Join(parts, sep)
  {
    if |parts| > 1 {
      ConcatAssoc(parts[0], sep, Join(parts[1..], sep));
    }
  }

  /** The index of the first `c` in `s`, if any. */
  function IndexOfChar(s: string, c: char): (r: Option<nat>)
    ensures r.None? <==> c !in s
    ensures r.Some? ==> r.value < |s| && s[r.value] == c && c !in s[..r.value]
  {
    if |s| == 0 then None
    else if s[0] == c then Some(0)
    else match IndexOfChar(s[1..], c)
      case None => None
      case Some(i) =>
        assert s[..i + 1] == [s[0]] + s[1..][..i];
        Some(i + 1)
  }

  lemma IndexOfCharAfterPrefix(a: string, c: char, b: string)
    requires c !in a
    ensures IndexOfChar(a + [c] + b, c) == Some(|a|)
  {
    var s := a + [c] + b;
    assert s[|a|] == c;
    assert s[..|a|] == a;
  }

  /** `s.split(sep)` for a one-character separator. */
  function Split(s: string, sep: char): (parts: seq<string>)
    ensures |parts| >= 1
    ensures forall i :: 0 <= i < |parts| ==> sep !in parts[i]
    decreases |s|
  {
    match IndexOfChar(s, sep)
    case None => [s]
    case Some(i) => [s[..i]] + Split(s[i + 1..], sep)
  }

  /** A string with the separator first occurring after `a` splits into `a`
      and the pieces of what follows. */
  lemma SplitAtFirst(a: string, sep: char, b: string)
    requires sep !in a
    ensures Split(a + [sep] + b, sep) == [a] + Split(b, sep)
  {
    var s := a + [sep] + b;
    IndexOfCharAfterPrefix(a, sep, b);
    assert s[..|a|] == a;
    assert s[|a| + 1..] == b;
  }

  /** Splitting a joined list gives the list back when no part holds the separator. */
  lemma {:induction false} SplitJoin(parts: seq<string>, sep: char)
    requires |parts| >= 1
    requires forall i :: 0 <= i < |parts| ==> sep !in parts[i]
    ensures Split(Join(parts, [sep]), sep) == parts
  {
    if |parts| > 1 {
      var head, rest := parts[0], parts[1..];
      var tail := Join(rest, [sep]);
      var s := Join(parts, [sep]);
      assert s == head + [sep] + tail;
      SplitAtFirst(head, sep, tail);
      SplitJoin(rest, sep);
      assert parts == [head] + rest;
    }
  }

  // ---------------------------------------------------------------------------
  // Searching and replacing

  /** `pat` occurs in `s` starting at index `i`. */
  predicate OccursAt(s: string, pat: string, i: nat) {
    i + |pat| <= |s| && s[i..i + |pat|] == pat
  }

  /** The first index at or after `k` where `pat` occurs. */
  function IndexOfFrom(s: string, pat: string, k: nat): (r: Option<nat>)
    ensures r.Some? ==> k <= r.value && OccursAt(s, pat, r.value)
    ensures r.Some? ==> forall j: nat :: k <= j < r.value ==> !OccursAt(s, pat, j)
    ensures r.None? ==> forall j: nat :: k <= j ==> !OccursAt(s, pat, j)
    decreases |s| - k
  {
    if k + |pat| > |s| then None
    else if s[k..k + |pat|] == pat then Some(k)
    else IndexOfFrom(s, pat, k + 1)
  }

  /** `s.indexOf(pat)`, with `None` for -1. */
  function IndexOf(s: string, pat: string): (r: Option<nat>)
    ensures r.Some? ==> OccursAt(s, pat, r.value)
    ensures r.Some? ==> forall j: nat :: j < r.value ==> !OccursAt(s, pat, j)
    ensures r.None? ==> forall j: nat :: !OccursAt(s, pat, j)
  {
    IndexOfFrom(s, pat, 0)
  }

  /** `s.replace(pat, rep)` with a string pattern: only the first occurrence is replaced. */
  function ReplaceFirst(s: string, pat: string, rep: string): string {
    match IndexOf(s, pat)
    case None => s
    case Some(i) => s[..i] + rep + s[i + |pat|..]
  }
}

=== FILE: token_store.dfy ===
/** The browser-side token lifecycle: three entries in `localStorage` holding the
    access token, the refresh token and the expiry instant (epoch milliseconds as a
    decimal string). The store is a string-to-string map threaded through each
    operation; the clock reading `now` and each network answer are parameters. */
module TokenStore {
  import opened Wrappers
  import opened Strings
  import opened Http
  import Js
  import AuthService
  import AuthRoutes

  type Store = map<string, string>

  const AccessKey: string := "spotify_access_token"
  const RefreshKey: string := "spotify_refresh_token"
  const ExpiresKey: string := "spotify_token_expires"
  const TokenKeys: set<string> := {AccessKey, RefreshKey, ExpiresKey}

  /** Five minutes in milliseconds: how early a token counts as expiring. */
  const ExpiryMarginMs: int := 5 * 60 * 1000

  const NoRefreshTokenMessage: string := "No refresh token available"

  /** The token payload the backend relays from the provider; any field may be missing. */
  datatype TokenResponse = TokenResponse(
    accessToken: Option<string>,
    refreshToken: Option<string>,
    expiresIn: Option<int>,
    tokenType: Option<string>)

  /** The store after an operation, the request body it sent to the backend
      (`None` when it sent nothing) and what it returned or threw. */
  datatype Step<T> = Step(store: Store, sent: Option<string>, result: Result<T, Failure>)

  /** `localStorage.getItem(key)`. */
  function Get(store: Store, key: string): Option<string> {
    if key in store then Some(store[key]) else None
  }

  /** What `localStorage.setItem` stores for a field that may be `undefined`. */
  function StoredForm(v: Option<string>): string {
    v.GetOr("undefined")
  }

  /** `String(now + expires_in * 1000)`; a missing `expires_in` makes the sum `NaN`. */
  function ExpiryText(now: int, expiresIn: Option<int>): (s: string)
    ensures expiresIn.Some? ==> ParseInt(s) == Some(now + expiresIn.value * 1000)
    ensures expiresIn.None? ==> ParseInt(s).None?
  {
    match expiresIn
    case None => "NaN"
    case Some(seconds) =>
      ParseIntRoundTrip(now + seconds * 1000);
      IntToString(now + seconds * 1000)
  }

  /** The stored expiry as `parseInt` reads it: `None` when it is missing, empty or `NaN`. */
  function StoredExpiry(store: Store): Option<int> {
    var e := Get(store, ExpiresKey);
    if Js.Truthy(e) then ParseInt(e.value) else None
  }

  /** Keys outside the three token entries are left alone. */
  ghost predicate OthersUnchanged(before: Store, after: Store) {
    forall k :: k !in TokenKeys ==> Get(after, k) == Get(before, k)
  }

  /** `handleAuthCallback(code)`: posts the code to the backend and, when it answers,
      writes all three entries. A rejected request throws before any write. */
  function HandleAuthCallback(store: Store, now: int, code: string, response: Result<TokenResponse, Failure>)
    : (r: Step<TokenResponse>)
    ensures r.sent == Some(code) && r.result == response
    ensures response.Err? ==> r.store == store
    ensures response.Ok? ==> r.store.Keys == store.Keys + TokenKeys
    ensures response.Ok? ==> Get(r.store, AccessKey) == Some(StoredForm(response.value.accessToken))
    ensures response.Ok? ==> Get(r.store, RefreshKey) == Some(StoredForm(response.value.refreshToken))
    ensures response.Ok? && response.value.expiresIn.Some? ==>
              ParseInt(r.store[ExpiresKey]) == Some(now + response.value.expiresIn.value * 1000)
    ensures response.Ok? && response.value.expiresIn.None? ==> Get(r.store, ExpiresKey) == Some("NaN")
    ensures OthersUnchanged(store, r.store)
  {
    match response
    case Err(_) => Step(store, Some(code), response)
    case Ok(t) =>
      var written := store[AccessKey := StoredForm(t.accessToken)]
                          [RefreshKey := StoredForm(t.refreshToken)]
                          [ExpiresKey := ExpiryText(now, t.expiresIn)];
      Step(written, Some(code), response)
  }

  /** `refreshAccessToken()`: with no (or an empty) stored refresh token it throws without
      a request; otherwise it posts the stored token and, on an answer, overwrites the
      access token and the expiry, and the refresh token only when a new one came back. */
  function RefreshAccessToken(store: Store, now: int, response: Result<TokenResponse, Failure>)
    : (r: Step<TokenResponse>)
    ensures !Js.Truthy(Get(store, RefreshKey)) ==>
              r == Step(store, None, Err(PlainError(NoRefreshTokenMessage)))
    ensures Js.Truthy(Get(store, RefreshKey)) ==> r.sent == Get(store, RefreshKey) && r.result == response
    ensures r.result.Err? ==> r.store == store
    ensures r.result.Ok? ==> r.store.Keys == store.Keys + TokenKeys
    ensures r.result.Ok? ==> Get(r.store, AccessKey) == Some(StoredForm(response.value.accessToken))
    ensures r.result.Ok? ==>
              Get(r.store, RefreshKey) ==
                (if Js.Truthy(response.value.refreshToken) then response.value.refreshToken
                 else Get(store, RefreshKey))
    ensures r.result.Ok? && response.value.expiresIn.Some? ==>
              ParseInt(r.store[ExpiresKey]) == Some(now + response.value.expiresIn.value * 1000)
    ensures r.result.Ok? && response.value.expiresIn.None? ==> Get(r.store, ExpiresKey) == Some("NaN")
    ensures OthersUnchanged(store, r.store)
  {
    var refresh := Get(store, RefreshKey);
    if !Js.Truthy(refresh) then Step(store, None, Err(PlainError(NoRefreshTokenMessage)))
    else match response
      case Err(_) => Step(store, refresh, response)
      case Ok(t) =>
        var withAccess := store[AccessKey := StoredForm(t.accessToken)];
        var withRefresh := if Js.Truthy(t.refreshToken) then withAccess[RefreshKey := t.refreshToken.value]
                           else withAccess;
        Step(withRefresh[ExpiresKey := ExpiryText(now, t.expiresIn)], refresh, response)
  }

  /** `getAccessToken()`: the stored token unless the token or the expiry entry is
      missing or empty, or `now` is strictly past the expiry. A `NaN` expiry never
      compares greater, so it leaves the token valid. */
  function GetAccessToken(store: Store, now: int): (r: Option<string>)
    ensures r.Some? ==> r == Get(store, AccessKey) && r.value != ""
    ensures r.None? <==>
              || !Js.Truthy(Get(store, AccessKey))
              || !Js.Truthy(Get(store, ExpiresKey))
              || (StoredExpiry(store).Some? && now > StoredExpiry(store).value)
  {
    var token := Get(store, AccessKey);
    var expires := Get(store, ExpiresKey);
    if !Js.Truthy(token) || !Js.Truthy(expires) then None
    else match ParseInt(expires.value)
      case None => token
      case Some(e) => if now > e then None else token
  }

  /** `isTokenExpiringSoon()`: true when no expiry is stored, otherwise whether `now`
      is past the expiry minus five minutes (never for a `NaN` expiry). */
  function IsTokenExpiringSoon(store: Store, now: int): (r: bool)
    ensures !Js.Truthy(Get(store, ExpiresKey)) ==> r
    ensures StoredExpiry(store).Some? ==> (r <==> now > StoredExpiry(store).value - ExpiryMarginMs)
    ensures Js.Truthy(Get(store, ExpiresKey)) && StoredExpiry(store).None? ==> !r
  {
    var expires := Get(store, ExpiresKey);
    if !Js.Truthy(expires) then true
    else match ParseInt(expires.value)
      case None => false
      case Some(e) => now > e - ExpiryMarginMs
  }

  /** `logout()`: removes exactly the three token entries. */
  function Logout(store: Store): (r: Store)
    ensures r.Keys == store.Keys - TokenKeys
    ensures forall k :: k in r ==> r[k] == store[k]
  {
    store - TokenKeys
  }

  const ServerErrorPrefix: string := "サーバーエラー: "
  const ConnectFailedMessage: string := "サーバーに接続できません。ネットワーク接続を確認してください。"
  const InitFailedMessage: string := "認証の初期化に失敗しました。"

  /** `getAuthUrl()`: the `authUrl` field of the login response (`None` when missing), or
      an `Error` whose message says how the request failed: the status and status text
      when the server answered, a connection message when nothing came back, and an
      initialisation message otherwise. A `null` body makes `.authUrl` throw a
      `TypeError`, which has neither `response` nor `request`, so it too ends in the
      initialisation message. */
  function GetAuthUrl(response: Result<Json, Failure>): (r: Result<Option<Json>, Failure>)
    ensures response.Ok? && response.value != JNull ==> r == Ok(Field(response.value, "authUrl"))
    ensures response == Ok(JNull) ==> r == Err(PlainError(InitFailedMessage))
    ensures response.Err? ==> r.Err? && r.error.PlainError?
    ensures response.Err? && response.error.HttpError? ==>
              r.error.message == ServerErrorPrefix + IntToString(response.error.status) + " " + response.error.statusText
    ensures response.Err? && response.error.HttpError? ==>
              && |r.error.message| > |ServerErrorPrefix|
              && r.error.message[..|ServerErrorPrefix|] == ServerErrorPrefix
              && ParseInt(r.error.message[|ServerErrorPrefix|..]) == Some(response.error.status)
    ensures response == Err(NetworkError) ==> r == Err(PlainError(ConnectFailedMessage))
    ensures response.Err? && response.error.PlainError? ==> r == Err(PlainError(InitFailedMessage))
  {
    match response
    case Ok(JNull) => Err(PlainError(InitFailedMessage))
    case Ok(data) => Ok(Field(data, "authUrl"))
    case Err(HttpError(status, statusText, _)) =>
      var tail := IntToString(status) + " " + statusText;
      ParseIntPrefix(status, " " + statusText);
      assert tail == IntToString(status) + (" " + statusText);
      var message := ServerErrorPrefix + tail;
      assert message[|ServerErrorPrefix|..] == tail;
      assert message == ServerErrorPrefix + IntToString(status) + " " + statusText;
      Err(PlainError(message))
    case Err(NetworkError) => Err(PlainError(ConnectFailedMessage))
    case Err(PlainError(_)) => Err(PlainError(InitFailedMessage))
  }

  // ---------------------------------------------------------------------------
  // Properties relating the operations

  /** After a successful code exchange at `t0` with a non-empty access token that is
      valid for `d` seconds, the token is returned exactly up to and including `t0 + d*1000`. */
  lemma CallbackThenRead(store: Store, t0: int, code: string, response: TokenResponse, now: int)
    requires Js.Truthy(response.accessToken) && response.expiresIn.Some?
    ensures var after := HandleAuthCallback(store, t0, code, Ok(response)).store;
            && (GetAccessToken(after, now) == response.accessToken <==> now <= t0 + response.expiresIn.value * 1000)
            && (GetAccessToken(after, now).None? <==> now > t0 + response.expiresIn.value * 1000)
            && (IsTokenExpiringSoon(after, now) <==> now > t0 + response.expiresIn.value * 1000 - ExpiryMarginMs)
  {
    var after := HandleAuthCallback(store, t0, code, Ok(response)).store;
    assert Get(after, ExpiresKey) == Some(after[ExpiresKey]);
    assert after[ExpiresKey] != "" by {
      assert ParseInt(after[ExpiresKey]).Some?;
    }
  }

  /** The login route's reply, read by `getAuthUrl`, yields the authorization URL
      the backend built. */
  lemma LoginReplyReadsBack(c: AuthService.Config)
    ensures GetAuthUrl(Ok(AuthRoutes.Login(c).body)) == Ok(Some(JStr(AuthService.Href(AuthService.AuthorizationUrl(c)))))
  {
  }

  /** The three ways `getAuthUrl` can fail give three different messages, so the
      message alone tells a server answer, a missing answer and a local error apart. */
  lemma AuthUrlFailuresDistinct(f: Failure)
    ensures var m := GetAuthUrl(Err(f)).error.message;
      && (f.HttpError? ==> m != ConnectFailedMessage && m != InitFailedMessage)
      && (f == NetworkError ==> m != InitFailedMessage)
  {
    if f.HttpError? {
      var m := GetAuthUrl(Err(f)).error.message;
      assert m[..|ServerErrorPrefix|] == ServerErrorPrefix;
      assert ConnectFailedMessage[4] != ServerErrorPrefix[4];
      assert InitFailedMessage[0] != ServerErrorPrefix[0];
    }
  }

  /** A login reply without `expires_in` stores `"NaN"`, so the new token is never
      withheld and never counts as expiring: it is never refreshed. */
  lemma MissingLifetimeNeverExpires(store: Store, t0: int, code: string, response: TokenResponse, now: int)
    requires Js.Truthy(response.accessToken) && response.expiresIn.None?
    ensures var after := HandleAuthCallback(store, t0, code, Ok(response)).store;
            && GetAccessToken(after, now) == response.accessToken
            && !IsTokenExpiringSoon(after, now)
  {
    var after := HandleAuthCallback(store, t0, code, Ok(response)).store;
    assert ParseInt("NaN").None? by {
      assert LeadingDigits("NaN") == "";
    }
  }

  /** At `now == expiry` the token is still returned. */
  lemma ValidAtExpiryInstant(store: Store, now: int)
    requires Js.Truthy(Get(store, AccessKey))
    requires StoredExpiry(store) == Some(now)
    ensures GetAccessToken(store, now) == Get(store, AccessKey)
  {
  }

  /** Whenever the token is withheld because it expired, it is also reported as expiring soon. */
  lemma ExpiredImpliesExpiringSoon(store: Store, now: int)
    requires Js.Truthy(Get(store, AccessKey))
    requires GetAccessToken(store, now).None?
    ensures IsTokenExpiringSoon(store, now)
  {
  }

  /** After logout there is no token, it counts as expiring, and a refresh sends nothing. */
  lemma LogoutClearsSession(store: Store, now: int, response: Result<TokenResponse, Failure>)
    ensures GetAccessToken(Logout(store), now).None?
    ensures IsTokenExpiringSoon(Logout(store), now)
    ensures RefreshAccessToken(Logout(store), now, response)
              == Step(Logout(store), None, Err(PlainError(NoRefreshTokenMessage)))
  {
  }
}

=== FILE: vexflow_sheet.dfy ===
/** The staff-notation sheet: a time signature, a key signature and one bar of
    quarter notes walking up the major scale of the key at octave 4. */
module VexflowSheet {
  import opened Wrappers
  import opened Strings
  import Music
  import Js

  /** The major scale of every pitch class, spelled with sharps. */
  const MajorScales: seq<seq<string>> := [
    ["C", "D", "E", "F", "G", "A", "B"],
    ["C♯", "D♯", "F", "F♯", "G♯", "A♯", "C"],
    ["D", "E", "F♯", "G", "A", "B", "C♯"],
    ["D♯", "F", "G", "G♯", "A♯", "C", "D"],
    ["E", "F♯", "G♯", "A", "B", "C♯", "D♯"],
    ["F", "G", "A", "A♯", "C", "D", "E"],
    ["F♯", "G♯", "A♯", "B", "C♯", "D♯", "F"],
    ["G", "A", "B", "C", "D", "E", "F♯"],
    ["G♯", "A♯", "C", "C♯", "D♯", "F", "G"],
    ["A", "B", "C♯", "D", "E", "F♯", "G♯"],
    ["A♯", "C", "D", "D♯", "F", "G", "A"],
    ["B", "C♯", "D♯", "E", "F♯", "G♯", "A♯"]
  ]

  /** Semitones above the tonic of the seven degrees of a major scale. */
  const MajorDegrees: seq<int> := [0, 2, 4, 5, 7, 9, 11]

  /** The table is twelve rows of seven names; row `k` starts on the `k`-th
      chromatic name and its degrees sit at the major-scale intervals above it. */
  lemma MajorScalesAreMajor()
    ensures |MajorScales| == 12
    ensures forall k :: 0 <= k < 12 ==> |MajorScales[k]| == 7
    ensures forall k :: 0 <= k < 12 ==> MajorScales[k][0] == Music.SharpKeyNames[k]
    ensures forall k, i :: 0 <= k < 12 && 0 <= i < 7 ==>
      MajorScales[k][i] == Music.SharpKeyNames[(k + MajorDegrees[i]) % 12]
  {
    forall k | 0 <= k < 12
      ensures |MajorScales[k]| == 7 && MajorScales[k][0] == Music.SharpKeyNames[k]
      ensures forall i :: 0 <= i < 7 ==> MajorScales[k][i] == Music.SharpKeyNames[(k + MajorDegrees[i]) % 12]
    {
      RowIsMajor(k);
    }
  }

  lemma RowIsMajor(k: int)
    requires 0 <= k < 12
    ensures |MajorScales[k]| == 7 && MajorScales[k][0] == Music.SharpKeyNames[k]
    ensures forall i :: 0 <= i < 7 ==> MajorScales[k][i] == Music.SharpKeyNames[(k + MajorDegrees[i]) % 12]
  {
    forall i | 0 <= i < 7
      ensures MajorScales[k][i] == Music.SharpKeyNames[(k + MajorDegrees[i]) % 12]
    {
      Music.TwelveCases(k);
    }
  }

  /** The row for a key: `majorScales[key] || majorScales[0]`. The mode is not
      consulted, so minor keys also get the major scale. */
  function ScaleRow(key: int): (row: seq<string>)
    ensures |row| == 7
    ensures 0 <= key < 12 ==> row == MajorScales[key]
    ensures !(0 <= key < 12) ==> row == MajorScales[0]
  {
    match Js.At(MajorScales, key)
    case Some(row) => row
    case None => MajorScales[0]
  }

  /** A note name in VexFlow's spelling: the first `♯` becomes `#`, then the
      first `♭` becomes `b`. */
  function VexName(name: string): string {
    ReplaceFirst(ReplaceFirst(name, "♯", "#"), "♭", "b")
  }

  /** The chromatic names in VexFlow's spelling. */
  const VexSharpNames: seq<string> := ["C", "C#", "D", "D#", "E", "F", "F#", "G", "G#", "A", "A#", "B"]

  /** Replacing in a name leaves a natural letter unchanged and spells a sharp
      with `#`. */
  lemma VexNamesOfSharps()
    ensures forall k :: 0 <= k < 12 ==> VexName(Music.SharpKeyNames[k]) == VexSharpNames[k]
  {
    forall k | 0 <= k < 12
      ensures VexName(Music.SharpKeyNames[k]) == VexSharpNames[k]
    {
      var name := Music.SharpKeyNames[k];
      if |name| == 1 {
        ReplaceAbsent(name, "♯", "#");
        ReplaceAbsent(name, "♭", "b");
      } else {
        SharpSpelled(name[0]);
      }
    }
  }

  /** A pattern whose first character is not in the text is never replaced. */
  lemma ReplaceAbsent(s: string, pat: string, rep: string)
    requires |pat| > 0 && pat[0] !in s
    ensures ReplaceFirst(s, pat, rep) == s
  {
    match IndexOf(s, pat)
    case None =>
    case Some(i) =>
      assert false;
  }

  /** A letter followed by `♯` is spelled letter then `#`. */
  lemma SharpSpelled(letter: char)
    requires letter != '♯' && letter != '♭' && letter != '#'
    ensures VexName([letter, '♯']) == [letter, '#']
  {
    var s := [letter, '♯'];
    assert OccursAt(s, "♯", 1);
    assert !OccursAt(s, "♯", 0) by {
      assert s[0..1][0] == letter;
    }
    var t := ReplaceFirst(s, "♯", "#");
    assert t == [letter, '#'];
    ReplaceAbsent(t, "♭", "b");
  }

  /** The pitch class a key-signature name denotes: a letter, then an optional
      `#` (one semitone up) or `b` (one down). */
  function TonicOf(name: string): (r: Option<int>)
    ensures r.Some? ==> 0 <= r.value < 12
  {
    if |name| == 0 then None
    else
      var letter := match name[0]
        case 'C' => Some(0) case 'D' => Some(2) case 'E' => Some(4) case 'F' => Some(5)
        case 'G' => Some(7) case 'A' => Some(9) case 'B' => Some(11) case _ => None;
      var accidental := if |name| > 1 && name[1] == '#' then 1 else if |name| > 1 && name[1] == 'b' then -1 else 0;
      match letter
      case None => None
      case Some(v) => Some((v + accidental) % 12)
  }

  /** The signature tables as written: ordered round the circle of fifths. */
  const FifthsMajorKeys: seq<string> := ["C", "G", "D", "A", "E", "B", "F#", "C#", "F", "Bb", "Eb", "Ab"]
  const FifthsMinorKeys: seq<string> := ["Am", "Em", "Bm", "F#m", "C#m", "G#m", "D#m", "A#m", "Dm", "Gm", "Cm", "Fm"]

  /** The same names ordered by the pitch class of their tonic. */
  const MajorKeys: seq<string> := ["C", "C#", "D", "Eb", "E", "F", "F#", "G", "Ab", "A", "Bb", "B"]
  const MinorKeys: seq<string> := ["Cm", "C#m", "Dm", "D#m", "Em", "Fm", "F#m", "Gm", "G#m", "Am", "A#m", "Bm"]

  /** `mode === 1 ? majorKeys[key] || 'C' : minorKeys[key] || 'Am'`, over
      whichever pair of tables is given. */
  function SignatureFrom(majors: seq<string>, minors: seq<string>, key: int, mode: int): (r: string)
    ensures mode == 1 && 0 <= key < |majors| && majors[key] != "" ==> r == majors[key]
    ensures mode == 1 && !(0 <= key < |majors| && majors[key] != "") ==> r == "C"
    ensures mode != 1 && 0 <= key < |minors| && minors[key] != "" ==> r == minors[key]
    ensures mode != 1 && !(0 <= key < |minors| && minors[key] != "") ==> r == "Am"
  {
    if mode == 1 then Music.KeyNameOr(majors, key, "C")
    else Music.KeyNameOr(minors, key, "Am")
  }

  /** The key signature as the generator computes it: the pitch class indexes
      tables that are in circle-of-fifths order. */
  function KeySignatureAsWritten(key: int, mode: int): (r: string)
    ensures mode == 1 ==> r in FifthsMajorKeys
    ensures mode != 1 ==> r in FifthsMinorKeys
    ensures 0 <= key < 12 ==> r == if mode == 1 then FifthsMajorKeys[key] else FifthsMinorKeys[key]
    ensures 0 <= key < 12 ==>
      TonicOf(r) == Some(if mode == 1 then FifthsMajorTonics[key] else FifthsMinorTonics[key])
    ensures !(0 <= key < 12) ==> r == (if mode == 1 then "C" else "Am")
  {
    FifthsTonics();
    SignatureFrom(FifthsMajorKeys, FifthsMinorKeys, key, mode)
  }

  /** The tonics the written tables name, in table order. */
  const FifthsMajorTonics: seq<int> := [0, 7, 2, 9, 4, 11, 6, 1, 5, 10, 3, 8]
  const FifthsMinorTonics: seq<int> := [9, 4, 11, 6, 1, 8, 3, 10, 2, 7, 0, 5]

  lemma FifthsTonics()
    ensures forall k :: 0 <= k < 12 ==> TonicOf(FifthsMajorKeys[k]) == Some(FifthsMajorTonics[k])
    ensures forall k :: 0 <= k < 12 ==> TonicOf(FifthsMinorKeys[k]) == Some(FifthsMinorTonics[k])
  {
    forall k | 0 <= k < 12
      ensures TonicOf(FifthsMajorKeys[k]) == Some(FifthsMajorTonics[k])
      ensures TonicOf(FifthsMinorKeys[k]) == Some(FifthsMinorTonics[k])
    {
      Music.TwelveCases(k);
    }
  }

  /** G major is drawn with the signature of C♯ major, C♯ major with that of
      G major, and C minor with that of A minor. */
  lemma AsWrittenMisnamesKeys()
    ensures KeySignatureAsWritten(7, 1) == "C#" && TonicOf(KeySignatureAsWritten(7, 1)) == Some(1)
    ensures KeySignatureAsWritten(1, 1) == "G" && TonicOf(KeySignatureAsWritten(1, 1)) == Some(7)
    ensures KeySignatureAsWritten(0, 0) == "Am" && TonicOf(KeySignatureAsWritten(0, 0)) == Some(9)
  {
    FifthsTonics();
  }

  /** The as-written signature names the tonic found at the key's position on
      the circle of fifths: only C, D, E and F♯ major, and no minor key at all, get
      their own signature. */
  lemma AsWrittenTonics()
    ensures forall k :: 0 <= k < 12 ==> TonicOf(KeySignatureAsWritten(k, 1)) == Some(FifthsMajorTonics[k])
    ensures forall k :: 0 <= k < 12 ==>
      (TonicOf(KeySignatureAsWritten(k, 1)) == Some(k) <==> k == 0 || k == 2 || k == 4 || k == 6)
    ensures forall k :: 0 <= k < 12 ==> TonicOf(KeySignatureAsWritten(k, 0)) != Some(k)
  {
    FifthsTonics();
    forall k | 0 <= k < 12
      ensures TonicOf(KeySignatureAsWritten(k, 1)) == Some(FifthsMajorTonics[k])
      ensures TonicOf(KeySignatureAsWritten(k, 0)) == Some(FifthsMinorTonics[k])
      ensures FifthsMajorTonics[k] == k <==> k == 0 || k == 2 || k == 4 || k == 6
      ensures FifthsMinorTonics[k] != k
    {
      Music.TwelveCases(k);
    }
  }

  /** The key signature the stave is drawn with: the same spellings, looked up
      by pitch class. Its tonic is the key whenever the key is in range. */
  function KeySignature(key: int, mode: int): (r: string)
    ensures mode == 1 ==> r in MajorKeys
    ensures mode != 1 ==> r in MinorKeys
    ensures 0 <= key < 12 ==> TonicOf(r) == Some(key)
    ensures !(0 <= key < 12) ==> r == (if mode == 1 then "C" else "Am")
  {
    CorrectedTonics();
    assert MajorKeys[0] == "C" && MinorKeys[9] == "Am";
    SignatureFrom(MajorKeys, MinorKeys, key, mode)
  }

  /** No name is in both a major and a minor table, so a signature's table
      tells the mode it was drawn for. */
  lemma SignatureTablesDisjoint()
    ensures forall i, j :: 0 <= i < 12 && 0 <= j < 12 ==> MajorKeys[i] != MinorKeys[j]
    ensures forall i, j :: 0 <= i < 12 && 0 <= j < 12 ==> FifthsMajorKeys[i] != FifthsMinorKeys[j]
  {
    forall i, j | 0 <= i < 12 && 0 <= j < 12
      ensures MajorKeys[i] != MinorKeys[j] && FifthsMajorKeys[i] != FifthsMinorKeys[j]
    {
      assert MinorKeys[j][|MinorKeys[j]| - 1] == 'm' && FifthsMinorKeys[j][|FifthsMinorKeys[j]| - 1] == 'm' by {
        Music.TwelveCases(j);
      }
      assert MajorKeys[i][|MajorKeys[i]| - 1] != 'm' && FifthsMajorKeys[i][|FifthsMajorKeys[i]| - 1] != 'm' by {
        Music.TwelveCases(i);
      }
    }
  }

  /** Both lookups draw a major key and a minor key on the same index with
      different signatures. */
  lemma SignatureTellsMode(key: int, mode: int)
    requires mode != 1
    ensures KeySignature(key, 1) != KeySignature(key, mode)
    ensures KeySignatureAsWritten(key, 1) != KeySignatureAsWritten(key, mode)
  {
    SignatureTablesDisjoint();
  }

  /** The corrected tables hold the written names, each moved to the index
      of its own tonic. */
  lemma KeyTablesReordered()
    ensures forall i :: 0 <= i < 12 ==>
      MajorKeys[FifthsMajorTonics[i]] == FifthsMajorKeys[i] && MinorKeys[FifthsMinorTonics[i]] == FifthsMinorKeys[i]
  {
    forall i | 0 <= i < 12
      ensures MajorKeys[FifthsMajorTonics[i]] == FifthsMajorKeys[i]
      ensures MinorKeys[FifthsMinorTonics[i]] == FifthsMinorKeys[i]
    {
      Music.TwelveCases(i);
    }
  }

  /** Each corrected table names all twelve tonics in order. */
  lemma CorrectedTonics()
    ensures forall k :: 0 <= k < 12 ==> TonicOf(MajorKeys[k]) == Some(k) && TonicOf(MinorKeys[k]) == Some(k)
  {
    forall k | 0 <= k < 12
      ensures TonicOf(MajorKeys[k]) == Some(k) && TonicOf(MinorKeys[k]) == Some(k)
    {
      Music.TwelveCases(k);
    }
  }

  /** The notes of the bar: one per beat (none when the beat count is not
      positive), walking the scale from its first degree and wrapping after the
      last, each in VexFlow's spelling at octave 4. */
  method SimpleMelody(scale: seq<string>, timeSignature: int) returns (keys: seq<string>)
    requires |scale| > 0
    ensures |keys| == if timeSignature > 0 then timeSignature else 0
    ensures forall i :: 0 <= i < |keys| ==> keys[i] == VexName(scale[i % |scale|]) + "/4"
  {
    keys := [];
    var i := 0;
    while i < timeSignature
      invariant 0 <= i <= (if timeSignature > 0 then timeSignature else 0)
      invariant |keys| == i
      invariant forall j :: 0 <= j < i ==> keys[j] == VexName(scale[j % |scale|]) + "/4"
    {
      keys := keys + [VexName(scale[i % |scale|]) + "/4"];
      i := i + 1;
    }
  }

  /** What the stave shows: `${timeSignature}/4`, the key signature and the
      bar's notes. */
  datatype Stave = Stave(timeSignature: string, keySignature: string, notes: seq<string>)

  /** `generateBasicSheet` as written: the stave takes the signature from the
      circle-of-fifths tables indexed by pitch class. */
  method BasicSheet(key: int, mode: int, timeSignature: int) returns (s: Stave)
    ensures ParseInt(s.timeSignature) == Some(timeSignature)
    ensures s.keySignature == KeySignatureAsWritten(key, mode)
    ensures |s.notes| == if timeSignature > 0 then timeSignature else 0
    ensures forall i :: 0 <= i < |s.notes| ==> s.notes[i] == VexName(ScaleRow(key)[i % 7]) + "/4"
  {
    s := DrawStave(key, timeSignature, KeySignatureAsWritten(key, mode));
  }

  /** The same sheet with the signature looked up by pitch class. */
  method BasicSheetCorrected(key: int, mode: int, timeSignature: int) returns (s: Stave)
    ensures ParseInt(s.timeSignature) == Some(timeSignature)
    ensures mode == 1 ==> s.keySignature in MajorKeys
    ensures mode != 1 ==> s.keySignature in MinorKeys
    ensures 0 <= key < 12 ==> TonicOf(s.keySignature) == Some(key)
    ensures |s.notes| == if timeSignature > 0 then timeSignature else 0
    ensures forall i :: 0 <= i < |s.notes| ==> s.notes[i] == VexName(ScaleRow(key)[i % 7]) + "/4"
  {
    s := DrawStave(key, timeSignature, KeySignature(key, mode));
  }

  /** The stave for a given signature: the meter, the signature and the bar of
      the key's scale. */
  method DrawStave(key: int, timeSignature: int, signature: string) returns (s: Stave)
    ensures ParseInt(s.timeSignature) == Some(timeSignature)
    ensures s.keySignature == signature
    ensures |s.notes| == if timeSignature > 0 then timeSignature else 0
    ensures forall i :: 0 <= i < |s.notes| ==> s.notes[i] == VexName(ScaleRow(key)[i % 7]) + "/4"
  {
    var notes := SimpleMelody(ScaleRow(key), timeSignature);
    s := Stave(Music.MeterLabel(timeSignature), signature, notes);
  }

  /** As written, a major key's bar opens on the tonic of its signature only for
      C, D, E and F♯. */
  lemma AsWrittenMelodyOffSignature(key: int)
    requires 0 <= key < 12
    ensures TonicOf(VexName(ScaleRow(key)[0])) == TonicOf(KeySignatureAsWritten(key, 1))
      <==> key == 0 || key == 2 || key == 4 || key == 6
  {
    FirstNoteIsTonic(key);
    AsWrittenTonics();
  }

  /** The bar's first note names the key's own pitch class. */
  lemma FirstNoteIsTonic(key: int)
    requires 0 <= key < 12
    ensures TonicOf(VexName(ScaleRow(key)[0])) == Some(key)
  {
    MajorScalesAreMajor();
    VexNamesOfSharps();
    assert ScaleRow(key)[0] == Music.SharpKeyNames[key];
    SharpTonics();
  }

  /** In a major key the bar opens on the tonic the key signature names. */
  lemma MelodyOpensOnSignatureTonic(key: int)
    requires 0 <= key < 12
    ensures TonicOf(VexName(ScaleRow(key)[0])) == TonicOf(KeySignature(key, 1))
  {
    FirstNoteIsTonic(key);
  }

  lemma SharpTonics()
    ensures forall k :: 0 <= k < 12 ==> TonicOf(VexSharpNames[k]) == Some(k)
  {
    forall k | 0 <= k < 12
      ensures TonicOf(VexSharpNames[k]) == Some(k)
    {
      Music.TwelveCases(k);
    }
  }
}

=== FILE: wrappers.dfy ===
/** Option and Result, the two failure-carrying shapes the rest of the model uses
    for JavaScript's `null`/`undefined` and for thrown errors. */
module Wrappers {

  /** `None` stands for JavaScript's `null` or `undefined`. */
  datatype Option<+T> = None | Some(value: T) {

    /** The value, or `default` when absent (JavaScript's `x ?? default`). */
    function GetOr(default: T): T {
      match this
      case Some(v) => v
      case None => default
    }
  }

  /** The outcome of an operation that either returns a value or throws. */
  datatype Result<+R, +E> = Ok(value: R) | Err(error: E)
}
